=== FILE: README.md ===
# Ad generator core, modelled in Dafny

This project models the pure core of a Streamlit tool that generates marketing copy with a language model. The tool reads a client's web site and optional PDF or PPTX uploads. It summarises that context and asks the model for email, LinkedIn, FaceBook, Google Search and Google Display ads. It then writes everything into an Excel workbook.

The model covers five source files:

- `utils/prompt_builder.py` (module `PromptBuilder`): the combined context and the five prompt builders. Prompts are strings. The proved properties are containment and selection facts, not exact whitespace.
- `utils/ai_helper.py` (module `AiHelper`): the bounded retry loop of `generate_content_with_ai` and the error contract of `summarize_text_with_ai`.
  - The model service is an oracle: a sequence of exactly three attempt outcomes.
  - `json.loads` is an oracle `Parser`.
- `utils/text_extractor.py` (module `TextExtractor`): URL scheme fix-up, PDF and PPTX text joining, and the dispatch on MIME type and file name.
  - `requests`/BeautifulSoup is an oracle `fetch`.
  - PyPDF2 and python-pptx are replaced by the page and shape texts they would produce.
- `utils/excel_writer.py` (module `ExcelWriter`): the workbook as an ordered list of sheets, each a header plus rows of JSON values, with the column-width rule and the file name.
- `main_app.py` (module `MainApp`): the pure steps of the Streamlit script. These are the company name, the progress step counts, context screening, reply acceptance, social-ad enrichment, `generated_counts`, the reasoning record, the `has_data` gate and error de-duplication.

Support modules:

- `Wrappers`: `Option` and `Result`.
- `Strings`: the Python `str` operations the code uses, with their own lemmas.
- `Json`: parsed values, plus Python's truthiness, `dict.get` and `str()`.

Behaviour of the code that is easy to misread, which the model follows:

- PDF page texts are concatenated with no separator. They are not joined with newlines.
- The file name drops every "www.", not only a leading one.
- In text mode an exhausted generation returns "OpenAI API error: " followed by the exception message. The fixed prefix has no "Error", so such a text is caught as error-tagged only when the message itself contains "Error". This is finding 3 below.
- The terminal object after transport failures has no `raw_content` field.

## Model

| member | source | states |
|---|---|---|
| PromptBuilder.CombinedContext | utils/prompt_builder.py:3-14 | The result is the "No context provided or extracted." sentinel exactly when none of the three summaries is present, non-empty and free of "Error". Otherwise it is the labelled usable summaries, in url, additional, downloadable order, joined by the separator. |
| PromptBuilder.CombinedContextContainsUsable | utils/prompt_builder.py:5-10 | Every usable summary appears in the context after its own label. |
| PromptBuilder.CombinedContextIgnoresUnusable | utils/prompt_builder.py:5-10 | Replacing an absent, empty or error-tagged summary by None leaves the context unchanged. |
| PromptBuilder.EmailAction | utils/prompt_builder.py:22-25 | The action is "book a sales meeting" iff the lead objective is "Sales Meeting", and "book a demo" otherwise. |
| PromptBuilder.ActionTitleIsTitle | utils/prompt_builder.py:22-27 | The title-case phrase used in the link label and the example's call to action is exactly `.title()` of the call-to-action phrase, for every lead objective: "Book A Sales Meeting" or "Book A Demo". |
| PromptBuilder.EmailLink | utils/prompt_builder.py:21-29 | The embedded link starts with the objective link, falling back to "#error-link-missing". It gains the download suffix iff the downloadable link is non-empty. |
| PromptBuilder.EmailPrompt | utils/prompt_builder.py:32-61 | The prompt contains the context, the objective-and-action line, the call-to-action link, the version line and the output-keys line. |
| PromptBuilder.DestinationKey | utils/prompt_builder.py:70-76 | Brand Awareness uses `learn_more`, Demand Gen uses `downloadable` and Demand Capture uses `objective_link`. Each holds in both directions. Any other objective gets no link. |
| PromptBuilder.DestinationInfo | utils/prompt_builder.py:70-76 | The destination text is empty iff the objective has no link key. Otherwise it ends with that link, defaulting to "#". |
| PromptBuilder.SocialKeys | utils/prompt_builder.py:78-87 | `link_description` is a key iff the platform is FaceBook. Exactly one of `introductory_text` and `primary_text` is a key. |
| PromptBuilder.SocialKeySets | utils/prompt_builder.py:78-87 | The LinkedIn and FaceBook key lists, in order. |
| PromptBuilder.SocialExampleMatchesKeys | utils/prompt_builder.py:78-87 | The example object has exactly the listed keys, in the listed order. |
| PromptBuilder.SocialPromptAsWritten | utils/prompt_builder.py:112-114 | As written, every call fails with NameError on `json`. |
| PromptBuilder.SocialPrompt | utils/prompt_builder.py:89-115 | The intended prompt contains the context, the ad objective, the destination text, the key list and the dumped example. |
| PromptBuilder.SocialPromptDefect | utils/prompt_builder.py:112-114 | The as-written builder always fails, while the intended prompt names the platform's keys. |
| PromptBuilder.SearchPrompt | utils/prompt_builder.py:117-141 | The prompt contains the context and asks for exactly 15 headlines and exactly 4 descriptions. |
| PromptBuilder.DisplayPrompt | utils/prompt_builder.py:143-167 | The prompt contains the context and asks for exactly 5 short headlines and 5 descriptions. |
| PromptBuilder.CardinalityDigits | utils/prompt_builder.py:129-135 | The cardinalities render as "15", "4", "5" and "5". |
| PromptBuilder.ReasoningPrompt | utils/prompt_builder.py:169-200 | The prompt contains the combined context of the same three summaries, one line per count key, and the plain-text instruction. |
| PromptBuilder.ReasoningPromptMissingCountIsZero | utils/prompt_builder.py:179-185 | A count key missing from the map is reported as 0. |
| AiHelper.JsonCandidate | utils/ai_helper.py:80-83 | A candidate exists iff both braces occur. A non-empty candidate runs from the first `{` to the last `}`. It is empty exactly when the last `}` precedes the first `{`. |
| AiHelper.AttemptFrom | utils/ai_helper.py:63-106 | The loop never makes more than three calls. |
| AiHelper.Generate | utils/ai_helper.py:57-64 | With no client the reply is the "Error: OpenAI client not initialized." string, even in JSON mode, after no calls. Otherwise one to three calls are made. |
| AiHelper.LastIterationReturns | utils/ai_helper.py:86-105 | The third iteration always returns. |
| AiHelper.FallThroughUnreachable | utils/ai_helper.py:63-106 | Some iteration always returns, so the trailing return is dead. |
| AiHelper.SucceedingBodyReturns | utils/ai_helper.py:75-99 | An attempt that succeeds ends the loop with its reply. |
| AiHelper.FailingBodyContinues | utils/ai_helper.py:86-103 | A failing attempt before the last one continues the loop. |
| AiHelper.FailingLastBodyReturnsError | utils/ai_helper.py:86-105 | A failing last attempt returns the terminal error reply. |
| AiHelper.AttemptFromFirstSuccess | utils/ai_helper.py:64-99 | From any iteration, the first later success is returned after exactly that many calls. |
| AiHelper.AttemptFromExhausted | utils/ai_helper.py:86-105 | If no remaining attempt succeeds, the terminal error of the last attempt is returned after three calls. |
| AiHelper.GenerateReturnsFirstSuccess | utils/ai_helper.py:84-85 | The first successful attempt's reply is returned, and no later attempt is made. |
| AiHelper.GenerateExhausted | utils/ai_helper.py:86-105 | When every attempt fails, the reply is built from the last attempt after exactly three calls. It is `{"error", "raw_content"}` for an unparsable response and "OpenAI API error: …" for a transport failure. |
| AiHelper.TextModeFirstResponse | utils/ai_helper.py:75-99 | In text mode the first response is returned stripped. |
| AiHelper.JsonModeRepliesAreObjects | utils/ai_helper.py:80-97 | When the parser only yields objects for brace-delimited text, every JSON-mode reply is an object. |
| AiHelper.SummaryPrompt | utils/ai_helper.py:29-41 | The summary prompt starts with the instruction and contains the text. |
| AiHelper.Summarize | utils/ai_helper.py:20-55 | No client or empty text gives the input error. A transport failure gives the "Error during summarization: " message. A response gives its stripped content. |
| AiHelper.SummaryFailuresAreTagged | utils/ai_helper.py:22-55 | Every failure of the summariser starts with "Error". |
| TextExtractor.NormalizeUrl | utils/text_extractor.py:11-12 | The result has a scheme and ends with the input. It equals the input iff the input already starts with "http://" or "https://". |
| TextExtractor.NormalizeUrlIdempotent | utils/text_extractor.py:11-12 | Fixing up a URL twice is the same as once. |
| TextExtractor.ExtractFromUrl | utils/text_extractor.py:8-27 | Page text is returned as fetched. A request failure and a content failure each start with their own "Error …" prefix. |
| TextExtractor.UrlFailuresAreTagged | utils/text_extractor.py:24-27 | Every URL failure starts with "Error". |
| TextExtractor.ConcatAll | utils/text_extractor.py:33-37 | The concatenation starts with the first page and ends with the last. |
| TextExtractor.ConcatAllLength | utils/text_extractor.py:33-37 | Its length is the sum of the page lengths, so no separator is inserted. |
| TextExtractor.ConcatAllAppend | utils/text_extractor.py:33-36 | Pages are appended in order: the text of two runs of pages is the first run's text followed by the second's. |
| TextExtractor.ConcatAllContainsPages | utils/text_extractor.py:33-37 | Every page's text occurs in the result. |
| TextExtractor.PdfText | utils/text_extractor.py:29-39 | An unreadable PDF gives an "Error reading PDF: " message. Otherwise the text length is the total page length. |
| TextExtractor.ExtractPdf | utils/text_extractor.py:29-39 | The page loop computes exactly `PdfText`. |
| TextExtractor.SlideTexts | utils/text_extractor.py:47-49 | Every shape with text contributes its text, and every collected text comes from such a shape. |
| TextExtractor.SlideTextsAppend | utils/text_extractor.py:47-49 | Shapes are read in order: the texts of two runs of shapes are the first run's texts followed by the second's, so order and repeats are kept. |
| TextExtractor.ShapeTextsMembers | utils/text_extractor.py:46-49 | Every shape text of every slide is collected, and every collected text is the text of some shape. |
| TextExtractor.ShapeTextsAppend | utils/text_extractor.py:46-49 | Slides are read in order: the texts of two runs of slides are the first run's texts followed by the second's. |
| TextExtractor.PptxText | utils/text_extractor.py:41-52 | An unreadable deck gives an "Error reading PPTX: " message. |
| TextExtractor.PptxTextSplitsBack | utils/text_extractor.py:45-50 | When no shape text holds a newline, splitting the extracted text on newlines gives back the shape texts in slide and shape order, so the text is those texts joined by "\n". |
| TextExtractor.PptxContainsEveryShapeText | utils/text_extractor.py:45-50 | Every shape's text occurs in the newline-joined result. |
| TextExtractor.ExtractPptx | utils/text_extractor.py:41-52 | The nested slide and shape loops compute exactly `PptxText`. |
| TextExtractor.SelectKind | utils/text_extractor.py:65-70 | PDF is selected iff the MIME type contains "pdf". PPTX is selected iff it does not and either the MIME type names the presentation type or the name ends with ".pptx". |
| TextExtractor.ExtractFromFile | utils/text_extractor.py:54-70 | No upload gives None. Each kind gives its extractor's text, and an unsupported upload gives the fixed marker. |
| TextExtractor.PdfTakesPrecedence | utils/text_extractor.py:65-68 | A PDF MIME type wins over a ".pptx" name. |
| TextExtractor.UnsupportedMarkerNotTagged | utils/text_extractor.py:69-70 | The unsupported marker does not contain "Error". |
| TextExtractor.FileFailuresAreTagged | utils/text_extractor.py:38-52 | A failing PDF or PPTX read yields an error-tagged text. |
| ExcelWriter.EmailRows | utils/excel_writer.py:67-79 | There is one row per ad, in order. Row i holds version i+1, "Demand Capture" and the four fields, each defaulting to "". |
| ExcelWriter.SocialRow | utils/excel_writer.py:91-100 | A social row has the header's width. |
| ExcelWriter.SocialRowCells | utils/excel_writer.py:91-100 | The cells are the version, `ad_name`, the objective, one cell per platform text key in order, then `destination_url` and `cta_button`, each defaulting to "". |
| ExcelWriter.SocialHeadersLineUp | utils/excel_writer.py:85-106 | Both headers start with "Version #", "Ad Name", "Objective", have one column per text key, and end with "Destination" and "CTA Button", matching the row's cells. |
| ExcelWriter.VersionedRows | utils/excel_writer.py:87-100 | Rows are produced iff every ad has one of the three objectives. A failure names the error of some ad with another objective. |
| ExcelWriter.VersionedRowsFirstFailure | utils/excel_writer.py:87-92 | The loop raises at the first ad with another objective, with that ad's error: `KeyError` of its objective, or `TypeError` for a list or dict. |
| ExcelWriter.VersionedRowsNumbering | utils/excel_writer.py:87-92 | Each row's version is its objective's counter plus the number of ads so far with that objective. |
| ExcelWriter.SocialRows | utils/excel_writer.py:83-122 | The LinkedIn and FaceBook rows exist iff every objective is known, with one row per ad. |
| ExcelWriter.SocialRowVersion | utils/excel_writer.py:108-113 | The k-th ad's version is the number of ads among the first k+1 that share its objective. |
| ExcelWriter.AsItems | utils/excel_writer.py:131-132 | Lists index as themselves and strings index by character. An empty dict reads as empty. Anything else raises. |
| ExcelWriter.SearchRows | utils/excel_writer.py:146-151 | There are exactly 15 rows. Headline i is `headlines[i]` or "". A description appears only for i < 4. |
| ExcelWriter.DisplayRows | utils/excel_writer.py:164-168 | There are exactly 5 rows, padded with "" and truncated beyond 5. |
| ExcelWriter.GoogleLists | utils/excel_writer.py:160-166 | Reading the lists succeeds iff both entries can be indexed. On failure, the headlines' exception is raised if they fail, and otherwise the descriptions'. |
| ExcelWriter.SearchLists | utils/excel_writer.py:131-150 | The Search block succeeds on exactly the replies the Display block accepts. Because `len` of both lists runs first, a list without a length raises `TypeError`, and otherwise a non-empty dict raises `KeyError(0)`. |
| ExcelWriter.SearchAndDisplayErrorsDiffer | utils/excel_writer.py:134-166 | Non-empty-dict headlines with numeric descriptions raise `KeyError` in the Display block but `TypeError` in the Search block. |
| ExcelWriter.EmptySearchResponseRows | utils/excel_writer.py:126-151 | A dict without both lists still gives 15 empty rows. |
| ExcelWriter.SectionRows | utils/excel_writer.py:176-185 | Only truthy sections give rows. When all four are truthy, all four rows appear. |
| ExcelWriter.SectionRowPresent | utils/excel_writer.py:178-185 | A section's row is present iff its field is truthy. |
| ExcelWriter.ReasoningRows | utils/excel_writer.py:172-185 | There are at most four rows, each two cells wide. |
| ExcelWriter.ReasoningRowPresent | utils/excel_writer.py:178-185 | Each reasoning field gives its titled row iff it is truthy. |
| ExcelWriter.EmailSheet | utils/excel_writer.py:67-80 | The Email sheet exists iff the email list is non-empty. |
| ExcelWriter.SocialSheet | utils/excel_writer.py:83-123 | The LinkedIn or FaceBook sheet exists iff its list is non-empty. It fails iff some ad's objective is unknown. |
| ExcelWriter.SearchSheet | utils/excel_writer.py:125-152 | The Search sheet exists iff its dict is truthy. It fails iff the lists cannot be indexed. |
| ExcelWriter.DisplaySheet | utils/excel_writer.py:155-169 | The Display sheet exists iff its dict is truthy. It fails iff the lists cannot be indexed. |
| ExcelWriter.ReasoningSheet | utils/excel_writer.py:171-187 | The Reasoning sheet exists whenever the reasoning key does. |
| ExcelWriter.Sheets | utils/excel_writer.py:61-192 | The workbook is built iff no sheet raises. |
| ExcelWriter.AppendKinds | utils/excel_writer.py:66-173 | Appending one conditional sheet block adds exactly that block's kind, and only when its condition holds. |
| ExcelWriter.BlocksRanked | utils/excel_writer.py:66-173 | The six conditional sheet blocks, concatenated in creation order, give sheets of strictly increasing rank. |
| ExcelWriter.SheetsShape | utils/excel_writer.py:66-192 | The workbook contains a sheet kind iff that sheet is wanted. The order is Email, LinkedIn, FaceBook, Google Search, Google Display, Reasoning, and every sheet is rectangular. |
| ExcelWriter.CreateReport | utils/excel_writer.py:61-203 | The report is produced iff the data is writable and some sheet was created, with those sheets and the derived file name. With no sheet, `wb.save` fails. |
| ExcelWriter.CreateReportNeedsASheet | utils/excel_writer.py:63-196 | Writable data gives a report iff some sheet is wanted. A reasoning entry alone is enough. |
| ExcelWriter.LongestLength | utils/excel_writer.py:34-42 | The result is the maximum text length of a column, attained by some cell. |
| ExcelWriter.AutoWidth | utils/excel_writer.py:43-45 | The width is (length + 5) * 1.2 unless that exceeds 70, in which case it is 70. |
| ExcelWriter.AutoWidthMonotone | utils/excel_writer.py:43-45 | Longer columns are never narrower. |
| ExcelWriter.AutoWidthCapThreshold | utils/excel_writer.py:43-45 | The cap applies exactly from length 54 on. |
| ExcelWriter.ColumnTexts | utils/excel_writer.py:34-40 | A column's texts are its header and one text per row. |
| ExcelWriter.ColumnWidths | utils/excel_writer.py:33-51 | There is one width per column. Column A of the Email, LinkedIn and FaceBook sheets is 10. The Reasoning content column is 100. Every other width is the capped automatic width. |
| ExcelWriter.CompanyPart | utils/excel_writer.py:200 | The part has no ".", and an empty name gives "company". Otherwise the name with every "www." removed is cut at its first ".": the part is a prefix of it that either is all of it or is followed by ".". A name without "." is the part itself. |
| ExcelWriter.CompanyPartOfBareName | utils/excel_writer.py:200 | Any name without a ".", such as "walmart", passes through unchanged. |
| ExcelWriter.ObjectivePart | utils/excel_writer.py:201 | Character k of the part is "_" where the objective has a space, and otherwise the objective's character lower-cased. |
| ExcelWriter.FileName | utils/excel_writer.py:200-201 | The file name is the company part, "_", the objective part and ".xlsx". |
| ExcelWriter.FileNameDeterminesObjective | utils/excel_writer.py:200-201 | For one company, equal file names mean equal objective parts. |
| ExcelWriter.FileNameExamples | utils/excel_writer.py:200-201 | The two lead objectives give "sales_meeting" and "demo_booking". |
| MainApp.DomainLabels | main_app.py:23-26 | Labels exist only for a non-empty URL whose fixed-up form parses. There is at least one label, and none contains ".". |
| MainApp.DomainLabelsOfHost | main_app.py:23-26 | The labels are the host name split on ".". |
| MainApp.CompanyNameAsWritten | main_app.py:19-33 | An empty URL gives "brand", and the name never contains ".". |
| MainApp.CompanyNameAsWrittenIgnoresLabelList | main_app.py:27-31 | With three or more labels the name is always the second-to-last label. Otherwise it is the first. |
| MainApp.CompanyNameAsWrittenPicksGenericLabel | main_app.py:27-30 | When the second-to-last label is generic, the name returned is that generic label. |
| MainApp.CompanyNameAsWrittenBbc | main_app.py:27-30 | A site on "bbc.co.uk" is named "co". |
| MainApp.CompanyName | main_app.py:19-33 | Corrected helper: an empty URL gives "brand", and the name never contains ".". |
| MainApp.CompanyNameSkipsGenericLabel | main_app.py:27 | When the second-to-last label is generic and the one before it is not, the corrected name is that earlier, non-generic label. |
| MainApp.CompanyNameAgreesElsewhere | main_app.py:27-31 | Off the generic labels, the corrected helper agrees with the code as written. |
| MainApp.CompanyNameBbc | main_app.py:27-30 | With the correction, "bbc.co.uk" is named "bbc". |
| MainApp.TotalSteps | main_app.py:117-123 | `total_steps` is 9 + 7 * content_count. |
| MainApp.UploadCalls | main_app.py:153-172 | An upload makes at most two progress calls. |
| MainApp.ProgressCallsBound | main_app.py:143-265 | Corrected program only (social prompt builder fixed): a run makes between `total_steps` - 5 and `total_steps` + 1 progress calls. |
| MainApp.ProgressCanOvershoot | main_app.py:127-130 | Corrected program only: when every branch is taken, the calls reach `total_steps` + 1, which is why the fraction is capped. |
| MainApp.ProgressCallsAsWritten | main_app.py:199-203 | As written, with no versions the loop never calls the prompt builder, so the run is the complete one. With versions, the run ends after the calls for the sources and the emails plus the first social call. |
| MainApp.RunErrorAsWritten | main_app.py:199-203 | As written, with no versions nothing is raised. With versions, the run records "Unexpected Error: name 'json' is not defined". |
| MainApp.RunStopsAtSocialLoop | main_app.py:62 | The slider starts at 1, so every run as written stops at the first social prompt (main_app.py:203, 285-287). It makes at most `content_count` + 7 progress calls, fewer than `total_steps` - 5, and records "Unexpected Error: name 'json' is not defined". |
| MainApp.ProcessSource | main_app.py:143-172 | A source is summarised iff its extracted text has no "Error". An error message is recorded iff the text or its summary has one. |
| MainApp.SourceErrorsStayOutOfContext | main_app.py:144-174 | A summary that reaches the context produced no error message. An error-tagged summary is reported and excluded. |
| MainApp.EmptyTextIsReported | main_app.py:148-150 | With the real summariser, empty extracted text is reported. |
| MainApp.UnsupportedUploadIsSummarised | main_app.py:155-160 | An unsupported upload's marker is summarised as content and is not reported. |
| MainApp.NoContextWarningWhenNothingSummarised | main_app.py:174-176 | The "no usable context" message appears iff no summary is present. |
| MainApp.ErrorSummariesGiveNoWarning | main_app.py:174-176 | An error-tagged summary leaves the context at the sentinel, yet raises no warning. |
| MainApp.Accept | main_app.py:184-185 | A reply is accepted iff it is a dict without an "error" key. The accepted record is that dict. |
| MainApp.AcceptedRepliesComeFromSuccess | main_app.py:183-185 | An accepted reply implies a client and an attempt that succeeded. |
| MainApp.CtaButton | main_app.py:194-197 | A button exists for the three objectives. Demand Capture is "Request Demo" on LinkedIn and "Book Now" on FaceBook. |
| MainApp.CtaButtonsShared | main_app.py:194-197 | For Brand Awareness and Demand Gen both platforms use the same button. |
| MainApp.Enrich | main_app.py:205-216 | An enriched ad gets its objective, the objective's link (default "#") and the platform's button. Every other field is kept, and no key other than these three is added. An unknown objective gets only the objective. |
| MainApp.DestinationMatchesPrompt | main_app.py:206-214 | The Destination cell is the link the social prompt pointed the model at. |
| MainApp.EnrichedAdsAreWritable | main_app.py:215-216 | Enriched ads carry a known objective, so the sheet counters never raise. |
| MainApp.Collect | main_app.py:180-186 | Accepted and rejected replies together number the versions asked for. Every kept item is an accepted reply passed through the loop's own enrichment. |
| MainApp.AcceptedIndices | main_app.py:184 | Each listed position holds a reply that is a dict without "error". |
| MainApp.RejectedIndices | main_app.py:186 | Each listed position holds a reply that is not a dict, or has "error". |
| MainApp.IndicesComplete | main_app.py:184-186 | A position is listed as accepted iff its reply is accepted, and as rejected iff it is not. |
| MainApp.IndicesIncreasing | main_app.py:180 | Both position lists are strictly increasing: loop order, each position once. |
| MainApp.IndicesPartition | main_app.py:184-186 | Every reply is accepted or rejected. |
| MainApp.CollectAdAt | main_app.py:180-185 | Ad k is the k-th accepted reply passed through the loop's enrichment. |
| MainApp.CollectErrorAt | main_app.py:180-186 | Message k reports the k-th rejected reply with its version, position + 1. |
| MainApp.CollectAdsInOrder | main_app.py:180-185 | The ads are exactly the accepted replies, enriched, in loop order. |
| MainApp.CollectErrorsInOrder | main_app.py:180-186 | The messages are exactly one per rejected reply, in loop order, each numbered with its version. |
| MainApp.EmailBatchInOrder | main_app.py:180-186 | The email list is the accepted replies unchanged, in order. Each rejected version i gives "Email Gen Error V<i>: " followed by the error detail. |
| MainApp.SocialBatchInOrder | main_app.py:199-217 | A social list is the accepted replies enriched for the platform and objective, in order. Each rejected version i gives "<platform> <objective> V<i> Error: " followed by the error detail. |
| MainApp.SocialBatchObjective | main_app.py:199-216 | Every ad of one objective loop carries that objective. |
| MainApp.PlatformCount | main_app.py:199-217 | In a platform's ad list, each objective's count equals the number of replies its loop accepted. |
| MainApp.PlatformAdsWritable | main_app.py:199-216 | Every generated social ad has a known objective. |
| MainApp.GoogleRecord | main_app.py:224-225 | The Google entry is the accepted dict, or `{}` when the reply is rejected. |
| MainApp.GoogleSheetIffAccepted | main_app.py:224-225 | A Google sheet is created iff its reply is a non-empty dict without "error". |
| MainApp.GeneratedAdsWritable | main_app.py:262-267 | With generated ads, the report can fail only on a malformed Google reply. |
| MainApp.GeneratedCounts | main_app.py:240-248 | Every key the reasoning prompt reads is present. Each platform count is that platform's number of ads with the objective. |
| MainApp.ReasoningCountsComplete | main_app.py:240-249 | The reasoning prompt never falls back to 0. |
| MainApp.GeneratedCountsMatchAccepted | main_app.py:240-248 | Each social count equals the replies accepted for that platform and objective, and so is at most the versions asked for. |
| MainApp.VersionsWithinCounts | main_app.py:240-248 | No version number in a social sheet exceeds the reported count for its objective. |
| MainApp.OrNotProvided | main_app.py:253-255 | A missing or empty summary becomes "Not provided/extracted.". The value is never empty. |
| MainApp.ReasoningTextAsWritten | main_app.py:256 | As written, only a text containing "Error" is replaced by the fallback. |
| MainApp.ReasoningApiErrorKeptAsWritten | main_app.py:250-258 | After three transport failures, "OpenAI API error: timeout" is kept as the reasoning. |
| MainApp.ReasoningText | main_app.py:256-258 | Corrected: every failure text of the helper is replaced by "Could not generate AI reasoning.". |
| MainApp.ReasoningFailuresFallBack | main_app.py:250-258 | With the correction, a missing client or three transport failures always give the fallback. |
| MainApp.ReasoningRecordAsWritten | main_app.py:252-257 | As written: the record holds all four sections. The three summaries are each the summary or the not-provided text, and `ai_reasoning` passes only the "Error" substring test. |
| MainApp.ReasoningRecordKeepsApiErrorAsWritten | main_app.py:250-257 | As written, three transport failures leave "OpenAI API error: timeout" in the record's `ai_reasoning`. |
| MainApp.ReasoningRecord | main_app.py:252-257 | Corrected: the same record, but `ai_reasoning` uses the corrected failure test. The rest of the model reads this record. |
| MainApp.ReasoningRecordsAgree | main_app.py:252-257 | The two records have the same keys and summaries. They differ in `ai_reasoning` iff the helper failed with a text that has no "Error". |
| MainApp.ReasoningSheetComplete | main_app.py:252-257 | With a non-empty reasoning text, the Reasoning sheet of the corrected record has all four rows. |
| MainApp.ErrorSummaryReachesRecord | main_app.py:253-255 | An error-tagged summary reaches the record unchanged. |
| MainApp.HasDataIffContentSheet | main_app.py:262 | `has_data` holds iff the workbook has a sheet other than Reasoning. |
| MainApp.Dedup | main_app.py:91 | The result has the same messages with no repeats, in order of first occurrence. |

## Left out

- The Streamlit UI, session state, `st.stop`, `st.rerun`, secrets and the logo are presentation and framework state.
- The OpenAI client, `time.sleep`, `requests.get`, BeautifulSoup, PyPDF2, python-pptx, `json.loads` and `urlparse` are replaced by oracle parameters, because their behaviour is outside the code.
- The top-level `try`/`except` sequence of main_app.py:141-294 is modelled step by step, not as one run function. Only the NameError of the social prompt builder is followed into its "Unexpected Error" message (`RunErrorAsWritten`). Other exceptions, such as one from `create_excel_report`, are not followed there.
- The MainApp members from main_app.py:199 on model the program with the corrected `PromptBuilder.SocialPrompt`. These cover the social loop, the Google ads, the counts, the reasoning record and the report gate. As written, every run stops at main_app.py:203 (`RunStopsAtSocialLoop`), so none of those steps runs.
- PromptBuilder.DumpObject: `json.dumps` escapes quotes, backslashes and non-ASCII characters, and the model writes the strings unescaped.
- The float progress fraction at main_app.py:130 is not modelled; only the integer call counts are.
- openpyxl styling is left out: fonts, fills, borders, alignment, row heights, and the BytesIO serialisation.
- openpyxl would reject list or dict cell values; the model stores any JSON value in a cell.
- The rows of the first Google Search loop at utils/excel_writer.py:135-144 are not modelled, because they are deleted before the real loop. Its `max(len(...))` at line 134 is modelled by `ExcelWriter.SearchLists`.
- Prompt whitespace and indentation are not reproduced exactly. Prompts are assembled from the same pieces, and only containment is proved.
- Strings.Strip, Strings.Lower and Strings.Title: only ASCII whitespace (including \x1c to \x1f) and ASCII letters are treated, because Unicode case tables are outside this model.
- ExcelWriter.AutoWidth: the 1.2 factor is exact real arithmetic, not a binary float.
- Json.Num: JSON numbers are integers. Floats such as 1.5 or 1e3 from `json.loads` are not modelled, so `len(str(value))` in column widths and `str()` in error details are modelled only for integers.
- Json: objects are maps, so dict key order is lost. The only effect is on `str()` of a dict, which is a `render` parameter.
- AiHelper.Generate: the three attempts are always given. The oracle ignores how the prompt was built.
- TextExtractor.ExtractFromUrl: the exception messages that follow the "Error …" prefixes are opaque strings.
- Error messages for the email and social loops are modelled (`EmailBatchInOrder`, `SocialBatchInOrder`). The Google and reasoning error messages appear only through the conditions under which they are appended.

## Findings

| source | as written | input that shows it | evidently intended | confidence | as-written member | corrected member |
|---|---|---|---|---|---|---|
| utils/prompt_builder.py:114 | `json.dumps` is called, but the module never imports `json` | any call, e.g. platform "LinkedIn", objective "Brand Awareness" | return the prompt with the example object dumped as JSON | not executed | PromptBuilder.SocialPromptAsWritten (PromptBuilder.SocialPromptDefect, MainApp.RunStopsAtSocialLoop) | PromptBuilder.SocialPrompt |
| main_app.py:27-30 | both branches for three or more labels return `domain_parts[-2]`, so the generic-label list has no effect | a site on "bbc.co.uk" is named "co" | skip a generic second-to-last label and name "bbc" | not executed | MainApp.CompanyNameAsWritten (MainApp.CompanyNameAsWrittenBbc) | MainApp.CompanyName (MainApp.CompanyNameSkipsGenericLabel, MainApp.CompanyNameBbc) |
| main_app.py:256-258 | a failed reasoning request is detected only by the substring "Error", but the text-mode failure "OpenAI API error: " plus the message contains it only when the message does | three transport failures with message "timeout" | replace the text with "Could not generate AI reasoning." and report it | not executed | MainApp.ReasoningTextAsWritten (MainApp.ReasoningApiErrorKeptAsWritten, MainApp.ReasoningRecordAsWritten) | MainApp.ReasoningText (MainApp.ReasoningFailuresFallBack, MainApp.ReasoningRecord) |

=== FILE: ai_helper.dfy ===
/**
  The completion-service wrapper (utils/ai_helper.py). The service is an
  oracle: the i-th request either raises (a transport failure) or answers
  with message text. `json.loads` is an oracle too, a parser from text to
  an optional JSON value.
 */
module AiHelper {
  import opened Wrappers
  import opened Strings
  import opened Json

  /** `max_retries`: requests generate_content_with_ai may make per call. */
  const MaxRetries := 3

  /** The outcome of one request: the client raised, or the service answered with message text. */
  datatype Attempt = TransportFailure(message: string) | Response(content: string)

  /** What generate_content_with_ai returns: a Python str, or the value `json.loads` produced (a dict on every JSON path). */
  datatype Reply = Text(text: string) | Value(value: Json)

  /** A reply together with the number of requests made to obtain it. */
  datatype Generation = Generation(reply: Reply, calls: nat)

  /** `json.loads`, as an oracle: the decoded value, or None when it raises JSONDecodeError. */
  type Parser = string -> Option<Json>

  /**
    What any conforming JSON decoder guarantees: the empty text is not a
    JSON text, and a text whose first character is `{` can only decode to
    an object (sections 2 and 4 of RFC 8259).
   */
  ghost predicate ParserRespectsShape(parse: Parser) {
    && parse("").None?
    && forall text :: StartsWith(text, "{") && parse(text).Some? ==> parse(text).value.Obj?
  }

  const NoClientError := "Error" + ": OpenAI client not initialized."
  const NoJsonError := "No JSON object found in response"
  const ParseError := "Failed to parse JSON response"
  const ApiErrorPrefix := "OpenAI API error: "
  const MaxRetriesError := "Max retries reached for AI content generation"

  /** The error dict built from a message and, when there is one, the raw response text. */
  function ErrorObject(message: string, raw: Option<string>): Json {
    match raw
    case None => Obj(map["error" := Str(message)])
    case Some(content) => Obj(map["error" := Str(message), "raw_content" := Str(content)])
  }

  /** Python's `s[i:j]` for indices already inside the string: empty when `j < i`. */
  function PySlice(s: string, i: int, j: int): string
    requires 0 <= i <= |s| && 0 <= j <= |s|
  {
    if i <= j then s[i..j] else ""
  }

  /** `candidate` is the span of `content` from its first `{` to its last `}`, starting at index `i`. */
  predicate BraceSpan(content: string, candidate: string, i: int) {
    && OccursAt(content, candidate, i)
    && StartsWith(candidate, "{") && EndsWith(candidate, "}")
    && '{' !in content[..i]
    && '}' !in content[i + |candidate|..]
  }

  /** The text handed to `json.loads`: `content[content.find('{') : content.rfind('}') + 1]`, when both braces occur. */
  function JsonCandidate(content: string): (c: Option<string>)
    ensures c.Some? <==> '{' in content && '}' in content
    ensures c.Some? && c.value != "" ==> exists i :: BraceSpan(content, c.value, i)
    ensures c.Some? ==> (c.value == "" <==> RFind(content, '}') < Find(content, '{'))
  {
    var start := Find(content, '{');
    var end := RFind(content, '}') + 1;
    if start != -1 && end != 0 then
      var c := PySlice(content, start, end);
      if start < end then
        CandidateSpan(content, start, end);
        Some(c)
      else Some(c)
    else None
  }

  /** A non-empty slice from the first `{` to the last `}` is a brace span. */
  lemma CandidateSpan(content: string, start: int, end: int)
    requires 0 <= start == Find(content, '{') && 1 <= end == RFind(content, '}') + 1 && start < end
    ensures BraceSpan(content, content[start..end], start)
  {
  }

  /** What one iteration of the retry loop does: return a reply, or `continue` to the next attempt. */
  datatype Step = Return(reply: Reply) | Continue

  /** The body of the retry loop for attempt number `i` (the retry delay is not modelled). */
  function LoopBody(attempt: Attempt, i: nat, expectJson: bool, parse: Parser): Step {
    var retry := i < MaxRetries - 1;
    match attempt
    case TransportFailure(message) =>
      if retry then Continue
      else if expectJson then Return(Value(ErrorObject(ApiErrorPrefix + message, None)))
      else Return(Text(ApiErrorPrefix + message))
    case Response(raw) =>
      var content := Strip(raw);
      if !expectJson then Return(Text(content))
      else
        match JsonCandidate(content)
        case None =>
          if retry then Continue else Return(Value(ErrorObject(NoJsonError, Some(content))))
        case Some(candidate) =>
          match parse(candidate)
          case Some(v) => Return(Value(v))
          case None =>
            if retry then Continue else Return(Value(ErrorObject(ParseError, Some(content))))
  }

  /** The reply after the loop, which the last iteration never reaches. */
  function FallThrough(expectJson: bool): Reply {
    if expectJson then Value(ErrorObject(MaxRetriesError, None)) else Text(MaxRetriesError)
  }

  /** `for attempt in range(max_retries)` from attempt `i` on, then the trailing return. */
  function AttemptFrom(attempts: seq<Attempt>, i: nat, expectJson: bool, parse: Parser): (g: Generation)
    requires |attempts| == MaxRetries && i <= MaxRetries
    ensures g.calls <= MaxRetries
    ensures i < MaxRetries ==> i < g.calls
    decreases MaxRetries - i
  {
    if i == MaxRetries then Generation(FallThrough(expectJson), MaxRetries)
    else
      match LoopBody(attempts[i], i, expectJson, parse)
      case Return(reply) => Generation(reply, i + 1)
      case Continue => AttemptFrom(attempts, i + 1, expectJson, parse)
  }

  /** Every path through the last iteration returns, so the loop never falls through. */
  lemma LastIterationReturns(attempt: Attempt, expectJson: bool, parse: Parser)
    ensures LoopBody(attempt, MaxRetries - 1, expectJson, parse).Return?
  {
  }

  /** The trailing "Max retries reached" return is dead: the loop always returns from inside. */
  lemma {:induction false} FallThroughUnreachable(attempts: seq<Attempt>, i: nat, expectJson: bool, parse: Parser)
    requires |attempts| == MaxRetries && i < MaxRetries
    ensures exists k :: (i <= k < MaxRetries
      && LoopBody(attempts[k], k, expectJson, parse).Return?
      && AttemptFrom(attempts, i, expectJson, parse) == Generation(LoopBody(attempts[k], k, expectJson, parse).reply, k + 1))
    decreases MaxRetries - i
  {
    if LoopBody(attempts[i], i, expectJson, parse).Continue? {
      assert i < MaxRetries - 1 by { LastIterationReturns(attempts[i], expectJson, parse); }
      FallThroughUnreachable(attempts, i + 1, expectJson, parse);
    }
  }

  /**
    generate_content_with_ai. `attempts[i]` is what the i-th request would
    get; only the requests counted in `calls` are made.
   */
  function Generate(clientReady: bool, attempts: seq<Attempt>, expectJson: bool, parse: Parser): (g: Generation)
    requires |attempts| == MaxRetries
    ensures !clientReady ==> g.reply == Text(NoClientError) && g.calls == 0
    ensures clientReady ==> 1 <= g.calls <= MaxRetries
  {
    if !clientReady then Generation(Text(NoClientError), 0)
    else AttemptFrom(attempts, 0, expectJson, parse)
  }

  /** Attempt `a` ends the loop with a usable reply. */
  predicate Succeeds(a: Attempt, expectJson: bool, parse: Parser) {
    a.Response? &&
      (!expectJson ||
        (JsonCandidate(Strip(a.content)).Some? && parse(JsonCandidate(Strip(a.content)).value).Some?))
  }

  /** The reply a succeeding attempt yields: the stripped text, or the decoded value. */
  function SuccessReply(a: Attempt, expectJson: bool, parse: Parser): Reply
    requires Succeeds(a, expectJson, parse)
  {
    if expectJson then Value(parse(JsonCandidate(Strip(a.content)).value).value) else Text(Strip(a.content))
  }

  /** The reply after the last attempt also failed: the error shape depends only on the last attempt. */
  function ExhaustedReply(last: Attempt, expectJson: bool): Reply {
    match last
    case TransportFailure(message) =>
      if expectJson then Value(ErrorObject(ApiErrorPrefix + message, None)) else Text(ApiErrorPrefix + message)
    case Response(raw) =>
      if JsonCandidate(Strip(raw)).None? then Value(ErrorObject(NoJsonError, Some(Strip(raw))))
      else Value(ErrorObject(ParseError, Some(Strip(raw))))
  }

  /** An attempt that succeeds ends the loop with its success reply, whatever its number. */
  lemma SucceedingBodyReturns(a: Attempt, i: nat, expectJson: bool, parse: Parser)
    requires Succeeds(a, expectJson, parse)
    ensures LoopBody(a, i, expectJson, parse) == Return(SuccessReply(a, expectJson, parse))
  {
  }

  /** Before the last attempt, a failing attempt continues the loop. */
  lemma FailingBodyContinues(a: Attempt, i: nat, expectJson: bool, parse: Parser)
    requires !Succeeds(a, expectJson, parse) && i < MaxRetries - 1
    ensures LoopBody(a, i, expectJson, parse) == Continue
  {
  }

  /** At the last attempt, a failing attempt returns the terminal error. */
  lemma FailingLastBodyReturnsError(a: Attempt, expectJson: bool, parse: Parser)
    requires !Succeeds(a, expectJson, parse)
    ensures LoopBody(a, MaxRetries - 1, expectJson, parse) == Return(ExhaustedReply(a, expectJson))
  {
  }

  /** An iteration that continues hands over to the next attempt. */
  lemma ContinueStep(attempts: seq<Attempt>, i: nat, expectJson: bool, parse: Parser)
    requires |attempts| == MaxRetries && i < MaxRetries
    requires LoopBody(attempts[i], i, expectJson, parse) == Continue
    ensures AttemptFrom(attempts, i, expectJson, parse) == AttemptFrom(attempts, i + 1, expectJson, parse)
  {
  }

  /** An iteration that returns ends the loop after `i + 1` requests. */
  lemma ReturnStep(attempts: seq<Attempt>, i: nat, expectJson: bool, parse: Parser)
    requires |attempts| == MaxRetries && i < MaxRetries
    requires LoopBody(attempts[i], i, expectJson, parse).Return?
    ensures AttemptFrom(attempts, i, expectJson, parse) == Generation(LoopBody(attempts[i], i, expectJson, parse).reply, i + 1)
  {
  }

  /** From attempt `i`, the first succeeding attempt `j` decides the reply, after exactly `j + 1` requests. */
  lemma {:induction false} AttemptFromFirstSuccess(attempts: seq<Attempt>, i: nat, j: nat, expectJson: bool, parse: Parser)
    requires |attempts| == MaxRetries && i <= j < MaxRetries
    requires Succeeds(attempts[j], expectJson, parse)
    requires forall k :: i <= k < j ==> !Succeeds(attempts[k], expectJson, parse)
    ensures AttemptFrom(attempts, i, expectJson, parse) == Generation(SuccessReply(attempts[j], expectJson, parse), j + 1)
    decreases j - i
  {
    if i < j {
      FailingBodyContinues(attempts[i], i, expectJson, parse);
      ContinueStep(attempts, i, expectJson, parse);
      AttemptFromFirstSuccess(attempts, i + 1, j, expectJson, parse);
    } else {
      SucceedingBodyReturns(attempts[j], j, expectJson, parse);
      ReturnStep(attempts, j, expectJson, parse);
    }
  }

  /** When no attempt from `i` on succeeds, all remaining requests are made and the last attempt shapes the error. */
  lemma {:induction false} AttemptFromExhausted(attempts: seq<Attempt>, i: nat, expectJson: bool, parse: Parser)
    requires |attempts| == MaxRetries && i < MaxRetries
    requires forall k :: i <= k < MaxRetries ==> !Succeeds(attempts[k], expectJson, parse)
    ensures AttemptFrom(attempts, i, expectJson, parse) == Generation(ExhaustedReply(attempts[MaxRetries - 1], expectJson), MaxRetries)
    decreases MaxRetries - i
  {
    assert !Succeeds(attempts[i], expectJson, parse);
    if i < MaxRetries - 1 {
      FailingBodyContinues(attempts[i], i, expectJson, parse);
      ContinueStep(attempts, i, expectJson, parse);
      AttemptFromExhausted(attempts, i + 1, expectJson, parse);
    } else {
      FailingLastBodyReturnsError(attempts[i], expectJson, parse);
      ReturnStep(attempts, i, expectJson, parse);
    }
  }

  /** The first succeeding attempt is returned at once; no later request is made. */
  lemma GenerateReturnsFirstSuccess(attempts: seq<Attempt>, j: nat, expectJson: bool, parse: Parser)
    requires |attempts| == MaxRetries && j < MaxRetries
    requires Succeeds(attempts[j], expectJson, parse)
    requires forall k :: 0 <= k < j ==> !Succeeds(attempts[k], expectJson, parse)
    ensures Generate(true, attempts, expectJson, parse) == Generation(SuccessReply(attempts[j], expectJson, parse), j + 1)
  {
    AttemptFromFirstSuccess(attempts, 0, j, expectJson, parse);
  }

  /** When every attempt fails, exactly three requests are made and the reply is the terminal error. */
  lemma GenerateExhausted(attempts: seq<Attempt>, expectJson: bool, parse: Parser)
    requires |attempts| == MaxRetries
    requires forall k :: 0 <= k < MaxRetries ==> !Succeeds(attempts[k], expectJson, parse)
    ensures Generate(true, attempts, expectJson, parse) == Generation(ExhaustedReply(attempts[MaxRetries - 1], expectJson), MaxRetries)
  {
    AttemptFromExhausted(attempts, 0, expectJson, parse);
  }

  /** In text mode the first answered request is returned stripped. */
  lemma TextModeFirstResponse(attempts: seq<Attempt>, j: nat, parse: Parser)
    requires |attempts| == MaxRetries && j < MaxRetries && attempts[j].Response?
    requires forall k :: 0 <= k < j ==> attempts[k].TransportFailure?
    ensures Generate(true, attempts, false, parse) == Generation(Text(Strip(attempts[j].content)), j + 1)
  {
    AttemptFromFirstSuccess(attempts, 0, j, false, parse);
  }

  /** With a conforming decoder, every JSON-mode reply with a ready client is a dict. */
  lemma {:induction false} JsonModeRepliesAreObjects(attempts: seq<Attempt>, i: nat, parse: Parser)
    requires |attempts| == MaxRetries && i < MaxRetries
    requires ParserRespectsShape(parse)
    ensures AttemptFrom(attempts, i, true, parse).reply.Value?
    ensures AttemptFrom(attempts, i, true, parse).reply.value.Obj?
    decreases MaxRetries - i
  {
    var step := LoopBody(attempts[i], i, true, parse);
    if step.Continue? {
      LastIterationReturns(attempts[i], true, parse);
      JsonModeRepliesAreObjects(attempts, i + 1, parse);
    } else if attempts[i].Response? {
      var content := Strip(attempts[i].content);
      var c := JsonCandidate(content);
      if c.Some? && parse(c.value).Some? {
        assert c.value != "";
        var k :| BraceSpan(content, c.value, k);
        assert StartsWith(c.value, "{");
      }
    }
  }

  // ---------------------------------------------------------------------
  // Summarisation
  // ---------------------------------------------------------------------

  const SummaryInputError := "Error" + ": OpenAI client not initialized or no text to summarize."
  const SummaryErrorPrefix := "Error" + " during summarization: "

  const SummaryInstruction :=
    "\nPlease provide a comprehensive and detailed summary of the following text.\n"
    + "The summary should capture all key information, including products, services,\n"
    + "unique selling propositions (USPs), target audience, brand voice, and any other\n"
    + "relevant details. This summary will be used as the primary context for generating\n"
    + "tailored marketing ad copy. Ensure the summary is thorough.\n\nText to summarize:\n---\n"

  /** The summarisation prompt embeds the whole text. */
  function SummaryPrompt(text: string): (prompt: string)
    ensures Contains(prompt, text)
    ensures StartsWith(prompt, SummaryInstruction)
  {
    ContainsInfix(SummaryInstruction, text, "\n---\nComprehensive Summary:\n");
    var prompt := SummaryInstruction + text + "\n---\nComprehensive Summary:\n";
    assert prompt[..|SummaryInstruction|] == SummaryInstruction;
    prompt
  }

  /** summarize_text_with_ai: one request, answered by `attempt`, for the prompt built from `text`. */
  function Summarize(clientReady: bool, text: string, attempt: Attempt): (summary: string)
    ensures !clientReady || text == "" ==> summary == SummaryInputError
    ensures clientReady && text != "" && attempt.TransportFailure? ==> StartsWith(summary, SummaryErrorPrefix)
    ensures clientReady && text != "" && attempt.Response? ==> summary == Strip(attempt.content)
  {
    if !clientReady || text == "" then SummaryInputError
    else
      match attempt
      case TransportFailure(message) =>
        var summary := SummaryErrorPrefix + message;
        assert summary[..|SummaryErrorPrefix|] == SummaryErrorPrefix;
        summary
      case Response(content) => Strip(content)
  }

  /** Every failure return of the summariser begins with "Error", so callers' `"Error" in` check flags it. */
  lemma SummaryFailuresAreTagged(clientReady: bool, text: string, attempt: Attempt)
    requires !clientReady || text == "" || attempt.TransportFailure?
    ensures StartsWith(Summarize(clientReady, text, attempt), "Error")
    ensures ErrorTagged(Summarize(clientReady, text, attempt))
  {
    var s := Summarize(clientReady, text, attempt);
    if !clientReady || text == "" {
      assert s[..5] == SummaryInputError[..5];
    } else {
      assert s[..5] == SummaryErrorPrefix[..5];
    }
    StartsWithContains(s, "Error");
  }
}

=== FILE: excel_writer.dfy ===
/**
  The report workbook (utils/excel_writer.py) as data: an ordered list of
  named sheets, each a header and rows of cells, plus the column widths
  the styling step sets and the file name. Fonts, fills, borders,
  alignment and the serialised bytes are not modelled.
 */
module ExcelWriter {
  import opened Wrappers
  import opened Strings
  import opened Json
  import PromptBuilder

  /** A cell holds whatever value the ad record had: a string, an int, or any other JSON value. */
  type Row = seq<Json>

  /** The six sheets the report can have, in the order they are created. */
  datatype SheetKind = EmailSheetKind | LinkedInSheetKind | FaceBookSheetKind | SearchSheetKind | DisplaySheetKind | ReasoningSheetKind

  /** A sheet's tab title. */
  function Title(kind: SheetKind): string {
    match kind
    case EmailSheetKind => "Email"
    case LinkedInSheetKind => "LinkedIn"
    case FaceBookSheetKind => "FaceBook"
    case SearchSheetKind => "Google Search"
    case DisplaySheetKind => "Google Display"
    case ReasoningSheetKind => "Reasoning"
  }

  /** A kind's position in the creation order. */
  function Rank(kind: SheetKind): (n: nat)
    ensures n < 6
  {
    match kind
    case EmailSheetKind => 0
    case LinkedInSheetKind => 1
    case FaceBookSheetKind => 2
    case SearchSheetKind => 3
    case DisplaySheetKind => 4
    case ReasoningSheetKind => 5
  }

  /** Different kinds have different titles, so a kind is known from its tab. */
  lemma TitlesDistinct(a: SheetKind, b: SheetKind)
    requires a != b
    ensures Title(a) != Title(b)
  {
  }

  datatype Sheet = Sheet(kind: SheetKind, header: seq<string>, rows: seq<Row>)

  /** Every row of a sheet has one cell per header column. */
  predicate Rectangular(sheet: Sheet) {
    forall k :: 0 <= k < |sheet.rows| ==> |sheet.rows[k]| == |sheet.header|
  }

  /**
    The `all_ad_data` dict. A None field is a missing key; the ad lists
    hold the accepted response dicts, the two Google entries the response
    dict (or `{}`), and `reasoning` the reasoning record.
   */
  datatype AdData = AdData(
    email: Option<seq<Record>>,
    linkedin: Option<seq<Record>>,
    facebook: Option<seq<Record>>,
    googleSearch: Option<Record>,
    googleDisplay: Option<Record>,
    reasoning: Option<Record>)

  /** The exceptions that can escape report creation. */
  datatype ReportError =
    | KeyError(key: Json)   // `version_counters[obj]` for an unknown objective
    | TypeError             // `len(...)` of a value that has no length, or an unhashable objective
    | NoVisibleSheet        // `wb.save` of a workbook whose default sheet was removed and nothing created

  /** The workbook's sheets, in order, and the download file name. */
  datatype Report = Report(sheets: seq<Sheet>, filename: string)

  /** Python's `ad.get(key, "")`. */
  function Field(ad: Record, key: string): Json {
    Get(ad, key, Str(""))
  }

  // ---------------------------------------------------------------------
  // Email
  // ---------------------------------------------------------------------

  const EmailHeader := ["Version #", "Objective", "Headline", "Subject Line", "Body", "CTA"]
  const EmailFieldKeys := ["headline", "subject_line", "body", "cta"]

  /** One row per email, in order: version `i + 1`, the fixed objective, then the four fields. */
  function EmailRows(ads: seq<Record>): (rows: seq<Row>)
    ensures |rows| == |ads|
    ensures forall i :: 0 <= i < |rows| ==> |rows[i]| == |EmailHeader|
    ensures forall i :: 0 <= i < |rows| ==> rows[i][0] == Num(i + 1) && rows[i][1] == Str(PromptBuilder.DemandCapture)
    ensures forall i, j :: 0 <= i < |rows| && 0 <= j < |EmailFieldKeys| ==> rows[i][2 + j] == Field(ads[i], EmailFieldKeys[j])
  {
    seq(|ads|, i requires 0 <= i < |ads| =>
      [Num(i + 1), Str(PromptBuilder.DemandCapture),
       Field(ads[i], "headline"), Field(ads[i], "subject_line"), Field(ads[i], "body"), Field(ads[i], "cta")])
  }

  // ---------------------------------------------------------------------
  // LinkedIn and FaceBook
  // ---------------------------------------------------------------------

  const LinkedInHeader := ["Version #", "Ad Name", "Objective", "Introductory Text", "Image Copy", "Headline", "Destination", "CTA Button"]
  const FaceBookHeader := ["Version #", "Ad Name", "Objective", "Primary Text", "Image Copy", "Headline", "Link Description", "Destination", "CTA Button"]
  const LinkedInTextKeys := ["introductory_text", "image_copy", "headline"]
  const FaceBookTextKeys := ["primary_text", "image_copy", "headline", "link_description"]

  /** The three objectives `version_counters` starts with. */
  predicate KnownObjective(o: string) {
    o == PromptBuilder.BrandAwareness || o == PromptBuilder.DemandGen || o == PromptBuilder.DemandCapture
  }

  /** `ad.get("objective_type", "Unknown")`. */
  function ObjectiveOf(ad: Record): Json {
    Get(ad, "objective_type", Str("Unknown"))
  }

  /** The ad's objective can index `version_counters`. */
  predicate HasKnownObjective(ad: Record) {
    ObjectiveOf(ad).Str? && KnownObjective(ObjectiveOf(ad).s)
  }

  /** How many of `ads` have objective `o`. */
  function CountObjective(ads: seq<Record>, o: string): (n: nat)
    ensures n <= |ads|
  {
    if |ads| == 0 then 0
    else (if ObjectiveOf(ads[0]) == Str(o) then 1 else 0) + CountObjective(ads[1..], o)
  }

  type Counters = map<string, nat>

  /** `{"Brand Awareness": 0, "Demand Gen": 0, "Demand Capture": 0}`. */
  const InitialCounters: Counters :=
    map[PromptBuilder.BrandAwareness := 0, PromptBuilder.DemandGen := 0, PromptBuilder.DemandCapture := 0]

  /** Each of the three objectives has a counter, so `version_counters[obj]` finds it. */
  predicate CountsAllObjectives(counters: Counters) {
    PromptBuilder.BrandAwareness in counters && PromptBuilder.DemandGen in counters && PromptBuilder.DemandCapture in counters
  }

  /** The row of one social ad: version, name, objective, the platform's text fields, destination and CTA button. */
  function SocialRow(ad: Record, version: nat, textKeys: seq<string>): (row: Row)
    ensures |row| == |textKeys| + 5
  {
    [Num(version), Field(ad, "ad_name"), ObjectiveOf(ad)]
      + seq(|textKeys|, j requires 0 <= j < |textKeys| => Field(ad, textKeys[j]))
      + [Field(ad, "destination_url"), Field(ad, "cta_button")]
  }

  /** Each cell of a social row holds the field its header column names, with "" for a missing field. */
  lemma SocialRowCells(ad: Record, version: nat, textKeys: seq<string>)
    ensures var row := SocialRow(ad, version, textKeys);
      && row[0] == Num(version) && row[1] == Field(ad, "ad_name") && row[2] == ObjectiveOf(ad)
      && (forall j :: 0 <= j < |textKeys| ==> row[3 + j] == Field(ad, textKeys[j]))
      && row[|textKeys| + 3] == Field(ad, "destination_url") && row[|textKeys| + 4] == Field(ad, "cta_button")
  {
  }

  /** Both headers have the row's shape: the three leading columns, one per text key, then Destination and CTA Button. */
  lemma SocialHeadersLineUp()
    ensures |LinkedInHeader| == |LinkedInTextKeys| + 5 && |FaceBookHeader| == |FaceBookTextKeys| + 5
    ensures LinkedInHeader[..3] == FaceBookHeader[..3] == ["Version #", "Ad Name", "Objective"]
    ensures LinkedInHeader[|LinkedInTextKeys| + 3..] == FaceBookHeader[|FaceBookTextKeys| + 3..] == ["Destination", "CTA Button"]
  {
  }

  /** The error `version_counters[obj] += 1` raises for an objective it has no counter for. */
  function CounterError(obj: Json): ReportError {
    if obj.Arr? || obj.Obj? then TypeError else KeyError(obj)
  }

  /** The social loop from the current counters on: each ad bumps its objective's counter and is numbered with it. */
  function VersionedRows(ads: seq<Record>, counters: Counters, textKeys: seq<string>): (r: Result<seq<Row>, ReportError>)
    requires CountsAllObjectives(counters)
    ensures r.Success? <==> forall k :: 0 <= k < |ads| ==> HasKnownObjective(ads[k])
    ensures r.Success? ==> |r.value| == |ads|
    ensures r.Failure? ==> exists k :: 0 <= k < |ads| && !HasKnownObjective(ads[k]) && r.error == CounterError(ObjectiveOf(ads[k]))
  {
    if |ads| == 0 then Success([])
    else
      var obj := ObjectiveOf(ads[0]);
      if !HasKnownObjective(ads[0]) then Failure(CounterError(obj))
      else
        var bumped := counters[obj.s := counters[obj.s] + 1];
        var rest := VersionedRows(ads[1..], bumped, textKeys);
        if rest.Failure? then
          assert forall k :: 1 <= k < |ads| ==> ads[1..][k - 1] == ads[k];
          rest
        else
          assert forall k :: 1 <= k < |ads| ==> ads[1..][k - 1] == ads[k];
          Success([SocialRow(ads[0], bumped[obj.s], textKeys)] + rest.value)
  }

  /** Ad k is the first ad whose objective is not one of the three. */
  predicate FirstUnknownAt(ads: seq<Record>, k: nat) {
    k < |ads| && !HasKnownObjective(ads[k]) && forall j :: 0 <= j < k ==> HasKnownObjective(ads[j])
  }

  /** The loop stops at the first ad with another objective, with that ad's error. */
  lemma {:induction false} VersionedRowsFirstFailure(ads: seq<Record>, counters: Counters, textKeys: seq<string>, k: nat)
    requires CountsAllObjectives(counters) && FirstUnknownAt(ads, k)
    ensures VersionedRows(ads, counters, textKeys) == Failure(CounterError(ObjectiveOf(ads[k])))
    decreases k
  {
    if k == 0 {
      VersionedRowsFailsAtHead(ads, counters, textKeys);
    } else {
      var obj := ObjectiveOf(ads[0]).s;
      var bumped := counters[obj := counters[obj] + 1];
      FirstUnknownShifts(ads, k);
      BumpKeepsObjectives(counters, obj);
      VersionedRowsFirstFailure(ads[1..], bumped, textKeys, k - 1);
      VersionedRowsPassesFailure(ads, counters, textKeys, bumped, CounterError(ObjectiveOf(ads[k])));
    }
  }

  /** A first ad with another objective stops the loop with its error. */
  lemma VersionedRowsFailsAtHead(ads: seq<Record>, counters: Counters, textKeys: seq<string>)
    requires CountsAllObjectives(counters) && |ads| > 0 && !HasKnownObjective(ads[0])
    ensures VersionedRows(ads, counters, textKeys) == Failure(CounterError(ObjectiveOf(ads[0])))
  {
  }

  /** Bumping a counter keeps the three objectives as the counters' keys. */
  lemma BumpKeepsObjectives(counters: Counters, obj: string)
    requires CountsAllObjectives(counters) && obj in counters
    ensures CountsAllObjectives(counters[obj := counters[obj] + 1])
  {
  }

  /** Dropping a first ad with a known objective moves the first unknown one down by one. */
  lemma FirstUnknownShifts(ads: seq<Record>, k: nat)
    requires 0 < k && FirstUnknownAt(ads, k)
    ensures HasKnownObjective(ads[0]) && ObjectiveOf(ads[0]).s in {PromptBuilder.BrandAwareness, PromptBuilder.DemandGen, PromptBuilder.DemandCapture}
    ensures FirstUnknownAt(ads[1..], k - 1) && ads[1..][k - 1] == ads[k]
  {
    assert forall j :: 0 <= j < k - 1 ==> ads[1..][j] == ads[j + 1];
  }

  /** An ad with a known objective passes the failure of the rest of the loop on unchanged. */
  lemma VersionedRowsPassesFailure(ads: seq<Record>, counters: Counters, textKeys: seq<string>, bumped: Counters, error: ReportError)
    requires CountsAllObjectives(counters)
    requires |ads| > 0 && HasKnownObjective(ads[0])
    requires bumped == counters[ObjectiveOf(ads[0]).s := counters[ObjectiveOf(ads[0]).s] + 1]
    requires VersionedRows(ads[1..], bumped, textKeys) == Failure(error)
    ensures VersionedRows(ads, counters, textKeys) == Failure(error)
  {
  }

  lemma CountObjectiveSplit(ads: seq<Record>, k: nat, o: string)
    requires 0 <= k < |ads|
    ensures CountObjective(ads[..k + 1], o) == (if ObjectiveOf(ads[0]) == Str(o) then 1 else 0) + CountObjective(ads[1..][..k], o)
  {
    assert ads[..k + 1][1..] == ads[1..][..k];
  }

  /**
    The k-th row's version is its objective's counter at the start plus
    the number of ads among the first k + 1 that share its objective.
   */
  lemma {:induction false} VersionedRowsNumbering(ads: seq<Record>, counters: Counters, textKeys: seq<string>, k: nat)
    requires CountsAllObjectives(counters)
    requires VersionedRows(ads, counters, textKeys).Success? && k < |ads|
    ensures VersionedRows(ads, counters, textKeys).value[k]
      == SocialRow(ads[k], counters[ObjectiveOf(ads[k]).s] + CountObjective(ads[..k + 1], ObjectiveOf(ads[k]).s), textKeys)
    decreases |ads|
  {
    var obj := ObjectiveOf(ads[0]);
    assert HasKnownObjective(ads[0]);
    var bumped := counters[obj.s := counters[obj.s] + 1];
    var rest := VersionedRows(ads[1..], bumped, textKeys);
    assert VersionedRows(ads, counters, textKeys).value == [SocialRow(ads[0], bumped[obj.s], textKeys)] + rest.value;
    var o := ObjectiveOf(ads[k]).s;
    CountObjectiveSplit(ads, k, o);
    if k == 0 {
      assert CountObjective(ads[1..][..0], o) == 0;
    } else {
      assert ads[1..][k - 1] == ads[k];
      VersionedRowsNumbering(ads[1..], bumped, textKeys, k - 1);
      assert ads[1..][..k - 1 + 1] == ads[1..][..k];
    }
  }

  /** The rows of a social sheet: the loop started from all-zero counters. */
  function SocialRows(ads: seq<Record>, textKeys: seq<string>): (r: Result<seq<Row>, ReportError>)
    ensures r.Success? <==> forall k :: 0 <= k < |ads| ==> HasKnownObjective(ads[k])
    ensures r.Success? ==> |r.value| == |ads|
  {
    VersionedRows(ads, InitialCounters, textKeys)
  }

  /** Each row's version is the number of ads up to and including it that share its objective, counted per objective. */
  lemma SocialRowVersion(ads: seq<Record>, textKeys: seq<string>, k: nat)
    requires SocialRows(ads, textKeys).Success? && k < |ads|
    ensures SocialRows(ads, textKeys).value[k] == SocialRow(ads[k], CountObjective(ads[..k + 1], ObjectiveOf(ads[k]).s), textKeys)
    ensures SocialRows(ads, textKeys).value[k][0] == Num(CountObjective(ads[..k + 1], ObjectiveOf(ads[k]).s))
  {
    VersionedRowsNumbering(ads, InitialCounters, textKeys, k);
  }

  // ---------------------------------------------------------------------
  // Google Search and Google Display
  // ---------------------------------------------------------------------

  const GoogleHeader := ["Headline", "Description"]

  /**
    What the row loops can do with `d.get(key, [])`: index a list, index a
    string (one character per item), or take the length 0 of an empty
    dict. A non-empty dict fails at index 0 and a value without a length
    fails in `len`.
   */
  function AsItems(j: Json): (r: Result<seq<Json>, ReportError>)
    ensures j.Arr? ==> r == Success(j.items)
    ensures j.Str? ==> r.Success? && |r.value| == |j.s|
    ensures r.Success? <==> j.Arr? || j.Str? || j == Obj(map[])
  {
    match j
    case Arr(items) => Success(items)
    case Str(s) => Success(seq(|s|, i requires 0 <= i < |s| => Str([s[i]])))
    case Obj(fields) => if fields == map[] then Success([]) else Failure(KeyError(Num(0)))
    case _ => Failure(TypeError)
  }

  /** Item `i` of a list, or "" past its end. */
  function ItemOr(items: seq<Json>, i: nat): Json {
    if i < |items| then items[i] else Str("")
  }

  /** The Google Search rows: exactly 15, headlines padded with "", descriptions only on the first 4. */
  function SearchRows(headlines: seq<Json>, descriptions: seq<Json>): (rows: seq<Row>)
    ensures |rows| == PromptBuilder.SearchHeadlineCount
    ensures forall i :: 0 <= i < |rows| ==> |rows[i]| == 2
    ensures forall i :: 0 <= i < |rows| && i < |headlines| ==> rows[i][0] == headlines[i]
    ensures forall i :: |headlines| <= i < |rows| ==> rows[i][0] == Str("")
    ensures forall i :: 0 <= i < PromptBuilder.SearchDescriptionCount && i < |descriptions| ==> rows[i][1] == descriptions[i]
    ensures forall i :: 0 <= i < |rows| && (i >= PromptBuilder.SearchDescriptionCount || i >= |descriptions|) ==> rows[i][1] == Str("")
  {
    seq(PromptBuilder.SearchHeadlineCount, i requires 0 <= i < PromptBuilder.SearchHeadlineCount =>
      [ItemOr(headlines, i), if i < PromptBuilder.SearchDescriptionCount then ItemOr(descriptions, i) else Str("")])
  }

  /** The Google Display rows: exactly 5, both columns padded with "" and cut after 5. */
  function DisplayRows(headlines: seq<Json>, descriptions: seq<Json>): (rows: seq<Row>)
    ensures |rows| == PromptBuilder.DisplayHeadlineCount
    ensures forall i :: 0 <= i < |rows| ==> |rows[i]| == 2
    ensures forall i :: 0 <= i < |rows| && i < |headlines| ==> rows[i][0] == headlines[i]
    ensures forall i :: |headlines| <= i < |rows| ==> rows[i][0] == Str("")
    ensures forall i :: 0 <= i < |rows| && i < |descriptions| ==> rows[i][1] == descriptions[i]
    ensures forall i :: |descriptions| <= i < |rows| ==> rows[i][1] == Str("")
  {
    seq(PromptBuilder.DisplayHeadlineCount, i requires 0 <= i < PromptBuilder.DisplayHeadlineCount =>
      [ItemOr(headlines, i), ItemOr(descriptions, i)])
  }

  /** The headline and description lists of a Google response, or the exception reading them raises. */
  function GoogleLists(response: Record): (r: Result<(seq<Json>, seq<Json>), ReportError>)
    ensures r.Success? <==> AsItems(Get(response, "headlines", Arr([]))).Success? && AsItems(Get(response, "descriptions", Arr([]))).Success?
    ensures r.Failure? ==>
      r.error == (if AsItems(Get(response, "headlines", Arr([]))).Failure? then AsItems(Get(response, "headlines", Arr([]))).error
                  else AsItems(Get(response, "descriptions", Arr([]))).error)
  {
    var headlines :- AsItems(Get(response, "headlines", Arr([])));
    var descriptions :- AsItems(Get(response, "descriptions", Arr([])));
    Success((headlines, descriptions))
  }

  /** A value Python's `len` accepts. */
  predicate HasLen(j: Json) {
    j.Arr? || j.Str? || j.Obj?
  }

  /**
   * The lists as the Google Search block reads them. `max(len(headlines), len(descriptions))`
   * runs before either list is indexed, so a list without a length raises `TypeError` even when
   * indexing the other one would already fail; otherwise the first index of a non-empty dict raises.
   */
  function SearchLists(response: Record): (r: Result<(seq<Json>, seq<Json>), ReportError>)
    ensures r.Success? <==> GoogleLists(response).Success?
    ensures r.Success? ==> r == GoogleLists(response)
    ensures r.Failure? ==>
      r.error == (if HasLen(Get(response, "headlines", Arr([]))) && HasLen(Get(response, "descriptions", Arr([])))
                  then KeyError(Num(0)) else TypeError)
  {
    var headlines := Get(response, "headlines", Arr([]));
    var descriptions := Get(response, "descriptions", Arr([]));
    if !HasLen(headlines) || !HasLen(descriptions) then Failure(TypeError)
    else GoogleLists(response)
  }

  /**
   * The two blocks can raise different exceptions for the same reply: headlines that are a
   * non-empty dict and descriptions that are a number raise `KeyError` in the Display loop,
   * which indexes the headlines first, but `TypeError` at the Search block's `max(len(...))`.
   */
  lemma SearchAndDisplayErrorsDiffer()
    ensures var response := map["headlines" := Obj(map["h" := Null]), "descriptions" := Num(1)];
      GoogleLists(response) == Failure(KeyError(Num(0))) && SearchLists(response) == Failure(TypeError)
  {
    var response := map["headlines" := Obj(map["h" := Null]), "descriptions" := Num(1)];
    assert Get(response, "headlines", Arr([])) == Obj(map["h" := Null]);
    assert Get(response, "descriptions", Arr([])) == Num(1);
    assert "h" in map["h" := Null];
  }

  /** A response with no lists at all still gives 15 empty Search rows. */
  lemma EmptySearchResponseRows(response: Record)
    requires "headlines" !in response && "descriptions" !in response
    ensures GoogleLists(response) == Success(([], []))
    ensures forall i :: 0 <= i < 15 ==> SearchRows([], [])[i] == [Str(""), Str("")]
  {
  }

  // ---------------------------------------------------------------------
  // Reasoning
  // ---------------------------------------------------------------------

  const ReasoningHeader := ["Section", "Content"]

  /** The reasoning record's keys, in row order, with their section titles. */
  const ReasoningSections: seq<(string, string)> := [
    ("url_summary", "URL Context Summary"),
    ("additional_summary", "Additional Context Summary"),
    ("downloadable_summary", "Downloadable Material Summary"),
    ("ai_reasoning", "AI's Reasoning & Thought Process")
  ]

  /** One `[title, value]` row for each section whose value is truthy, in section order. */
  function SectionRows(content: Record, sections: seq<(string, string)>): (rows: seq<Row>)
    ensures |rows| <= |sections|
    ensures forall k :: 0 <= k < |rows| ==> |rows[k]| == 2 && Truthy(rows[k][1])
    ensures (forall k :: 0 <= k < |sections| ==> Truthy(Get(content, sections[k].0, Null))) ==> |rows| == |sections|
  {
    if |sections| == 0 then []
    else
      var value := Get(content, sections[0].0, Null);
      var rest := SectionRows(content, sections[1..]);
      assert forall k :: 1 <= k < |sections| ==> sections[1..][k - 1] == sections[k];
      if Truthy(value) then [[Str(sections[0].1), value]] + rest else rest
  }

  /** A section's row is present exactly when its value is truthy. */
  lemma {:induction false} SectionRowPresent(content: Record, sections: seq<(string, string)>, k: nat)
    requires k < |sections|
    ensures Truthy(Get(content, sections[k].0, Null)) <==> [Str(sections[k].1), Get(content, sections[k].0, Null)] in SectionRows(content, sections)
  {
    if k > 0 {
      assert sections[1..][k - 1] == sections[k];
      SectionRowPresent(content, sections[1..], k - 1);
    }
  }

  /** The Reasoning rows of the record, in the fixed section order. */
  function ReasoningRows(content: Record): (rows: seq<Row>)
    ensures |rows| <= 4
    ensures forall k :: 0 <= k < |rows| ==> |rows[k]| == |ReasoningHeader|
  {
    SectionRows(content, ReasoningSections)
  }

  /** Each reasoning field gets its row exactly when its value is truthy. */
  lemma ReasoningRowPresent(content: Record, k: nat)
    requires k < |ReasoningSections|
    ensures Truthy(Get(content, ReasoningSections[k].0, Null))
      <==> [Str(ReasoningSections[k].1), Get(content, ReasoningSections[k].0, Null)] in ReasoningRows(content)
  {
    SectionRowPresent(content, ReasoningSections, k);
  }

  // ---------------------------------------------------------------------
  // The workbook
  // ---------------------------------------------------------------------

  /** `key in all_ad_data and all_ad_data[key]` for a list entry. */
  predicate ListPresent(entry: Option<seq<Record>>) {
    entry.Some? && entry.value != []
  }

  /** The same test for a dict entry. */
  predicate DictPresent(entry: Option<Record>) {
    entry.Some? && entry.value != map[]
  }

  /** Whether the sheet of `kind` is created for `data` (Reasoning needs only its key). */
  predicate SheetWanted(data: AdData, kind: SheetKind) {
    match kind
    case EmailSheetKind => ListPresent(data.email)
    case LinkedInSheetKind => ListPresent(data.linkedin)
    case FaceBookSheetKind => ListPresent(data.facebook)
    case SearchSheetKind => DictPresent(data.googleSearch)
    case DisplaySheetKind => DictPresent(data.googleDisplay)
    case ReasoningSheetKind => data.reasoning.Some?
  }

  /** The data `create_excel_report` can write without raising. */
  predicate Writable(data: AdData) {
    && (ListPresent(data.linkedin) ==> forall k :: 0 <= k < |data.linkedin.value| ==> HasKnownObjective(data.linkedin.value[k]))
    && (ListPresent(data.facebook) ==> forall k :: 0 <= k < |data.facebook.value| ==> HasKnownObjective(data.facebook.value[k]))
    && (DictPresent(data.googleSearch) ==> GoogleLists(data.googleSearch.value).Success?)
    && (DictPresent(data.googleDisplay) ==> GoogleLists(data.googleDisplay.value).Success?)
  }

  /** The sheets one `if` block contributes: one sheet of `kind` when `wanted`, none otherwise, always rectangular. */
  predicate Contributes(sheets: seq<Sheet>, wanted: bool, kind: SheetKind) {
    && |sheets| == (if wanted then 1 else 0)
    && forall k :: 0 <= k < |sheets| ==> sheets[k].kind == kind && Rectangular(sheets[k])
  }

  function EmailSheet(data: AdData): (r: seq<Sheet>)
    ensures Contributes(r, ListPresent(data.email), EmailSheetKind)
  {
    if ListPresent(data.email) then [Sheet(EmailSheetKind, EmailHeader, EmailRows(data.email.value))] else []
  }

  /** A social sheet, or the KeyError its version counters raise. */
  function SocialSheet(ads: Option<seq<Record>>, kind: SheetKind, header: seq<string>, textKeys: seq<string>): (r: Result<seq<Sheet>, ReportError>)
    requires |header| == |textKeys| + 5
    ensures r.Success? <==> (ListPresent(ads) ==> forall k :: 0 <= k < |ads.value| ==> HasKnownObjective(ads.value[k]))
    ensures r.Success? ==> Contributes(r.value, ListPresent(ads), kind)
  {
    if !ListPresent(ads) then Success([])
    else
      var rows :- SocialRows(ads.value, textKeys);
      assert forall k :: 0 <= k < |rows| ==> |rows[k]| == |header| by {
        forall k | 0 <= k < |rows| ensures |rows[k]| == |header| {
          SocialRowVersion(ads.value, textKeys, k);
        }
      }
      Success([Sheet(kind, header, rows)])
  }

  /** A Google sheet built by `rows` from the response's lists, or the exception reading them raises. */
  function SearchSheet(data: AdData): (r: Result<seq<Sheet>, ReportError>)
    ensures r.Success? <==> (DictPresent(data.googleSearch) ==> GoogleLists(data.googleSearch.value).Success?)
    ensures r.Success? ==> Contributes(r.value, DictPresent(data.googleSearch), SearchSheetKind)
  {
    if !DictPresent(data.googleSearch) then Success([])
    else
      var lists :- SearchLists(data.googleSearch.value);
      Success([Sheet(SearchSheetKind, GoogleHeader, SearchRows(lists.0, lists.1))])
  }

  function DisplaySheet(data: AdData): (r: Result<seq<Sheet>, ReportError>)
    ensures r.Success? <==> (DictPresent(data.googleDisplay) ==> GoogleLists(data.googleDisplay.value).Success?)
    ensures r.Success? ==> Contributes(r.value, DictPresent(data.googleDisplay), DisplaySheetKind)
  {
    if !DictPresent(data.googleDisplay) then Success([])
    else
      var lists :- GoogleLists(data.googleDisplay.value);
      Success([Sheet(DisplaySheetKind, GoogleHeader, DisplayRows(lists.0, lists.1))])
  }

  function ReasoningSheet(data: AdData): (r: seq<Sheet>)
    ensures Contributes(r, data.reasoning.Some?, ReasoningSheetKind)
  {
    if data.reasoning.Some? then [Sheet(ReasoningSheetKind, ReasoningHeader, ReasoningRows(data.reasoning.value))] else []
  }

  /** The sheets of the workbook in creation order, or the first exception raised while building them. */
  function Sheets(data: AdData): (r: Result<seq<Sheet>, ReportError>)
    ensures r.Success? <==> Writable(data)
  {
    var linkedin :- SocialSheet(data.linkedin, LinkedInSheetKind, LinkedInHeader, LinkedInTextKeys);
    var facebook :- SocialSheet(data.facebook, FaceBookSheetKind, FaceBookHeader, FaceBookTextKeys);
    var search :- SearchSheet(data);
    var display :- DisplaySheet(data);
    Success(EmailSheet(data) + linkedin + facebook + search + display + ReasoningSheet(data))
  }

  function Kinds(sheets: seq<Sheet>): (kinds: seq<SheetKind>)
    ensures |kinds| == |sheets|
    ensures forall k :: 0 <= k < |sheets| ==> kinds[k] == sheets[k].kind
  {
    seq(|sheets|, i requires 0 <= i < |sheets| => sheets[i].kind)
  }

  /** Sheets whose ranks strictly increase and stay below `bound`. */
  predicate RankedBelow(sheets: seq<Sheet>, bound: nat) {
    && (forall i, j :: 0 <= i < j < |sheets| ==> Rank(sheets[i].kind) < Rank(sheets[j].kind))
    && (forall k :: 0 <= k < |sheets| ==> Rank(sheets[k].kind) < bound)
  }

  /** Appending one block after sheets of lower rank keeps the ranks increasing. */
  lemma AppendRanked(before: seq<Sheet>, block: seq<Sheet>, wanted: bool, kind: SheetKind)
    requires RankedBelow(before, Rank(kind)) && Contributes(block, wanted, kind)
    ensures RankedBelow(before + block, Rank(kind) + 1)
  {
  }

  /** Appending one block keeps every sheet rectangular. */
  lemma AppendRectangular(before: seq<Sheet>, block: seq<Sheet>, wanted: bool, kind: SheetKind)
    requires (forall k :: 0 <= k < |before| ==> Rectangular(before[k])) && Contributes(block, wanted, kind)
    ensures forall k :: 0 <= k < |before + block| ==> Rectangular((before + block)[k])
  {
  }

  /** Appending one block adds exactly its kind, when it is wanted. */
  lemma AppendKinds(before: seq<Sheet>, block: seq<Sheet>, wanted: bool, kind: SheetKind)
    requires Contributes(block, wanted, kind)
    ensures forall t :: t in Kinds(before + block) <==> t in Kinds(before) || (wanted && t == kind)
  {
    var all := before + block;
    forall t ensures t in Kinds(all) <==> t in Kinds(before) || (wanted && t == kind) {
      if t in Kinds(all) {
        var k :| 0 <= k < |all| && Kinds(all)[k] == t;
        if k < |before| {
          assert Kinds(before)[k] == t;
        }
      }
      if t in Kinds(before) {
        var k :| 0 <= k < |before| && Kinds(before)[k] == t;
        assert Kinds(all)[k] == t;
      }
      if wanted && t == kind {
        assert Kinds(all)[|before|] == t;
      }
    }
  }

  /** The workbook is the six blocks' contributions in creation order. */
  lemma SheetsBlocks(data: AdData)
    requires Writable(data)
    ensures Sheets(data).value
      == EmailSheet(data)
        + SocialSheet(data.linkedin, LinkedInSheetKind, LinkedInHeader, LinkedInTextKeys).value
        + SocialSheet(data.facebook, FaceBookSheetKind, FaceBookHeader, FaceBookTextKeys).value
        + SearchSheet(data).value
        + DisplaySheet(data).value
        + ReasoningSheet(data)
  {
  }

  /** Six blocks of increasing rank concatenate into sheets of increasing rank. */
  lemma BlocksRanked(b0: seq<Sheet>, b1: seq<Sheet>, b2: seq<Sheet>, b3: seq<Sheet>, b4: seq<Sheet>, b5: seq<Sheet>,
    w0: bool, w1: bool, w2: bool, w3: bool, w4: bool, w5: bool)
    requires Contributes(b0, w0, EmailSheetKind) && Contributes(b1, w1, LinkedInSheetKind)
    requires Contributes(b2, w2, FaceBookSheetKind) && Contributes(b3, w3, SearchSheetKind)
    requires Contributes(b4, w4, DisplaySheetKind) && Contributes(b5, w5, ReasoningSheetKind)
    ensures RankedBelow(b0 + b1 + b2 + b3 + b4 + b5, 6)
  {
    FirstBlocksRanked(b0, b1, b2, w0, w1, w2);
    var first := b0 + b1 + b2;
    AppendRanked(first, b3, w3, SearchSheetKind);
    AppendRanked(first + b3, b4, w4, DisplaySheetKind);
    AppendRanked(first + b3 + b4, b5, w5, ReasoningSheetKind);
  }

  /** The Email, LinkedIn and FaceBook blocks concatenate into sheets of increasing rank. */
  lemma FirstBlocksRanked(b0: seq<Sheet>, b1: seq<Sheet>, b2: seq<Sheet>, w0: bool, w1: bool, w2: bool)
    requires Contributes(b0, w0, EmailSheetKind) && Contributes(b1, w1, LinkedInSheetKind)
    requires Contributes(b2, w2, FaceBookSheetKind)
    ensures RankedBelow(b0 + b1 + b2, 3)
  {
    AppendRanked([], b0, w0, EmailSheetKind);
    assert [] + b0 == b0;
    AppendRanked(b0, b1, w1, LinkedInSheetKind);
    AppendRanked(b0 + b1, b2, w2, FaceBookSheetKind);
  }

  /** Six rectangular blocks concatenate into rectangular sheets. */
  lemma BlocksRectangular(b0: seq<Sheet>, b1: seq<Sheet>, b2: seq<Sheet>, b3: seq<Sheet>, b4: seq<Sheet>, b5: seq<Sheet>,
    w0: bool, w1: bool, w2: bool, w3: bool, w4: bool, w5: bool)
    requires Contributes(b0, w0, EmailSheetKind) && Contributes(b1, w1, LinkedInSheetKind)
    requires Contributes(b2, w2, FaceBookSheetKind) && Contributes(b3, w3, SearchSheetKind)
    requires Contributes(b4, w4, DisplaySheetKind) && Contributes(b5, w5, ReasoningSheetKind)
    ensures forall k :: 0 <= k < |b0 + b1 + b2 + b3 + b4 + b5| ==> Rectangular((b0 + b1 + b2 + b3 + b4 + b5)[k])
  {
    AppendRectangular(b0, b1, w1, LinkedInSheetKind);
    AppendRectangular(b0 + b1, b2, w2, FaceBookSheetKind);
    AppendRectangular(b0 + b1 + b2, b3, w3, SearchSheetKind);
    AppendRectangular(b0 + b1 + b2 + b3, b4, w4, DisplaySheetKind);
    AppendRectangular(b0 + b1 + b2 + b3 + b4, b5, w5, ReasoningSheetKind);
  }

  /** Six blocks, each contributing its own kind, hold exactly the wanted kinds. */
  lemma BlocksKinds(b0: seq<Sheet>, b1: seq<Sheet>, b2: seq<Sheet>, b3: seq<Sheet>, b4: seq<Sheet>, b5: seq<Sheet>,
    w0: bool, w1: bool, w2: bool, w3: bool, w4: bool, w5: bool)
    requires Contributes(b0, w0, EmailSheetKind) && Contributes(b1, w1, LinkedInSheetKind)
    requires Contributes(b2, w2, FaceBookSheetKind) && Contributes(b3, w3, SearchSheetKind)
    requires Contributes(b4, w4, DisplaySheetKind) && Contributes(b5, w5, ReasoningSheetKind)
    ensures forall t :: t in Kinds(b0 + b1 + b2 + b3 + b4 + b5) <==>
            (w0 && t == EmailSheetKind) || (w1 && t == LinkedInSheetKind) || (w2 && t == FaceBookSheetKind)
            || (w3 && t == SearchSheetKind) || (w4 && t == DisplaySheetKind) || (w5 && t == ReasoningSheetKind)
  {
    AppendKinds([], b0, w0, EmailSheetKind);
    assert [] + b0 == b0;
    AppendKinds(b0, b1, w1, LinkedInSheetKind);
    AppendKinds(b0 + b1, b2, w2, FaceBookSheetKind);
    AppendKinds(b0 + b1 + b2, b3, w3, SearchSheetKind);
    AppendKinds(b0 + b1 + b2 + b3, b4, w4, DisplaySheetKind);
    AppendKinds(b0 + b1 + b2 + b3 + b4, b5, w5, ReasoningSheetKind);
  }

  /** A sheet kind is wanted exactly when its block's condition holds. */
  lemma WantedCases(data: AdData)
    ensures forall t :: SheetWanted(data, t) <==>
      (ListPresent(data.email) && t == EmailSheetKind) || (ListPresent(data.linkedin) && t == LinkedInSheetKind)
      || (ListPresent(data.facebook) && t == FaceBookSheetKind) || (DictPresent(data.googleSearch) && t == SearchSheetKind)
      || (DictPresent(data.googleDisplay) && t == DisplaySheetKind) || (data.reasoning.Some? && t == ReasoningSheetKind)
  {
  }

  /** The sheets present are exactly the wanted ones, each once, in creation order, and every one is rectangular. */
  lemma SheetsShape(data: AdData)
    requires Writable(data)
    ensures forall t :: t in Kinds(Sheets(data).value) <==> SheetWanted(data, t)
    ensures forall i, j :: 0 <= i < j < |Sheets(data).value| ==> Rank(Sheets(data).value[i].kind) < Rank(Sheets(data).value[j].kind)
    ensures forall k :: 0 <= k < |Sheets(data).value| ==> Rectangular(Sheets(data).value[k])
  {
    var b0 := EmailSheet(data);
    var b1 := SocialSheet(data.linkedin, LinkedInSheetKind, LinkedInHeader, LinkedInTextKeys).value;
    var b2 := SocialSheet(data.facebook, FaceBookSheetKind, FaceBookHeader, FaceBookTextKeys).value;
    var b3, b4, b5 := SearchSheet(data).value, DisplaySheet(data).value, ReasoningSheet(data);
    var w0, w1, w2 := ListPresent(data.email), ListPresent(data.linkedin), ListPresent(data.facebook);
    var w3, w4, w5 := DictPresent(data.googleSearch), DictPresent(data.googleDisplay), data.reasoning.Some?;
    SheetsBlocks(data);
    BlocksRanked(b0, b1, b2, b3, b4, b5, w0, w1, w2, w3, w4, w5);
    BlocksRectangular(b0, b1, b2, b3, b4, b5, w0, w1, w2, w3, w4, w5);
    BlocksKinds(b0, b1, b2, b3, b4, b5, w0, w1, w2, w3, w4, w5);
    WantedCases(data);
  }

  /** create_excel_report: the sheets and the file name, or the exception that escapes. */
  function CreateReport(data: AdData, companyName: string, leadObjective: string): (r: Result<Report, ReportError>)
    ensures r.Success? <==> Writable(data) && |Sheets(data).value| > 0
    ensures Writable(data) && |Sheets(data).value| == 0 ==> r == Failure(NoVisibleSheet)
    ensures r.Success? ==> r.value.sheets == Sheets(data).value && r.value.filename == FileName(companyName, leadObjective)
  {
    var sheets :- Sheets(data);
    if |sheets| == 0 then Failure(NoVisibleSheet)
    else Success(Report(sheets, FileName(companyName, leadObjective)))
  }

  /** Writable data gives a report exactly when some sheet is wanted; a reasoning key alone is enough. */
  lemma CreateReportNeedsASheet(data: AdData, companyName: string, leadObjective: string)
    requires Writable(data)
    ensures CreateReport(data, companyName, leadObjective).Success? <==> exists kind :: SheetWanted(data, kind)
    ensures data.reasoning.Some? ==> CreateReport(data, companyName, leadObjective).Success?
  {
    SheetsShape(data);
    var kinds := Kinds(Sheets(data).value);
    if exists kind :: SheetWanted(data, kind) {
      var kind :| SheetWanted(data, kind);
      assert kind in kinds;
    }
    if |kinds| > 0 {
      assert kinds[0] in kinds;
      assert SheetWanted(data, kinds[0]);
    }
    if data.reasoning.Some? {
      assert SheetWanted(data, ReasoningSheetKind);
    }
  }

  // ---------------------------------------------------------------------
  // Column widths
  // ---------------------------------------------------------------------

  const MaxWidth: real := 70.0
  const VersionColumnWidth: real := 10.0
  const ReasoningContentWidth: real := 100.0

  /** The longest text length in a column, 0 for an empty column. */
  function LongestLength(texts: seq<string>): (n: nat)
    ensures forall k :: 0 <= k < |texts| ==> |texts[k]| <= n
    ensures |texts| > 0 ==> exists k :: 0 <= k < |texts| && |texts[k]| == n
    ensures |texts| == 0 ==> n == 0
  {
    if |texts| == 0 then 0
    else
      var rest := LongestLength(texts[1..]);
      assert forall k :: 1 <= k < |texts| ==> texts[1..][k - 1] == texts[k];
      if |texts[0]| > rest then |texts[0]| else rest
  }

  /** The auto-fit width of a column whose longest text has `maxLength` characters: padded, scaled by 1.2, capped at 70. */
  function AutoWidth(maxLength: nat): (w: real)
    ensures 6.0 <= w <= MaxWidth
    ensures w < MaxWidth ==> w == (maxLength as real + 5.0) * 1.2
  {
    var adjusted := (maxLength as real + 5.0) * 1.2;
    if adjusted > MaxWidth then MaxWidth else adjusted
  }

  /** A column holding longer text is never narrower. */
  lemma AutoWidthMonotone(a: nat, b: nat)
    requires a <= b
    ensures AutoWidth(a) <= AutoWidth(b)
  {
  }

  /** Texts up to 53 characters get their exact padded width; from 54 on the cap applies. */
  lemma AutoWidthCapThreshold(n: nat)
    ensures n <= 53 ==> AutoWidth(n) == (n as real + 5.0) * 1.2 && AutoWidth(n) < MaxWidth
    ensures n >= 54 ==> AutoWidth(n) == MaxWidth
  {
  }

  /** `str(cell.value)` for a cell; `render` gives the text of a list or dict value. */
  function CellText(cell: Json, render: Json -> string): string {
    PyStr(cell, render)
  }

  /** Column `c` of a sheet as text, header first. */
  function ColumnTexts(sheet: Sheet, c: nat, render: Json -> string): (texts: seq<string>)
    requires Rectangular(sheet) && c < |sheet.header|
    ensures |texts| == |sheet.rows| + 1
    ensures texts[0] == sheet.header[c]
  {
    [sheet.header[c]] + seq(|sheet.rows|, k requires 0 <= k < |sheet.rows| => CellText(sheet.rows[k][c], render))
  }

  /** The version column of these sheets has a fixed width. */
  predicate HasVersionColumn(kind: SheetKind) {
    kind == EmailSheetKind || kind == LinkedInSheetKind || kind == FaceBookSheetKind
  }

  /** The width style_sheet (and, for the Reasoning content column, the code after it) gives each column. */
  function ColumnWidths(sheet: Sheet, render: Json -> string): (widths: seq<real>)
    requires Rectangular(sheet)
    ensures |widths| == |sheet.header|
    ensures forall c :: 0 <= c < |widths| ==> 6.0 <= widths[c] <= ReasoningContentWidth
    ensures forall c :: 0 <= c < |widths| && !(sheet.kind == ReasoningSheetKind && c == 1) ==> widths[c] <= MaxWidth
    ensures |widths| > 0 && HasVersionColumn(sheet.kind) ==> widths[0] == VersionColumnWidth
    ensures forall c :: (0 <= c < |widths| && !(c == 0 && HasVersionColumn(sheet.kind)) && !(sheet.kind == ReasoningSheetKind && c == 1)
      ==> widths[c] == AutoWidth(LongestLength(ColumnTexts(sheet, c, render))))
  {
    seq(|sheet.header|, c requires 0 <= c < |sheet.header| && Rectangular(sheet) =>
      if c == 0 && HasVersionColumn(sheet.kind) then VersionColumnWidth
      else if sheet.kind == ReasoningSheetKind && c == 1 then ReasoningContentWidth
      else AutoWidth(LongestLength(ColumnTexts(sheet, c, render))))
  }

  // ---------------------------------------------------------------------
  // File name
  // ---------------------------------------------------------------------

  /** The company part: the name without any "www.", cut at its first ".", or "company" for an empty name. */
  function CompanyPart(companyName: string): (part: string)
    ensures '.' !in part
    ensures companyName == "" ==> part == "company"
    ensures companyName != "" ==> StartsWith(RemoveAll(companyName, "www."), part)
    ensures companyName != "" && '.' !in companyName ==> part == companyName
    ensures companyName != "" ==> var bare := RemoveAll(companyName, "www."); |part| == |bare| || bare[|part|] == '.'
  {
    if companyName == "" then "company"
    else
      var bare := RemoveAll(companyName, "www.");
      if '.' !in companyName then RemoveAllAbsent(companyName, "www.", 3); BeforeFirst(bare, '.')
      else BeforeFirst(bare, '.')
  }

  /** A name with no dot, such as "walmart", is used as it is: "www." holds a dot, so nothing is removed. */
  lemma CompanyPartOfBareName(companyName: string)
    requires companyName != "" && '.' !in companyName
    ensures CompanyPart(companyName) == companyName
    ensures CompanyPart("walmart") == "walmart"
  {
    assert '.' !in "walmart";
  }

  /** The objective part: lower-cased with spaces turned into underscores. */
  function ObjectivePart(leadObjective: string): (part: string)
    ensures |part| == |leadObjective|
    ensures forall k :: 0 <= k < |part| ==> part[k] == if leadObjective[k] == ' ' then '_' else LowerChar(leadObjective[k])
    ensures ' ' !in part
    ensures forall k :: 0 <= k < |part| ==> !IsUpper(part[k])
  {
    ReplaceChar(Lower(leadObjective), ' ', '_')
  }

  /** The download name `<company part>_<objective part>.xlsx`. */
  function FileName(companyName: string, leadObjective: string): (name: string)
    ensures EndsWith(name, ".xlsx")
    ensures StartsWith(name, CompanyPart(companyName) + "_")
    ensures |name| == |CompanyPart(companyName)| + |leadObjective| + 6
    ensures name[|CompanyPart(companyName)| + 1..|name| - 5] == ObjectivePart(leadObjective)
  {
    var prefix := CompanyPart(companyName) + "_";
    var name := prefix + ObjectivePart(leadObjective) + ".xlsx";
    assert name[..|prefix|] == prefix;
    assert name[|name| - 5..] == ".xlsx";
    assert name[|prefix|..|name| - 5] == ObjectivePart(leadObjective);
    name
  }

  /** For one company, the file name tells the lead objective's part back. */
  lemma FileNameDeterminesObjective(companyName: string, lead1: string, lead2: string)
    requires FileName(companyName, lead1) == FileName(companyName, lead2)
    ensures ObjectivePart(lead1) == ObjectivePart(lead2)
  {
  }

  /** The two lead objectives give the file names the users see. */
  lemma FileNameExamples()
    ensures ObjectivePart("Sales Meeting") == "sales_meeting"
    ensures ObjectivePart("Demo Booking") == "demo_booking"
    ensures CompanyPart("") == "company"
  {
    assert Lower("Sales Meeting") == "sales meeting";
    assert Lower("Demo Booking") == "demo booking";
  }
}

=== FILE: json.dfy ===
/**
  The Python value `json.loads` produces (section 3 of RFC 8259 lists the
  kinds), used for model answers, ad records and spreadsheet cells.
  Numbers are integers only; an object is a Python dict, keyed by string.
 */
module Json {
  import opened Strings

  datatype Json =
    | Null
    | Bool(b: bool)
    | Num(n: int)
    | Str(s: string)
    | Arr(items: seq<Json>)
    | Obj(fields: map<string, Json>)

  /** A parsed ad or report record: a Python dict with string keys. */
  type Record = map<string, Json>

  /** Python's truth value of a JSON-derived value (`if value:`). */
  predicate Truthy(j: Json) {
    match j
    case Null => false
    case Bool(b) => b
    case Num(n) => n != 0
    case Str(s) => s != ""
    case Arr(items) => items != []
    case Obj(fields) => fields != map[]
  }

  /** Python's `d.get(key, default)`. */
  function Get(d: Record, key: string, default: Json): (v: Json)
    ensures key in d ==> v == d[key]
    ensures key !in d ==> v == default
  {
    if key in d then d[key] else default
  }

  /** Python's `str(value)` for the scalar kinds; arrays and objects render to their repr via `repr`. */
  function PyStr(j: Json, repr: Json -> string): string {
    match j
    case Null => "None"
    case Bool(b) => if b then "True" else "False"
    case Num(n) => IntToString(n)
    case Str(s) => s
    case _ => repr(j)
  }
}

=== FILE: main_app.dfy ===
/**
  The pure pieces of the Streamlit script (main_app.py): the company name
  used in the file name, the progress step arithmetic, how extracted text
  and summaries are screened for errors, how model replies are accepted
  and social ads enriched, the counts reported to the reasoning prompt,
  the reasoning record, the `has_data` gate and the de-duplication of
  error messages. The model service is an oracle (see AiHelper); the UI,
  session state and `st.rerun` are not modelled.
 */
module MainApp {
  import opened Wrappers
  import opened Strings
  import opened Json
  import PromptBuilder
  import AiHelper
  import TextExtractor
  import ExcelWriter

  // ---------------------------------------------------------------------
  // Company name
  // ---------------------------------------------------------------------

  /** `urlparse(url).netloc`, as an oracle: None when urlparse raises. */
  type Netloc = string -> Option<string>

  /** The labels the company-name helper tests the second-to-last domain label against. */
  const GenericLabels := ["co", "com", "org", "net", "gov", "edu"]

  /** The domain labels of the fixed-up URL, or None when there is no URL or urlparse raises. */
  function DomainLabels(url: string, netloc: Netloc): (labels: Option<seq<string>>)
    ensures labels.Some? ==> |labels.value| >= 1
    ensures labels.Some? ==> forall k :: 0 <= k < |labels.value| ==> '.' !in labels.value[k]
  {
    if url == "" then None
    else
      match netloc(TextExtractor.NormalizeUrl(url))
      case None => None
      case Some(host) => Some(Split(host, '.'))
  }

  /** get_company_name_from_url as written: both branches for three or more labels return the second-to-last one. */
  function CompanyNameAsWritten(url: string, netloc: Netloc): (name: string)
    ensures url == "" ==> name == "brand"
    ensures '.' !in name
  {
    match DomainLabels(url, netloc)
    case None => "brand"
    case Some(parts) =>
      var n := |parts|;
      if n > 2 && parts[n - 2] !in GenericLabels then parts[n - 2]
      else if n > 1 then (if n > 2 then parts[n - 2] else parts[0])
      else parts[0]
  }

  /** The generic-label test changes nothing: with three or more labels the result is always the second-to-last. */
  lemma CompanyNameAsWrittenIgnoresLabelList(url: string, netloc: Netloc)
    requires DomainLabels(url, netloc).Some?
    ensures var parts := DomainLabels(url, netloc).value;
      CompanyNameAsWritten(url, netloc) == if |parts| > 2 then parts[|parts| - 2] else parts[0]
  {
  }

  /** So a host such as "bbc.co.uk" is named after a generic label: "co". */
  lemma {:induction false} CompanyNameAsWrittenPicksGenericLabel(url: string, netloc: Netloc)
    requires DomainLabels(url, netloc).Some?
    requires var parts := DomainLabels(url, netloc).value; |parts| > 2 && parts[|parts| - 2] in GenericLabels
    ensures CompanyNameAsWritten(url, netloc) in GenericLabels
  {
    CompanyNameAsWrittenIgnoresLabelList(url, netloc);
  }

  /** A host name whose second-to-last label is generic. */
  const BbcHost := "bbc.co.uk"
  const BbcHostLabels := ["bbc", "co", "uk"]

  /** The labels of "bbc.co.uk". */
  lemma BbcLabels()
    ensures Split(BbcHost, '.') == BbcHostLabels
  {
    BbcParts();
    CoUkLabels();
    SplitFirstPart("bbc", '.', "co" + ['.'] + "uk");
  }

  lemma BbcParts()
    ensures "bbc.co.uk" == "bbc" + ['.'] + ("co" + ['.'] + "uk")
    ensures '.' !in "bbc"
  {
  }

  lemma CoUkLabels()
    ensures Split("co" + ['.'] + "uk", '.') == ["co", "uk"]
  {
    SplitFirstPart("co", '.', "uk");
    assert Find("uk", '.') == -1;
  }

  /** The labels of a URL are those of the host name urlparse finds in its fixed-up form. */
  lemma DomainLabelsOfHost(url: string, netloc: Netloc, host: string)
    requires url != "" && netloc(TextExtractor.NormalizeUrl(url)) == Some(host)
    ensures DomainLabels(url, netloc) == Some(Split(host, '.'))
  {
  }

  /** A site whose host name is "bbc.co.uk" is named "co". */
  lemma {:induction false} CompanyNameAsWrittenBbc(url: string, netloc: Netloc)
    requires url != "" && netloc(TextExtractor.NormalizeUrl(url)) == Some(BbcHost)
    ensures CompanyNameAsWritten(url, netloc) == "co"
  {
    DomainLabelsOfHost(url, netloc, BbcHost);
    BbcLabels();
    CompanyNameAsWrittenIgnoresLabelList(url, netloc);
  }

  /**
    get_company_name_from_url as the label list evidently intends: when
    the second-to-last label is generic (as in "bbc.co.uk"), the label
    before it names the company.
   */
  function CompanyName(url: string, netloc: Netloc): (name: string)
    ensures url == "" ==> name == "brand"
    ensures '.' !in name
  {
    match DomainLabels(url, netloc)
    case None => "brand"
    case Some(parts) =>
      var n := |parts|;
      if n > 2 then (if parts[n - 2] in GenericLabels then parts[n - 3] else parts[n - 2])
      else parts[0]
  }

  /** The corrected name skips a generic second-to-last label, unless the label before it is generic too. */
  lemma CompanyNameSkipsGenericLabel(url: string, netloc: Netloc)
    requires DomainLabels(url, netloc).Some?
    requires var parts := DomainLabels(url, netloc).value; |parts| > 2 && parts[|parts| - 3] !in GenericLabels
    ensures CompanyName(url, netloc) !in GenericLabels || CompanyName(url, netloc) == CompanyNameAsWritten(url, netloc)
    ensures var parts := DomainLabels(url, netloc).value;
      parts[|parts| - 2] in GenericLabels ==> CompanyName(url, netloc) == parts[|parts| - 3] && CompanyName(url, netloc) !in GenericLabels
  {
  }

  /** Away from the generic labels the correction agrees with the code as written. */
  lemma CompanyNameAgreesElsewhere(url: string, netloc: Netloc)
    requires DomainLabels(url, netloc).None? || var parts := DomainLabels(url, netloc).value; |parts| <= 2 || parts[|parts| - 2] !in GenericLabels
    ensures CompanyName(url, netloc) == CompanyNameAsWritten(url, netloc)
  {
  }

  /** With the correction, "bbc.co.uk" is named "bbc". */
  lemma CompanyNameBbc(url: string, netloc: Netloc)
    requires url != "" && netloc(TextExtractor.NormalizeUrl(url)) == Some(BbcHost)
    ensures CompanyName(url, netloc) == "bbc"
  {
    BbcLabels();
    CompanyNameOfGenericLabel(url, netloc, BbcHost, BbcHostLabels);
  }

  /** With three labels whose middle one is generic, the corrected name is the first. */
  lemma CompanyNameOfGenericLabel(url: string, netloc: Netloc, host: string, parts: seq<string>)
    requires url != "" && netloc(TextExtractor.NormalizeUrl(url)) == Some(host)
    requires Split(host, '.') == parts && |parts| == 3 && parts[1] == GenericLabels[0]
    ensures CompanyName(url, netloc) == parts[0]
  {
    DomainLabelsOfHost(url, netloc, host);
  }

  // ---------------------------------------------------------------------
  // Progress
  // ---------------------------------------------------------------------

  /** `total_steps`, summed as the script sums it. */
  function TotalSteps(contentCount: nat): (n: nat)
    ensures n == 9 + 7 * contentCount
  {
    var steps := 5;
    var steps := steps + contentCount;
    var steps := steps + 3 * contentCount;
    var steps := steps + 3 * contentCount;
    var steps := steps + 2;
    var steps := steps + 1;
    steps + 1
  }

  /** What became of an optional upload: none given, extraction flagged an error, or its text was summarised. */
  datatype UploadStep = NoUpload | UploadFlagged | UploadSummarised

  /** The branches one run takes; each decides whether an `update_progress` call happens. */
  datatype RunShape = RunShape(urlSummarised: bool, additional: UploadStep, downloadable: UploadStep, hasData: bool)

  function UploadCalls(step: UploadStep): (n: nat)
    ensures n <= 2
  {
    match step
    case NoUpload => 0
    case UploadFlagged => 1
    case UploadSummarised => 2
  }

  /** The `update_progress` calls before the social loop: the three sources and the email loop. */
  function ContextAndEmailCalls(run: RunShape, contentCount: nat): nat {
    1 + (if run.urlSummarised then 1 else 0)
    + UploadCalls(run.additional) + UploadCalls(run.downloadable)
    + contentCount                // emails
  }

  /**
    The `update_progress` calls of a run that raises nothing, which needs
    the corrected social prompt builder: the social loop, then search,
    display, reasoning and, with data, the report.
   */
  function ProgressCalls(run: RunShape, contentCount: nat): nat {
    ContextAndEmailCalls(run, contentCount)
    + 2 * 3 * contentCount        // two platforms, three objectives
    + 1 + 1 + 1                   // search, display, reasoning
    + (if run.hasData then 1 else 0)
  }

  /** With the corrected social prompt builder, a run makes at most one call more than `total_steps`, and at least `total_steps - 5`. */
  lemma ProgressCallsBound(run: RunShape, contentCount: nat)
    ensures TotalSteps(contentCount) - 5 <= ProgressCalls(run, contentCount) <= TotalSteps(contentCount) + 1
  {
  }

  /** With the corrected social prompt builder and every branch taken, the step count passes `total_steps`, which is why the fraction is capped at 1. */
  lemma ProgressCanOvershoot(contentCount: nat)
    ensures ProgressCalls(RunShape(true, UploadSummarised, UploadSummarised, true), contentCount) == TotalSteps(contentCount) + 1
  {
  }

  /** Python's message for the NameError the social prompt builder raises. */
  function ExceptionText(e: PromptBuilder.PyException): string {
    "name '" + e.name + "' is not defined"
  }

  /**
    A run as written: the first social iteration makes its progress call
    and then the prompt builder raises, so the run leaves the `try` for
    the "Unexpected Error" handler. Only a loop with no versions would
    get past it.
   */
  function ProgressCallsAsWritten(run: RunShape, contentCount: nat, context: string, leadObjective: string, links: PromptBuilder.Links): (n: nat)
    ensures contentCount == 0 ==> n == ProgressCalls(run, contentCount)
    ensures contentCount > 0 ==> n == ContextAndEmailCalls(run, contentCount) + 1
  {
    var first := PromptBuilder.SocialPromptAsWritten(PlatformName(LinkedInPlatform), context, leadObjective, links, AdObjectives[0], 1);
    if contentCount > 0 && first.Failure? then ContextAndEmailCalls(run, contentCount) + 1
    else ProgressCalls(run, contentCount)
  }

  /** The error a run as written records, if any, from the first social prompt. */
  function RunErrorAsWritten(contentCount: nat, context: string, leadObjective: string, links: PromptBuilder.Links): (e: Option<string>)
    ensures contentCount == 0 ==> e.None?
    ensures contentCount > 0 ==> e == Some("Unexpected Error: name 'json' is not defined")
  {
    var first := PromptBuilder.SocialPromptAsWritten(PlatformName(LinkedInPlatform), context, leadObjective, links, AdObjectives[0], 1);
    JsonNameErrorMessage();
    if contentCount > 0 && first.Failure? then Some("Unexpected Error: " + ExceptionText(first.error)) else None
  }

  /**
    The version slider starts at 1, so every run as written stops in the
    social loop: it makes at most `content_count + 7` progress calls,
    short of the `total_steps - 5` a complete run makes, and records the
    NameError.
   */
  lemma {:induction false} RunStopsAtSocialLoop(run: RunShape, contentCount: nat, context: string, leadObjective: string, links: PromptBuilder.Links)
    requires 1 <= contentCount <= 20
    ensures ProgressCallsAsWritten(run, contentCount, context, leadObjective, links) <= contentCount + 7
    ensures ProgressCallsAsWritten(run, contentCount, context, leadObjective, links) < TotalSteps(contentCount) - 5
    ensures RunErrorAsWritten(contentCount, context, leadObjective, links) == Some("Unexpected Error: name 'json' is not defined")
  {
    var first := PromptBuilder.SocialPromptAsWritten(PlatformName(LinkedInPlatform), context, leadObjective, links, AdObjectives[0], 1);
    assert first.error == PromptBuilder.NameError("json");
    JsonNameErrorMessage();
    assert UploadCalls(run.additional) <= 2 && UploadCalls(run.downloadable) <= 2;
  }

  lemma JsonNameErrorMessage()
    ensures "Unexpected Error: " + ExceptionText(PromptBuilder.NameError("json")) == "Unexpected Error: name 'json' is not defined"
  {
  }

  // ---------------------------------------------------------------------
  // Context extraction and summarisation
  // ---------------------------------------------------------------------

  /** The summary kept for one source, the error messages it produced, and its `update_progress` calls after extraction. */
  datatype SourceOutcome = SourceOutcome(summary: Option<string>, errors: seq<string>, steps: nat)

  /**
    One source: text whose extraction is flagged ("Error" in it) is
    reported and not summarised; otherwise it is summarised, and a flagged
    summary is reported too (but still kept).
   */
  function ProcessSource(extractLabel: string, summaryLabel: string, text: string, summarize: string -> string): (out: SourceOutcome)
    ensures out.summary.Some? <==> !ErrorTagged(text)
    ensures out.summary.Some? ==> out.summary.value == summarize(text)
    ensures out.steps == if ErrorTagged(text) then 0 else 1
    ensures |out.errors| <= 1
    ensures out.errors != [] <==> ErrorTagged(text) || ErrorTagged(summarize(text))
  {
    if ErrorTagged(text) then SourceOutcome(None, [extractLabel + text], 0)
    else
      var summary := summarize(text);
      SourceOutcome(Some(summary), if ErrorTagged(summary) then [summaryLabel + summary] else [], 1)
  }

  /** A source reaches the prompts only if it produced no error message, and every flagged summary is both reported and left out of the context. */
  lemma SourceErrorsStayOutOfContext(extractLabel: string, summaryLabel: string, text: string, summarize: string -> string)
    ensures var out := ProcessSource(extractLabel, summaryLabel, text, summarize);
      PromptBuilder.Usable(out.summary) ==> out.errors == []
    ensures var out := ProcessSource(extractLabel, summaryLabel, text, summarize);
      out.summary.Some? && ErrorTagged(out.summary.value) ==> out.errors != [] && !PromptBuilder.Usable(out.summary)
  {
  }

  /** With the real summariser, an extraction that produced no text is reported: the summariser refuses empty text with an "Error" message. */
  lemma EmptyTextIsReported(clientReady: bool, attempt: AiHelper.Attempt)
    ensures ProcessSource("", "", "", t => AiHelper.Summarize(clientReady, t, attempt)).errors != []
  {
    AiHelper.SummaryFailuresAreTagged(clientReady, "", attempt);
    assert !ErrorTagged("") by {
      MissingCharExcludes("", "Error", 0);
    }
  }

  /** An upload of an unsupported type is not reported: its marker text is summarised as if it were content. */
  lemma UnsupportedUploadIsSummarised(u: TextExtractor.Upload, summarize: string -> string)
    requires TextExtractor.SelectKind(u.mimeType, u.name) == TextExtractor.UnsupportedFile
    ensures var out := ProcessSource("", "", TextExtractor.ExtractFromFile(Some(u)).value, summarize);
      out.summary == Some(summarize(TextExtractor.UnsupportedMarker))
  {
    TextExtractor.UnsupportedMarkerNotTagged();
  }

  const NoContextMessage := "No usable context was extracted or summarized. Cannot generate ads effectively."

  /** Python's truth value of an optional summary. */
  predicate Present(summary: Option<string>) {
    summary.Some? && summary.value != ""
  }

  /** The "no usable context" message is added when the context is the sentinel and no summary is truthy. */
  predicate NoContextWarning(url: Option<string>, additional: Option<string>, downloadable: Option<string>) {
    Contains(PromptBuilder.CombinedContext(url, additional, downloadable), "No context")
      && !(Present(url) || Present(additional) || Present(downloadable))
  }

  /** The warning appears exactly when no summary is present at all. */
  lemma NoContextWarningWhenNothingSummarised(url: Option<string>, additional: Option<string>, downloadable: Option<string>)
    ensures NoContextWarning(url, additional, downloadable) <==> !Present(url) && !Present(additional) && !Present(downloadable)
  {
    if !Present(url) && !Present(additional) && !Present(downloadable) {
      assert !PromptBuilder.Usable(url) && !PromptBuilder.Usable(additional) && !PromptBuilder.Usable(downloadable);
      NoContextMentionsNoContext();
    }
  }

  lemma NoContextMentionsNoContext()
    ensures Contains(PromptBuilder.NoContext, "No context")
  {
    assert PromptBuilder.NoContext == "No context" + " provided or extracted.";
    assert PromptBuilder.NoContext[..10] == "No context";
    StartsWithContains(PromptBuilder.NoContext, "No context");
  }

  /** Summaries that are all error messages leave the prompts without context, yet raise no warning. */
  lemma ErrorSummariesGiveNoWarning(message: string)
    ensures PromptBuilder.CombinedContext(Some("Error" + message), None, None) == PromptBuilder.NoContext
    ensures !NoContextWarning(Some("Error" + message), None, None)
  {
    ErrorPrefixTagged(message);
  }

  // ---------------------------------------------------------------------
  // Accepting replies and enriching social ads
  // ---------------------------------------------------------------------

  /** A reply is accepted when it is a dict without an "error" key. */
  function Accept(reply: AiHelper.Reply): (ad: Option<Record>)
    ensures ad.Some? <==> reply.Value? && reply.value.Obj? && "error" !in reply.value.fields
    ensures ad.Some? ==> reply == AiHelper.Value(Obj(ad.value))
  {
    match reply
    case Value(Obj(fields)) => if "error" in fields then None else Some(fields)
    case _ => None
  }

  /** Every error a generation returns is rejected: an accepted reply always comes from an attempt that succeeded. */
  lemma AcceptedRepliesComeFromSuccess(clientReady: bool, attempts: seq<AiHelper.Attempt>, parse: AiHelper.Parser)
    requires |attempts| == AiHelper.MaxRetries
    requires Accept(AiHelper.Generate(clientReady, attempts, true, parse).reply).Some?
    ensures clientReady
    ensures exists j :: 0 <= j < AiHelper.MaxRetries && AiHelper.Succeeds(attempts[j], true, parse)
  {
    if forall k :: 0 <= k < AiHelper.MaxRetries ==> !AiHelper.Succeeds(attempts[k], true, parse) {
      AiHelper.GenerateExhausted(attempts, true, parse);
      assert false;
    }
  }

  /** The text after "Error: " in a rejection message: the dict's "error" value, or the reply itself. */
  function ErrorDetail(reply: AiHelper.Reply, render: Json -> string): string {
    match reply
    case Text(t) => t
    case Value(Obj(fields)) => PyStr(if "error" in fields then fields["error"] else Obj(fields), render)
    case Value(v) => PyStr(v, render)
  }

  datatype Platform = LinkedInPlatform | FaceBookPlatform

  function PlatformName(platform: Platform): string {
    match platform
    case LinkedInPlatform => "LinkedIn"
    case FaceBookPlatform => "FaceBook"
  }

  /** The platforms' `objectives`, in loop order. */
  const AdObjectives := [PromptBuilder.BrandAwareness, PromptBuilder.DemandGen, PromptBuilder.DemandCapture]

  /** `cta_map[platform][objective]`, for the three objectives. */
  function CtaButton(platform: Platform, objective: string): (cta: Option<string>)
    ensures cta.Some? <==> objective in AdObjectives
    ensures objective == PromptBuilder.DemandCapture ==> cta == Some(if platform == LinkedInPlatform then "Request Demo" else "Book Now")
  {
    if objective == PromptBuilder.BrandAwareness then Some("Learn More")
    else if objective == PromptBuilder.DemandGen then Some("Download")
    else if objective == PromptBuilder.DemandCapture then
      Some(match platform case LinkedInPlatform => "Request Demo" case FaceBookPlatform => "Book Now")
    else None
  }

  /** The two platforms differ only in the Demand Capture button. */
  lemma CtaButtonsShared(objective: string)
    requires objective in AdObjectives && objective != PromptBuilder.DemandCapture
    ensures CtaButton(LinkedInPlatform, objective) == CtaButton(FaceBookPlatform, objective)
  {
  }

  /** An accepted social ad with its destination, CTA button and objective filled in. */
  function Enrich(platform: Platform, objective: string, response: Record, links: PromptBuilder.Links): (ad: Record)
    ensures "objective_type" in ad && ad["objective_type"] == Str(objective)
    ensures objective in AdObjectives ==>
      && "destination_url" in ad
      && ad["destination_url"] == Str(PromptBuilder.LinkOr(links, PromptBuilder.DestinationKey(objective).value, "#"))
      && "cta_button" in ad && ad["cta_button"] == Str(CtaButton(platform, objective).value)
    ensures objective !in AdObjectives ==> ad == response["objective_type" := Str(objective)]
    ensures forall k :: k in response && k != "objective_type" && k != "destination_url" && k != "cta_button" ==> k in ad && ad[k] == response[k]
    ensures ad.Keys <= response.Keys + {"objective_type", "destination_url", "cta_button"}
  {
    var withLinks :=
      if objective == PromptBuilder.BrandAwareness then
        response["destination_url" := Str(PromptBuilder.LinkOr(links, "learn_more", "#"))]["cta_button" := Str(CtaButton(platform, objective).value)]
      else if objective == PromptBuilder.DemandGen then
        response["destination_url" := Str(PromptBuilder.LinkOr(links, "downloadable", "#"))]["cta_button" := Str(CtaButton(platform, objective).value)]
      else if objective == PromptBuilder.DemandCapture then
        response["destination_url" := Str(PromptBuilder.LinkOr(links, "objective_link", "#"))]["cta_button" := Str(CtaButton(platform, objective).value)]
      else response;
    withLinks["objective_type" := Str(objective)]
  }

  /** The spreadsheet's Destination cell of an enriched ad is the link its prompt pointed the model at. */
  lemma DestinationMatchesPrompt(platform: Platform, objective: string, response: Record, links: PromptBuilder.Links)
    requires objective in AdObjectives
    ensures var ad := Enrich(platform, objective, response, links);
      && EndsWith(PromptBuilder.DestinationInfo(objective, links), ad["destination_url"].s)
      && ExcelWriter.Field(ad, "destination_url") == ad["destination_url"]
  {
  }

  /** Enriched ads always carry one of the three counter objectives, so the report's version counters never raise. */
  lemma EnrichedAdsAreWritable(platform: Platform, objective: string, response: Record, links: PromptBuilder.Links)
    requires objective in AdObjectives
    ensures ExcelWriter.HasKnownObjective(Enrich(platform, objective, response, links))
    ensures ExcelWriter.ObjectiveOf(Enrich(platform, objective, response, links)) == Str(objective)
  {
  }

  // ---------------------------------------------------------------------
  // Generation loops
  // ---------------------------------------------------------------------

  /** The accepted items of a generation loop and the error messages of the rejected ones, both in loop order. */
  datatype Batch = Batch(ads: seq<Record>, errors: seq<string>)

  /**
    `for i in range(len(replies))`: reply `i` is accepted and passed
    through `keep`, or reported with `message(i + 1, detail)`. Both lists
    grow in loop order: the k-th ad comes from the k-th accepted reply and
    the k-th message from the k-th rejected one.
   */
  function Collect(replies: seq<AiHelper.Reply>, keep: Record -> Record, message: (nat, string) -> string, render: Json -> string): (b: Batch)
    ensures |b.ads| + |b.errors| == |replies|
    ensures |b.ads| == |AcceptedIndices(replies)|
    ensures forall k :: 0 <= k < |b.ads| ==> exists i :: 0 <= i < |replies| && Accept(replies[i]).Some? && b.ads[k] == keep(Accept(replies[i]).value)
  {
    if |replies| == 0 then Batch([], [])
    else
      var n := |replies| - 1;
      var before := Collect(replies[..n], keep, message, render);
      assert forall i :: 0 <= i < n ==> replies[..n][i] == replies[i];
      match Accept(replies[n])
      case Some(ad) => Batch(before.ads + [keep(ad)], before.errors)
      case None => Batch(before.ads, before.errors + [message(n + 1, ErrorDetail(replies[n], render))])
  }

  /** The positions of the accepted replies. */
  function AcceptedIndices(replies: seq<AiHelper.Reply>): (r: seq<nat>)
    ensures |r| <= |replies|
    ensures forall k :: 0 <= k < |r| ==> r[k] < |replies| && Accept(replies[r[k]]).Some?
  {
    if |replies| == 0 then []
    else
      var n := |replies| - 1;
      var before := AcceptedIndices(replies[..n]);
      assert forall i :: 0 <= i < n ==> replies[..n][i] == replies[i];
      if Accept(replies[n]).Some? then before + [n] else before
  }

  /** The positions of the rejected replies. */
  function RejectedIndices(replies: seq<AiHelper.Reply>): (r: seq<nat>)
    ensures |r| <= |replies|
    ensures forall k :: 0 <= k < |r| ==> r[k] < |replies| && Accept(replies[r[k]]).None?
  {
    if |replies| == 0 then []
    else
      var n := |replies| - 1;
      var before := RejectedIndices(replies[..n]);
      assert forall i :: 0 <= i < n ==> replies[..n][i] == replies[i];
      if Accept(replies[n]).None? then before + [n] else before
  }

  /** The accepted positions are exactly those of the accepted replies, and the rejected ones those of the others. */
  lemma {:induction false} IndicesComplete(replies: seq<AiHelper.Reply>, i: nat)
    requires i < |replies|
    ensures i in AcceptedIndices(replies) <==> Accept(replies[i]).Some?
    ensures i in RejectedIndices(replies) <==> Accept(replies[i]).None?
  {
    var n := |replies| - 1;
    IndicesStep(replies);
    if i < n {
      IndicesComplete(replies[..n], i);
      assert replies[..n][i] == replies[i];
    } else {
      assert n !in AcceptedIndices(replies[..n]) && n !in RejectedIndices(replies[..n]);
    }
  }

  /** Both position lists are strictly increasing, so each position occurs once and in loop order. */
  lemma {:induction false} IndicesIncreasing(replies: seq<AiHelper.Reply>)
    ensures var accepted := AcceptedIndices(replies); forall k, l :: 0 <= k < l < |accepted| ==> accepted[k] < accepted[l]
    ensures var rejected := RejectedIndices(replies); forall k, l :: 0 <= k < l < |rejected| ==> rejected[k] < rejected[l]
  {
    if |replies| > 0 {
      IndicesIncreasing(replies[..|replies| - 1]);
      IndicesStep(replies);
    }
  }

  /** Every reply is either accepted or rejected. */
  lemma {:induction false} IndicesPartition(replies: seq<AiHelper.Reply>)
    ensures |AcceptedIndices(replies)| + |RejectedIndices(replies)| == |replies|
  {
    if |replies| > 0 {
      IndicesPartition(replies[..|replies| - 1]);
    }
  }

  /** One step of the loop: the last reply is added to the ads or to the messages. */
  lemma CollectStep(replies: seq<AiHelper.Reply>, keep: Record -> Record, message: (nat, string) -> string, render: Json -> string)
    requires |replies| > 0
    ensures var n := |replies| - 1;
      var before := Collect(replies[..n], keep, message, render);
      Collect(replies, keep, message, render)
        == if Accept(replies[n]).Some? then Batch(before.ads + [keep(Accept(replies[n]).value)], before.errors)
           else Batch(before.ads, before.errors + [message(n + 1, ErrorDetail(replies[n], render))])
  {
  }

  /** One step of the messages: a rejected last reply adds its message. */
  lemma ErrorsStep(replies: seq<AiHelper.Reply>, keep: Record -> Record, message: (nat, string) -> string, render: Json -> string)
    requires |replies| > 0
    ensures var n := |replies| - 1;
      Collect(replies, keep, message, render).errors
        == Collect(replies[..n], keep, message, render).errors
           + (if Accept(replies[n]).None? then [message(n + 1, ErrorDetail(replies[n], render))] else [])
  {
    CollectStep(replies, keep, message, render);
  }

  /** One step of the index lists: the last position joins the accepted or the rejected ones. */
  lemma IndicesStep(replies: seq<AiHelper.Reply>)
    requires |replies| > 0
    ensures var n := |replies| - 1;
      && AcceptedIndices(replies) == AcceptedIndices(replies[..n]) + (if Accept(replies[n]).Some? then [n] else [])
      && RejectedIndices(replies) == RejectedIndices(replies[..n]) + (if Accept(replies[n]).None? then [n] else [])
  {
  }

  /** Ad k of the loop is the k-th accepted reply passed through `keep`. */
  lemma {:induction false} CollectAdAt(replies: seq<AiHelper.Reply>, keep: Record -> Record, message: (nat, string) -> string, render: Json -> string, k: nat)
    requires k < |AcceptedIndices(replies)|
    ensures k < |Collect(replies, keep, message, render).ads|
    ensures Collect(replies, keep, message, render).ads[k] == keep(Accept(replies[AcceptedIndices(replies)[k]]).value)
  {
    var n := |replies| - 1;
    var prefix := replies[..n];
    CollectStep(replies, keep, message, render);
    IndicesStep(replies);
    if k < |AcceptedIndices(prefix)| {
      CollectAdAt(prefix, keep, message, render, k);
      var i := AcceptedIndices(prefix)[k];
      assert prefix[i] == replies[i];
    }
  }

  /** Message k of the loop reports the k-th rejected reply, numbered with its version. */
  lemma {:induction false} CollectErrorAt(replies: seq<AiHelper.Reply>, keep: Record -> Record, message: (nat, string) -> string, render: Json -> string, k: nat)
    requires k < |RejectedIndices(replies)|
    ensures k < |Collect(replies, keep, message, render).errors|
    ensures var i := RejectedIndices(replies)[k];
      Collect(replies, keep, message, render).errors[k] == message(i + 1, ErrorDetail(replies[i], render))
  {
    var n := |replies| - 1;
    var prefix := replies[..n];
    ErrorsStep(replies, keep, message, render);
    IndicesStep(replies);
    var errors := Collect(replies, keep, message, render).errors;
    var before := Collect(prefix, keep, message, render).errors;
    var rejected := RejectedIndices(prefix);
    if k < |rejected| {
      CollectErrorAt(prefix, keep, message, render, k);
      var i := rejected[k];
      assert RejectedIndices(replies)[k] == i && errors[k] == before[k];
      assert prefix[i] == replies[i];
    } else {
      IndicesPartition(prefix);
      IndicesPartition(replies);
      assert |before| == |rejected|;
      assert RejectedIndices(replies)[k] == n && errors[k] == message(n + 1, ErrorDetail(replies[n], render));
    }
  }

  /** The loop keeps its order: the ads are the accepted replies passed through `keep`, in loop order. */
  lemma CollectAdsInOrder(replies: seq<AiHelper.Reply>, keep: Record -> Record, message: (nat, string) -> string, render: Json -> string)
    ensures var ads := Collect(replies, keep, message, render).ads;
      var accepted := AcceptedIndices(replies);
      |ads| == |accepted| &&
      forall k :: 0 <= k < |accepted| ==> ads[k] == keep(Accept(replies[accepted[k]]).value)
  {
    forall k | 0 <= k < |AcceptedIndices(replies)|
      ensures Collect(replies, keep, message, render).ads[k] == keep(Accept(replies[AcceptedIndices(replies)[k]]).value)
    {
      CollectAdAt(replies, keep, message, render, k);
    }
  }

  /** The loop keeps its order: the messages report the rejected replies, in loop order, each with its version. */
  lemma CollectErrorsInOrder(replies: seq<AiHelper.Reply>, keep: Record -> Record, message: (nat, string) -> string, render: Json -> string)
    ensures var errors := Collect(replies, keep, message, render).errors;
      var rejected := RejectedIndices(replies);
      |errors| == |rejected| &&
      forall k :: 0 <= k < |rejected| ==> errors[k] == message(rejected[k] + 1, ErrorDetail(replies[rejected[k]], render))
  {
    IndicesPartition(replies);
    forall k | 0 <= k < |RejectedIndices(replies)|
      ensures Collect(replies, keep, message, render).errors[k] == message(RejectedIndices(replies)[k] + 1, ErrorDetail(replies[RejectedIndices(replies)[k]], render))
    {
      CollectErrorAt(replies, keep, message, render, k);
    }
  }

  function EmailMessage(version: nat, detail: string): string {
    "Email Gen Error V" + NatToString(version) + ": " + detail
  }

  function SocialMessage(platform: Platform, objective: string): (nat, string) -> string {
    (version: nat, detail: string) => PlatformName(platform) + " " + objective + " V" + NatToString(version) + " Error: " + detail
  }

  function EnrichWith(platform: Platform, objective: string, links: PromptBuilder.Links): Record -> Record {
    r => Enrich(platform, objective, r, links)
  }

  /** The social loop for one platform and objective. */
  function SocialBatch(platform: Platform, objective: string, replies: seq<AiHelper.Reply>, links: PromptBuilder.Links, render: Json -> string): Batch {
    Collect(replies, EnrichWith(platform, objective, links), SocialMessage(platform, objective), render)
  }

  /**
    A social loop in order: ad k is the k-th accepted reply enriched for
    the platform and objective, and message k is
    "<platform> <objective> V<n> Error: <detail>" for the k-th rejected
    reply, n being its version.
   */
  lemma SocialBatchInOrder(platform: Platform, objective: string, replies: seq<AiHelper.Reply>, links: PromptBuilder.Links, render: Json -> string)
    ensures var b := SocialBatch(platform, objective, replies, links, render);
      var accepted := AcceptedIndices(replies);
      |b.ads| == |accepted| &&
      forall k :: 0 <= k < |accepted| ==> b.ads[k] == Enrich(platform, objective, Accept(replies[accepted[k]]).value, links)
    ensures var b := SocialBatch(platform, objective, replies, links, render);
      var rejected := RejectedIndices(replies);
      |b.errors| == |rejected| &&
      forall k :: 0 <= k < |rejected| ==>
        b.errors[k] == PlatformName(platform) + " " + objective + " V" + NatToString(rejected[k] + 1) + " Error: " + ErrorDetail(replies[rejected[k]], render)
  {
    CollectAdsInOrder(replies, EnrichWith(platform, objective, links), SocialMessage(platform, objective), render);
    CollectErrorsInOrder(replies, EnrichWith(platform, objective, links), SocialMessage(platform, objective), render);
  }

  /** Every ad of a social batch carries the batch's objective. */
  lemma {:induction false} SocialBatchObjective(platform: Platform, objective: string, replies: seq<AiHelper.Reply>, links: PromptBuilder.Links, render: Json -> string)
    ensures var ads := SocialBatch(platform, objective, replies, links, render).ads;
      forall k :: 0 <= k < |ads| ==> ExcelWriter.ObjectiveOf(ads[k]) == Str(objective)
  {
    var keep := EnrichWith(platform, objective, links);
    var ads := Collect(replies, keep, SocialMessage(platform, objective), render).ads;
    forall k | 0 <= k < |ads| ensures ExcelWriter.ObjectiveOf(ads[k]) == Str(objective) {
      var i :| 0 <= i < |replies| && Accept(replies[i]).Some? && ads[k] == keep(Accept(replies[i]).value);
      assert ads[k] == Enrich(platform, objective, Accept(replies[i]).value, links);
    }
  }

  /** One platform's ads: the three objective loops in order. `replies[o]` answers objective `AdObjectives[o]`. */
  function PlatformAds(platform: Platform, replies: seq<seq<AiHelper.Reply>>, links: PromptBuilder.Links, render: Json -> string): (ads: seq<Record>)
    requires |replies| == |AdObjectives|
  {
    SocialBatch(platform, AdObjectives[0], replies[0], links, render).ads
      + SocialBatch(platform, AdObjectives[1], replies[1], links, render).ads
      + SocialBatch(platform, AdObjectives[2], replies[2], links, render).ads
  }

  lemma {:induction false} CountObjectiveAppend(a: seq<Record>, b: seq<Record>, o: string)
    ensures ExcelWriter.CountObjective(a + b, o) == ExcelWriter.CountObjective(a, o) + ExcelWriter.CountObjective(b, o)
    decreases |a|
  {
    if |a| > 0 {
      assert (a + b)[1..] == a[1..] + b;
      CountObjectiveAppend(a[1..], b, o);
    } else {
      assert a + b == b;
    }
  }

  /** Counting a uniform list: all of it for its own objective, none of it for any other. */
  lemma {:induction false} CountObjectiveUniform(ads: seq<Record>, objective: string, o: string)
    requires forall k :: 0 <= k < |ads| ==> ExcelWriter.ObjectiveOf(ads[k]) == Str(objective)
    ensures ExcelWriter.CountObjective(ads, o) == if o == objective then |ads| else 0
    decreases |ads|
  {
    if |ads| > 0 {
      assert forall k :: 0 <= k < |ads| - 1 ==> ads[1..][k] == ads[k + 1];
      CountObjectiveUniform(ads[1..], objective, o);
    }
  }

  /** In one platform's ads, an objective's count is the number of replies its own loop accepted. */
  lemma PlatformCount(platform: Platform, replies: seq<seq<AiHelper.Reply>>, links: PromptBuilder.Links, render: Json -> string, o: nat)
    requires |replies| == |AdObjectives| && o < |AdObjectives|
    ensures ExcelWriter.CountObjective(PlatformAds(platform, replies, links, render), AdObjectives[o])
      == |AcceptedIndices(replies[o])|
  {
    var b0 := SocialBatch(platform, AdObjectives[0], replies[0], links, render).ads;
    var b1 := SocialBatch(platform, AdObjectives[1], replies[1], links, render).ads;
    var b2 := SocialBatch(platform, AdObjectives[2], replies[2], links, render).ads;
    BatchCount(platform, replies, links, render, 0, o);
    BatchCount(platform, replies, links, render, 1, o);
    BatchCount(platform, replies, links, render, 2, o);
    CountObjectiveAppend(b0 + b1, b2, AdObjectives[o]);
    CountObjectiveAppend(b0, b1, AdObjectives[o]);
  }

  /** The batch of objective `i` counts all its ads for objective `o` when `i == o`, and none otherwise. */
  lemma BatchCount(platform: Platform, replies: seq<seq<AiHelper.Reply>>, links: PromptBuilder.Links, render: Json -> string, i: nat, o: nat)
    requires |replies| == |AdObjectives| && i < |AdObjectives| && o < |AdObjectives|
    ensures var b := SocialBatch(platform, AdObjectives[i], replies[i], links, render).ads;
      ExcelWriter.CountObjective(b, AdObjectives[o]) == if i == o then |AcceptedIndices(replies[o])| else 0
  {
    SocialBatchObjective(platform, AdObjectives[i], replies[i], links, render);
    CountObjectiveUniform(SocialBatch(platform, AdObjectives[i], replies[i], links, render).ads, AdObjectives[i], AdObjectives[o]);
  }

  /** The ads of a platform are all writable: each carries one of the three objectives. */
  lemma PlatformAdsWritable(platform: Platform, replies: seq<seq<AiHelper.Reply>>, links: PromptBuilder.Links, render: Json -> string)
    requires |replies| == |AdObjectives|
    ensures var ads := PlatformAds(platform, replies, links, render);
      forall k :: 0 <= k < |ads| ==> ExcelWriter.HasKnownObjective(ads[k])
  {
    var b0 := SocialBatch(platform, AdObjectives[0], replies[0], links, render).ads;
    var b1 := SocialBatch(platform, AdObjectives[1], replies[1], links, render).ads;
    var b2 := SocialBatch(platform, AdObjectives[2], replies[2], links, render).ads;
    SocialBatchObjective(platform, AdObjectives[0], replies[0], links, render);
    SocialBatchObjective(platform, AdObjectives[1], replies[1], links, render);
    SocialBatchObjective(platform, AdObjectives[2], replies[2], links, render);
    var ads := b0 + b1 + b2;
    forall k | 0 <= k < |ads| ensures ExcelWriter.HasKnownObjective(ads[k]) {
      if k < |b0| { assert ads[k] == b0[k]; }
      else if k < |b0| + |b1| { assert ads[k] == b1[k - |b0|]; }
      else { assert ads[k] == b2[k - |b0| - |b1|]; }
    }
  }

  function KeepAsIs(r: Record): Record {
    r
  }

  /** The email loop: accepted replies are kept as they are. */
  function EmailBatch(replies: seq<AiHelper.Reply>, render: Json -> string): Batch {
    Collect(replies, KeepAsIs, EmailMessage, render)
  }

  /**
    The email loop in order: ad k is the k-th accepted reply unchanged,
    and message k is "Email Gen Error V<n>: <detail>" for the k-th
    rejected reply, n being its version.
   */
  lemma EmailBatchInOrder(replies: seq<AiHelper.Reply>, render: Json -> string)
    ensures var b := EmailBatch(replies, render);
      var accepted := AcceptedIndices(replies);
      |b.ads| == |accepted| &&
      forall k :: 0 <= k < |accepted| ==> b.ads[k] == Accept(replies[accepted[k]]).value
    ensures var b := EmailBatch(replies, render);
      var rejected := RejectedIndices(replies);
      |b.errors| == |rejected| &&
      forall k :: 0 <= k < |rejected| ==>
        b.errors[k] == "Email Gen Error V" + NatToString(rejected[k] + 1) + ": " + ErrorDetail(replies[rejected[k]], render)
  {
    CollectAdsInOrder(replies, KeepAsIs, EmailMessage, render);
    CollectErrorsInOrder(replies, KeepAsIs, EmailMessage, render);
  }

  /** The Google Search or Display entry: the accepted dict, or the initial `{}` when the reply is rejected. */
  function GoogleRecord(reply: AiHelper.Reply): (d: Record)
    ensures Accept(reply).Some? ==> d == Accept(reply).value
    ensures Accept(reply).None? ==> d == map[]
    ensures d != map[] ==> AiHelper.Value(Obj(d)) == reply
  {
    match Accept(reply)
    case Some(fields) => fields
    case None => map[]
  }

  /** The Google sheet is created exactly when its reply was accepted and is a non-empty dict. */
  lemma GoogleSheetIffAccepted(reply: AiHelper.Reply)
    ensures ExcelWriter.DictPresent(Some(GoogleRecord(reply)))
      <==> reply.Value? && reply.value.Obj? && "error" !in reply.value.fields && reply.value.fields != map[]
  {
  }

  /** `all_ad_data` once every generation step has run. */
  function RunData(email: seq<Record>, linkedin: seq<Record>, facebook: seq<Record>, search: Record, display: Record, reasoning: Record): ExcelWriter.AdData {
    ExcelWriter.AdData(Some(email), Some(linkedin), Some(facebook), Some(search), Some(display), Some(reasoning))
  }

  /** With ads the script enriched, only a malformed Google reply can make the report raise. */
  lemma GeneratedAdsWritable(linkedinReplies: seq<seq<AiHelper.Reply>>, facebookReplies: seq<seq<AiHelper.Reply>>,
                             email: seq<Record>, search: Record, display: Record, reasoning: Record,
                             links: PromptBuilder.Links, render: Json -> string)
    requires |linkedinReplies| == |AdObjectives| && |facebookReplies| == |AdObjectives|
    ensures var data := RunData(email,
        PlatformAds(LinkedInPlatform, linkedinReplies, links, render),
        PlatformAds(FaceBookPlatform, facebookReplies, links, render),
        search, display, reasoning);
      ExcelWriter.Writable(data) <==>
        && (search != map[] ==> ExcelWriter.GoogleLists(search).Success?)
        && (display != map[] ==> ExcelWriter.GoogleLists(display).Success?)
  {
    PlatformAdsWritable(LinkedInPlatform, linkedinReplies, links, render);
    PlatformAdsWritable(FaceBookPlatform, facebookReplies, links, render);
  }

  // ---------------------------------------------------------------------
  // Counts for the reasoning prompt
  // ---------------------------------------------------------------------

  /** The count keys of a platform, one per objective in `AdObjectives` order. */
  function PlatformCountKeys(platform: Platform): seq<string> {
    match platform
    case LinkedInPlatform => ["linkedin_awareness", "linkedin_demand_gen", "linkedin_demand_capture"]
    case FaceBookPlatform => ["facebook_awareness", "facebook_demand_gen", "facebook_demand_capture"]
  }

  /** `generated_counts`: the email count and, per platform and objective, the number of ads with that objective. */
  function GeneratedCounts(email: seq<Record>, linkedin: seq<Record>, facebook: seq<Record>): (counts: map<string, int>)
    ensures forall k :: 0 <= k < |PromptBuilder.CountLines| ==> PromptBuilder.CountLines[k].1 in counts
    ensures forall key :: key in counts ==> 0 <= counts[key]
    ensures "email" in counts && counts["email"] == |email|
    ensures forall o :: 0 <= o < |AdObjectives| ==>
      && PlatformCountKeys(LinkedInPlatform)[o] in counts
      && counts[PlatformCountKeys(LinkedInPlatform)[o]] == ExcelWriter.CountObjective(linkedin, AdObjectives[o])
    ensures forall o :: 0 <= o < |AdObjectives| ==>
      && PlatformCountKeys(FaceBookPlatform)[o] in counts
      && counts[PlatformCountKeys(FaceBookPlatform)[o]] == ExcelWriter.CountObjective(facebook, AdObjectives[o])
  {
    map[
      "email" := |email|,
      "linkedin_awareness" := ExcelWriter.CountObjective(linkedin, PromptBuilder.BrandAwareness),
      "linkedin_demand_gen" := ExcelWriter.CountObjective(linkedin, PromptBuilder.DemandGen),
      "linkedin_demand_capture" := ExcelWriter.CountObjective(linkedin, PromptBuilder.DemandCapture),
      "facebook_awareness" := ExcelWriter.CountObjective(facebook, PromptBuilder.BrandAwareness),
      "facebook_demand_gen" := ExcelWriter.CountObjective(facebook, PromptBuilder.DemandGen),
      "facebook_demand_capture" := ExcelWriter.CountObjective(facebook, PromptBuilder.DemandCapture)
    ]
  }

  /** The reasoning prompt never falls back to 0: every count line finds its key. */
  lemma ReasoningCountsComplete(email: seq<Record>, linkedin: seq<Record>, facebook: seq<Record>, k: nat)
    requires k < |PromptBuilder.CountLines|
    ensures var counts := GeneratedCounts(email, linkedin, facebook);
      PromptBuilder.CountOr0(counts, PromptBuilder.CountLines[k].1) == counts[PromptBuilder.CountLines[k].1]
  {
  }

  /** The counts the script reports for the ads of one platform. */
  function PlatformCounts(platform: Platform, email: seq<Record>, ads: seq<Record>, other: seq<Record>): map<string, int> {
    match platform
    case LinkedInPlatform => GeneratedCounts(email, ads, other)
    case FaceBookPlatform => GeneratedCounts(email, other, ads)
  }

  /** Each social count is the number of replies that objective's loop accepted, and so at most the versions requested. */
  lemma GeneratedCountsMatchAccepted(platform: Platform, replies: seq<seq<AiHelper.Reply>>, email: seq<Record>, other: seq<Record>,
                                     links: PromptBuilder.Links, render: Json -> string, o: nat)
    requires |replies| == |AdObjectives| && o < |AdObjectives|
    ensures var counts := PlatformCounts(platform, email, PlatformAds(platform, replies, links, render), other);
      && PlatformCountKeys(platform)[o] in counts
      && counts[PlatformCountKeys(platform)[o]] == |AcceptedIndices(replies[o])| <= |replies[o]|
  {
    PlatformCount(platform, replies, links, render, o);
  }

  lemma {:induction false} CountObjectivePrefix(ads: seq<Record>, n: nat, o: string)
    requires n <= |ads|
    ensures ExcelWriter.CountObjective(ads[..n], o) <= ExcelWriter.CountObjective(ads, o)
  {
    assert ads == ads[..n] + ads[n..];
    CountObjectiveAppend(ads[..n], ads[n..], o);
  }

  /** No version number in a social sheet exceeds the count the reasoning prompt reports for its objective. */
  lemma VersionsWithinCounts(ads: seq<Record>, textKeys: seq<string>, k: nat)
    requires ExcelWriter.SocialRows(ads, textKeys).Success? && k < |ads|
    ensures var row := ExcelWriter.SocialRows(ads, textKeys).value[k];
      && |row| > 0 && row[0].Num?
      && 1 <= row[0].n <= ExcelWriter.CountObjective(ads, ExcelWriter.ObjectiveOf(ads[k]).s)
  {
    var o := ExcelWriter.ObjectiveOf(ads[k]).s;
    ExcelWriter.SocialRowVersion(ads, textKeys, k);
    CountObjectivePrefix(ads, k + 1, o);
    CountObjectiveLast(ads[..k + 1], o);
  }

  /** A list whose last ad has objective `o` counts at least one for `o`. */
  lemma CountObjectiveLast(ads: seq<Record>, o: string)
    requires |ads| > 0 && ExcelWriter.ObjectiveOf(ads[|ads| - 1]) == Str(o)
    ensures ExcelWriter.CountObjective(ads, o) >= 1
  {
    var n := |ads| - 1;
    assert ads == ads[..n] + [ads[n]];
    CountObjectiveAppend(ads[..n], [ads[n]], o);
  }

  // ---------------------------------------------------------------------
  // The reasoning record
  // ---------------------------------------------------------------------

  const NotProvided := "Not provided/extracted."
  const ReasoningFallback := "Could not generate AI reasoning."

  /** `summary or "Not provided/extracted."`. */
  function OrNotProvided(summary: Option<string>): (v: Json)
    ensures v.Str? && v.s != ""
    ensures Present(summary) ==> v == Str(summary.value)
    ensures !Present(summary) ==> v == Str(NotProvided)
  {
    if Present(summary) then Str(summary.value) else Str(NotProvided)
  }

  /** The reasoning text as written: a str reply with "Error" in it is replaced by the fallback. */
  function ReasoningTextAsWritten(reply: AiHelper.Reply): (v: Json)
    ensures reply.Text? && ErrorTagged(reply.text) ==> v == Str(ReasoningFallback)
    ensures reply.Text? && !ErrorTagged(reply.text) ==> v == Str(reply.text)
  {
    match reply
    case Text(t) => if ErrorTagged(t) then Str(ReasoningFallback) else Str(t)
    case Value(v) => v
  }

  /** After three transport failures the text-mode reply "OpenAI API error: …" has no "Error" in it, so it is kept as the reasoning. */
  lemma ReasoningApiErrorKeptAsWritten(parse: AiHelper.Parser)
    ensures var attempts := [AiHelper.TransportFailure("timeout"), AiHelper.TransportFailure("timeout"), AiHelper.TransportFailure("timeout")];
      ReasoningTextAsWritten(AiHelper.Generate(true, attempts, false, parse).reply) == Str("OpenAI API error: timeout")
  {
    var attempts := [AiHelper.TransportFailure("timeout"), AiHelper.TransportFailure("timeout"), AiHelper.TransportFailure("timeout")];
    AiHelper.GenerateExhausted(attempts, false, parse);
    assert AiHelper.ApiErrorPrefix + "timeout" == "OpenAI API error: timeout";
    assert 'E' !in "OpenAI API error: timeout";
    MissingCharExcludes("OpenAI API error: timeout", "Error", 0);
  }

  /** A text-mode failure of the helper: an "Error" message, or its API-error or retry-limit text. */
  predicate GenerationFailed(text: string) {
    ErrorTagged(text) || StartsWith(text, AiHelper.ApiErrorPrefix) || text == AiHelper.MaxRetriesError
  }

  /** The reasoning text as the error check evidently intends: every failure text of the helper is replaced. */
  function ReasoningText(reply: AiHelper.Reply): (v: Json)
    ensures reply.Text? && GenerationFailed(reply.text) ==> v == Str(ReasoningFallback)
    ensures reply.Text? && !GenerationFailed(reply.text) ==> v == Str(reply.text)
  {
    match reply
    case Text(t) => if GenerationFailed(t) then Str(ReasoningFallback) else Str(t)
    case Value(v) => v
  }

  /** With the correction, a reasoning request that fails (no client, or every attempt a transport failure) always yields the fallback. */
  lemma ReasoningFailuresFallBack(clientReady: bool, attempts: seq<AiHelper.Attempt>, parse: AiHelper.Parser)
    requires |attempts| == AiHelper.MaxRetries
    requires !clientReady || forall k :: 0 <= k < AiHelper.MaxRetries ==> attempts[k].TransportFailure?
    ensures ReasoningText(AiHelper.Generate(clientReady, attempts, false, parse).reply) == Str(ReasoningFallback)
  {
    if !clientReady {
      NoClientErrorFails();
    } else {
      AiHelper.GenerateExhausted(attempts, false, parse);
      ApiErrorFails(attempts[AiHelper.MaxRetries - 1].message);
    }
  }

  /** The missing-client text counts as a failure. */
  lemma NoClientErrorFails()
    ensures GenerationFailed(AiHelper.NoClientError)
  {
    ErrorPrefixTagged(": OpenAI client not initialized.");
  }

  /** Every API-error text counts as a failure. */
  lemma ApiErrorFails(message: string)
    ensures GenerationFailed(AiHelper.ApiErrorPrefix + message)
  {
    var t := AiHelper.ApiErrorPrefix + message;
    assert t[..|AiHelper.ApiErrorPrefix|] == AiHelper.ApiErrorPrefix;
  }

  /** The `reasoning` record around a given `ai_reasoning` value: each summary or the not-provided text. */
  function RecordWith(url: Option<string>, additional: Option<string>, downloadable: Option<string>, aiReasoning: Json): (record: Record)
    ensures forall k :: 0 <= k < |ExcelWriter.ReasoningSections| ==> ExcelWriter.ReasoningSections[k].0 in record
    ensures "url_summary" in record && record["url_summary"] == OrNotProvided(url)
    ensures "additional_summary" in record && record["additional_summary"] == OrNotProvided(additional)
    ensures "downloadable_summary" in record && record["downloadable_summary"] == OrNotProvided(downloadable)
    ensures "ai_reasoning" in record && record["ai_reasoning"] == aiReasoning
  {
    map[
      "url_summary" := OrNotProvided(url),
      "additional_summary" := OrNotProvided(additional),
      "downloadable_summary" := OrNotProvided(downloadable),
      "ai_reasoning" := aiReasoning
    ]
  }

  /** The `reasoning` record as written: `ai_reasoning` passes the "Error" substring test only. */
  function ReasoningRecordAsWritten(url: Option<string>, additional: Option<string>, downloadable: Option<string>, reasoning: AiHelper.Reply): (record: Record)
    ensures forall k :: 0 <= k < |ExcelWriter.ReasoningSections| ==> ExcelWriter.ReasoningSections[k].0 in record
    ensures "url_summary" in record && record["url_summary"] == OrNotProvided(url)
    ensures "additional_summary" in record && record["additional_summary"] == OrNotProvided(additional)
    ensures "downloadable_summary" in record && record["downloadable_summary"] == OrNotProvided(downloadable)
    ensures "ai_reasoning" in record && record["ai_reasoning"] == ReasoningTextAsWritten(reasoning)
  {
    RecordWith(url, additional, downloadable, ReasoningTextAsWritten(reasoning))
  }

  /** As written, three transport failures leave the API error text in the record's `ai_reasoning`. */
  lemma ReasoningRecordKeepsApiErrorAsWritten(url: Option<string>, additional: Option<string>, downloadable: Option<string>, parse: AiHelper.Parser)
    ensures var attempts := [AiHelper.TransportFailure("timeout"), AiHelper.TransportFailure("timeout"), AiHelper.TransportFailure("timeout")];
      ReasoningRecordAsWritten(url, additional, downloadable, AiHelper.Generate(true, attempts, false, parse).reply)["ai_reasoning"]
        == Str("OpenAI API error: timeout")
  {
    ReasoningApiErrorKeptAsWritten(parse);
  }

  /** The `reasoning` record with the corrected failure test: the rest of the pipeline reads this one. */
  function ReasoningRecord(url: Option<string>, additional: Option<string>, downloadable: Option<string>, reasoning: AiHelper.Reply): (record: Record)
    ensures forall k :: 0 <= k < |ExcelWriter.ReasoningSections| ==> ExcelWriter.ReasoningSections[k].0 in record
    ensures "url_summary" in record && record["url_summary"] == OrNotProvided(url)
    ensures "additional_summary" in record && record["additional_summary"] == OrNotProvided(additional)
    ensures "downloadable_summary" in record && record["downloadable_summary"] == OrNotProvided(downloadable)
    ensures "ai_reasoning" in record && record["ai_reasoning"] == ReasoningText(reasoning)
  {
    RecordWith(url, additional, downloadable, ReasoningText(reasoning))
  }

  /** The two records differ at most in `ai_reasoning`, and agree there unless the helper failed without an "Error" in its text. */
  lemma ReasoningRecordsAgree(url: Option<string>, additional: Option<string>, downloadable: Option<string>, reasoning: AiHelper.Reply)
    ensures var fixed := ReasoningRecord(url, additional, downloadable, reasoning);
      var written := ReasoningRecordAsWritten(url, additional, downloadable, reasoning);
      fixed.Keys == written.Keys
      && (forall key :: key in fixed && key != "ai_reasoning" ==> fixed[key] == written[key])
      && (fixed["ai_reasoning"] != written["ai_reasoning"] <==> reasoning.Text? && GenerationFailed(reasoning.text) && !ErrorTagged(reasoning.text) && reasoning.text != ReasoningFallback)
  {
  }

  /** Whenever the reasoning text is non-empty, the Reasoning sheet has all four section rows. */
  lemma ReasoningSheetComplete(url: Option<string>, additional: Option<string>, downloadable: Option<string>, reasoning: AiHelper.Reply)
    requires reasoning.Text? && reasoning.text != ""
    ensures |ExcelWriter.ReasoningRows(ReasoningRecord(url, additional, downloadable, reasoning))| == 4
  {
    var record := ReasoningRecord(url, additional, downloadable, reasoning);
    assert forall k :: 0 <= k < |ExcelWriter.ReasoningSections| ==> Truthy(Get(record, ExcelWriter.ReasoningSections[k].0, Null));
  }

  /** An error-tagged summary is not replaced in the record: it reaches the Reasoning sheet as it is. */
  lemma ErrorSummaryReachesRecord(message: string, reasoning: AiHelper.Reply)
    ensures ReasoningRecord(Some("Error" + message), None, None, reasoning)["url_summary"] == Str("Error" + message)
  {
  }

  // ---------------------------------------------------------------------
  // The report gate
  // ---------------------------------------------------------------------

  /** `has_data`: some ad list or Google dict is non-empty; the reasoning record does not count. */
  predicate HasData(data: ExcelWriter.AdData) {
    || ExcelWriter.ListPresent(data.email)
    || ExcelWriter.ListPresent(data.linkedin)
    || ExcelWriter.ListPresent(data.facebook)
    || ExcelWriter.DictPresent(data.googleSearch)
    || ExcelWriter.DictPresent(data.googleDisplay)
  }

  /** A report is created exactly when it would hold a sheet other than Reasoning. */
  lemma HasDataIffContentSheet(data: ExcelWriter.AdData)
    requires ExcelWriter.Writable(data)
    ensures var sheets := ExcelWriter.Sheets(data).value;
      HasData(data) <==> exists k :: 0 <= k < |sheets| && sheets[k].kind != ExcelWriter.ReasoningSheetKind
  {
    var sheets := ExcelWriter.Sheets(data).value;
    ExcelWriter.SheetsShape(data);
    var kinds := ExcelWriter.Kinds(sheets);
    if HasData(data) {
      var kind :=
        if ExcelWriter.ListPresent(data.email) then ExcelWriter.EmailSheetKind
        else if ExcelWriter.ListPresent(data.linkedin) then ExcelWriter.LinkedInSheetKind
        else if ExcelWriter.ListPresent(data.facebook) then ExcelWriter.FaceBookSheetKind
        else if ExcelWriter.DictPresent(data.googleSearch) then ExcelWriter.SearchSheetKind
        else ExcelWriter.DisplaySheetKind;
      assert ExcelWriter.SheetWanted(data, kind);
      assert kind in kinds;
      var k :| 0 <= k < |kinds| && kinds[k] == kind;
      assert sheets[k].kind != ExcelWriter.ReasoningSheetKind;
    }
    if exists k :: 0 <= k < |sheets| && sheets[k].kind != ExcelWriter.ReasoningSheetKind {
      var k :| 0 <= k < |sheets| && sheets[k].kind != ExcelWriter.ReasoningSheetKind;
      assert kinds[k] in kinds;
      assert ExcelWriter.SheetWanted(data, kinds[k]);
    }
  }

  // ---------------------------------------------------------------------
  // Error display
  // ---------------------------------------------------------------------

  predicate NoDuplicates(s: seq<string>) {
    forall i, j :: 0 <= i < j < |s| ==> s[i] != s[j]
  }

  /** The index of the first occurrence of `x` in `s`. */
  function FirstIndex(s: seq<string>, x: string): (i: nat)
    requires x in s
    ensures i < |s| && s[i] == x
    ensures forall j :: 0 <= j < i ==> s[j] != x
  {
    if s[0] == x then 0 else 1 + FirstIndex(s[1..], x)
  }

  /** `list(dict.fromkeys(errors))`: each message once, in the order of its first occurrence. */
  method Dedup(errors: seq<string>) returns (unique: seq<string>)
    ensures forall x :: x in unique <==> x in errors
    ensures NoDuplicates(unique)
    ensures forall i, j :: 0 <= i < j < |unique| ==> FirstIndex(errors, unique[i]) < FirstIndex(errors, unique[j])
  {
    unique := [];
    var n := 0;
    while n < |errors|
      invariant 0 <= n <= |errors|
      invariant forall x :: x in unique <==> x in errors[..n]
      invariant NoDuplicates(unique)
      invariant forall k :: 0 <= k < |unique| ==> unique[k] in errors && FirstIndex(errors, unique[k]) < n
      invariant forall i, j :: 0 <= i < j < |unique| ==> FirstIndex(errors, unique[i]) < FirstIndex(errors, unique[j])
    {
      var x := errors[n];
      assert errors[..n + 1] == errors[..n] + [x];
      if x !in unique {
        assert x !in errors[..n];
        assert forall j :: 0 <= j < n ==> errors[j] == errors[..n][j];
        assert FirstIndex(errors, x) == n;
        unique := unique + [x];
      }
      n := n + 1;
    }
    assert errors[..|errors|] == errors;
  }
}

=== FILE: prompt_builder.dfy ===
/**
  Prompt assembly (utils/prompt_builder.py): pure functions from the
  context summaries, the campaign configuration and the link set to the
  prompt text sent to the language model. Prompts are modelled as the
  concatenation of their pieces; layout whitespace is not reproduced
  exactly, so every property below is a containment or selection fact.
 */
module PromptBuilder {
  import opened Wrappers
  import opened Strings

  /** The campaign link dict, keyed by 'learn_more', 'downloadable' and 'objective_link'. */
  type Links = map<string, string>

  /** Python's `links.get(key, default)`. */
  function LinkOr(links: Links, key: string, default: string): string {
    if key in links then links[key] else default
  }

  /** Text made of `pieces` laid end to end. */
  function Concat(pieces: seq<string>): string {
    Join(pieces, "")
  }

  /** Every piece of a prompt appears in the prompt. */
  lemma ConcatContains(pieces: seq<string>, k: nat)
    requires k < |pieces|
    ensures Contains(Concat(pieces), pieces[k])
  {
    JoinContainsParts(pieces, "", k);
  }

  // ---------------------------------------------------------------------
  // Combined context
  // ---------------------------------------------------------------------

  const NoContext := "No context provided or extracted."
  const ContextSeparator := "\n\n---\n\n"
  const UrlLabel := "Website Context Summary:\n"
  const AdditionalLabel := "Additional Company Context Summary:\n"
  const DownloadableLabel := "Downloadable Material (e.g., White Paper) Summary:\n"

  /** A summary is used as context when it is present, non-empty and not error-tagged. */
  predicate Usable(summary: Option<string>) {
    summary.Some? && summary.value != "" && !ErrorTagged(summary.value)
  }

  /** The three summaries with their labels, in the fixed order url, additional, downloadable. */
  function Sources(url: Option<string>, additional: Option<string>, downloadable: Option<string>): seq<(string, Option<string>)> {
    [(UrlLabel, url), (AdditionalLabel, additional), (DownloadableLabel, downloadable)]
  }

  /** Reference selection: the labelled text of every usable source, in source order. */
  function UsableSections(sources: seq<(string, Option<string>)>): seq<string> {
    if |sources| == 0 then []
    else
      var heading := sources[0].0;
      var summary := sources[0].1;
      (if Usable(summary) then [heading + summary.value] else []) + UsableSections(sources[1..])
  }

  /** The reference selection over the three sources, spelled out. */
  lemma UsableSectionsOfSources(url: Option<string>, additional: Option<string>, downloadable: Option<string>)
    ensures UsableSections(Sources(url, additional, downloadable))
      == (if Usable(url) then [UrlLabel + url.value] else [])
       + (if Usable(additional) then [AdditionalLabel + additional.value] else [])
       + (if Usable(downloadable) then [DownloadableLabel + downloadable.value] else [])
  {
    var src := Sources(url, additional, downloadable);
    assert src[1..][1..][1..] == [];
    assert UsableSections(src[1..][1..]) == (if Usable(downloadable) then [DownloadableLabel + downloadable.value] else []);
  }

  /** A joined text starts with the first character of its first part. */
  lemma JoinFirstChar(parts: seq<string>, sep: string)
    requires |parts| > 0 && |parts[0]| > 0
    ensures |Join(parts, sep)| > 0 && Join(parts, sep)[0] == parts[0][0]
  {
  }

  /** get_combined_context. */
  function CombinedContext(url: Option<string>, additional: Option<string>, downloadable: Option<string>): (r: string)
    ensures r == NoContext <==> !Usable(url) && !Usable(additional) && !Usable(downloadable)
    ensures r != NoContext ==> r == Join(UsableSections(Sources(url, additional, downloadable)), ContextSeparator)
  {
    var parts :=
      (if Usable(url) then [UrlLabel + url.value] else [])
      + (if Usable(additional) then [AdditionalLabel + additional.value] else [])
      + (if Usable(downloadable) then [DownloadableLabel + downloadable.value] else []);
    UsableSectionsOfSources(url, additional, downloadable);
    if |parts| == 0 then NoContext
    else
      JoinFirstChar(parts, ContextSeparator);
      Join(parts, ContextSeparator)
  }

  /** Every usable summary appears in the combined context under its own label. */
  lemma CombinedContextContainsUsable(url: Option<string>, additional: Option<string>, downloadable: Option<string>)
    ensures Usable(url) ==> Contains(CombinedContext(url, additional, downloadable), UrlLabel + url.value)
    ensures Usable(additional) ==> Contains(CombinedContext(url, additional, downloadable), AdditionalLabel + additional.value)
    ensures Usable(downloadable) ==> Contains(CombinedContext(url, additional, downloadable), DownloadableLabel + downloadable.value)
  {
    var parts := UsableSections(Sources(url, additional, downloadable));
    var u := if Usable(url) then [UrlLabel + url.value] else [];
    var a := if Usable(additional) then [AdditionalLabel + additional.value] else [];
    var d := if Usable(downloadable) then [DownloadableLabel + downloadable.value] else [];
    UsableSectionsOfSources(url, additional, downloadable);
    assert parts == u + a + d;
    if Usable(url) {
      JoinContainsParts(parts, ContextSeparator, 0);
    }
    if Usable(additional) {
      JoinContainsParts(parts, ContextSeparator, |u|);
    }
    if Usable(downloadable) {
      JoinContainsParts(parts, ContextSeparator, |u| + |a|);
    }
  }

  /** An absent, empty or error-tagged summary contributes nothing: it can be replaced by `None`. */
  lemma CombinedContextIgnoresUnusable(url: Option<string>, additional: Option<string>, downloadable: Option<string>)
    ensures !Usable(url) ==> CombinedContext(url, additional, downloadable) == CombinedContext(None, additional, downloadable)
    ensures !Usable(additional) ==> CombinedContext(url, additional, downloadable) == CombinedContext(url, None, downloadable)
    ensures !Usable(downloadable) ==> CombinedContext(url, additional, downloadable) == CombinedContext(url, additional, None)
  {
  }

  // ---------------------------------------------------------------------
  // Email
  // ---------------------------------------------------------------------

  const SalesMeeting := "Sales Meeting"

  /** The call-to-action phrase for the campaign's lead objective. */
  function EmailAction(leadObjective: string): (action: string)
    ensures action == "book a sales meeting" <==> leadObjective == SalesMeeting
    ensures action == "book a demo" <==> leadObjective != SalesMeeting
  {
    if leadObjective == SalesMeeting then "book a sales meeting" else "book a demo"
  }

  /** The link the email must embed for its primary objective. */
  function PrimaryLink(leadObjective: string, links: Links): string {
    "[" + ActionTitle(leadObjective) + "](" + LinkOr(links, "objective_link", "#error-link-missing") + ")"
  }

  /** `if links.get('downloadable'):` */
  predicate OffersDownload(links: Links) {
    "downloadable" in links && links["downloadable"] != ""
  }

  /** The composed call-to-action link embedded in the email body. */
  function EmailLink(leadObjective: string, links: Links): (link: string)
    ensures StartsWith(link, PrimaryLink(leadObjective, links))
    ensures link == PrimaryLink(leadObjective, links) <==> !OffersDownload(links)
    ensures OffersDownload(links) ==> EndsWith(link, " or [Download Our Material](" + links["downloadable"] + ")")
  {
    var primary := PrimaryLink(leadObjective, links);
    if OffersDownload(links) then
      var suffix := " or [Download Our Material](" + links["downloadable"] + ")";
      assert (primary + suffix)[..|primary|] == primary;
      primary + suffix
    else primary
  }

  /** `objective_action.title()`: the call-to-action phrase in title case. */
  function ActionTitle(leadObjective: string): string {
    if leadObjective == SalesMeeting then "Book A Sales Meeting" else "Book A Demo"
  }

  /** `"book a demo".title()`. */
  lemma DemoTitle()
    ensures Title("book a demo") == "Book A Demo"
  {
    var d := Title("book a demo");
    forall k | 0 <= k < 11 ensures d[k] == "Book A Demo"[k] {
      if k == 0 { assert d[0] == UpperChar('b'); }
    }
  }

  /** The first two words of `"book a sales meeting".title()`. */
  lemma SalesMeetingTitleFront()
    ensures forall k | 0 <= k < 10 :: Title("book a sales meeting")[k] == "Book A Sales Meeting"[k]
  {
    var m := Title("book a sales meeting");
    forall k | 0 <= k < 10 ensures m[k] == "Book A Sales Meeting"[k] {
      if k == 0 { assert m[0] == UpperChar('b'); }
    }
  }

  /** The last two words of `"book a sales meeting".title()`. */
  lemma SalesMeetingTitleBack()
    ensures forall k | 10 <= k < 20 :: Title("book a sales meeting")[k] == "Book A Sales Meeting"[k]
  {
    var m := Title("book a sales meeting");
    forall k | 10 <= k < 20 ensures m[k] == "Book A Sales Meeting"[k] {
    }
  }

  /** `"book a sales meeting".title()`. */
  lemma SalesMeetingTitle()
    ensures Title("book a sales meeting") == "Book A Sales Meeting"
  {
    SalesMeetingTitleFront();
    SalesMeetingTitleBack();
  }

  /** The title-case phrase is `str.title()` of the call-to-action phrase, for every lead objective. */
  lemma ActionTitleIsTitle(leadObjective: string)
    ensures ActionTitle(leadObjective) == Title(EmailAction(leadObjective))
  {
    if leadObjective == SalesMeeting { SalesMeetingTitle(); } else { DemoTitle(); }
  }

  const ContextHeader := "\nCompany & Material Context:\n---\n"
  const EmailTask := "\n---\n\nTask: Generate content for one version of a progressive weekly email.\n"
  const EmailRequirements :=
    "\nEmail Specific Objective: Demand Capture.\n\nEmail Content Requirements:\n"
    + "1.  **Headline**: Engaging headline for the email preview (not the subject line).\n"
    + "2.  **Subject Line**: Compelling subject line to maximize open rates.\n"
    + "3.  **Body**: 2-3 paragraphs. The tone should be professional yet persuasive.\n"
    + "    It should build interest progressively.\n    "
  const EmailCtaRequirement :=
    "\n    The body should naturally lead to this call to action.\n"
    + "4.  **CTA**: A condensed version of the call to action in the body (e.g., \"Book Your Demo Now\", \"Schedule a Meeting\").\n\n"
  const EmailKeysLine := "Output the response as a single JSON object with keys: \"headline\", \"subject_line\", \"body\", \"cta\"."

  const EmailExampleOpening :=
    "\nExample JSON:\n{\n  \"headline\": \"Unlock Growth This Quarter\",\n"
    + "  \"subject_line\": \"Your Path to [Benefit] Starts Here\",\n"
    + "  \"body\": \"Paragraph 1 introducing a challenge or opportunity related to the company's offerings based on the context provided...\\n\\n"
    + "Paragraph 2 detailing how the company's solution addresses this, referencing specifics from the context...\\n\\n"
    + "Ready to see how we can help you "

  /** The worked example that closes the email prompt. */
  function EmailExample(leadObjective: string, link: string): string {
    EmailExampleOpening + EmailAction(leadObjective) + "? " + link + ".\",\n"
    + "  \"cta\": \"Explore " + ActionTitle(leadObjective) + "\"\n}\n"
  }

  /** The layout of create_email_prompt for any worked example. */
  function EmailLayout(fullContext: string, leadObjective: string, links: Links, version: int, example: string): (prompt: string)
    ensures Contains(prompt, fullContext)
    ensures Contains(prompt, "Overall Campaign Lead Objective: " + leadObjective + " (aiming to get recipients to " + EmailAction(leadObjective) + ").")
    ensures Contains(prompt, "Embed a call to action link: " + EmailLink(leadObjective, links) + ".")
    ensures Contains(prompt, "This is version #" + IntToString(version) + " of the email sequence.")
    ensures Contains(prompt, EmailKeysLine)
  {
    var pieces := [
      ContextHeader,
      fullContext,
      EmailTask,
      "Overall Campaign Lead Objective: " + leadObjective + " (aiming to get recipients to " + EmailAction(leadObjective) + ").",
      EmailRequirements,
      "Embed a call to action link: " + EmailLink(leadObjective, links) + ".",
      EmailCtaRequirement,
      "This is version #" + IntToString(version) + " of the email sequence.",
      "\n\n",
      EmailKeysLine,
      example
    ];
    ConcatContains(pieces, 1);
    ConcatContains(pieces, 3);
    ConcatContains(pieces, 5);
    ConcatContains(pieces, 7);
    ConcatContains(pieces, 9);
    Concat(pieces)
  }

  /** create_email_prompt. */
  function EmailPrompt(fullContext: string, leadObjective: string, links: Links, version: int): (prompt: string)
    ensures Contains(prompt, fullContext)
    ensures Contains(prompt, "Overall Campaign Lead Objective: " + leadObjective + " (aiming to get recipients to " + EmailAction(leadObjective) + ").")
    ensures Contains(prompt, "Embed a call to action link: " + EmailLink(leadObjective, links) + ".")
    ensures Contains(prompt, "This is version #" + IntToString(version) + " of the email sequence.")
    ensures Contains(prompt, EmailKeysLine)
  {
    EmailLayout(fullContext, leadObjective, links, version, EmailExample(leadObjective, EmailLink(leadObjective, links)))
  }

  // ---------------------------------------------------------------------
  // LinkedIn and Facebook
  // ---------------------------------------------------------------------

  const BrandAwareness := "Brand Awareness"
  const DemandGen := "Demand Gen"
  const DemandCapture := "Demand Capture"

  /** The link key a social ad objective points at; other objectives point nowhere. */
  function DestinationKey(adObjective: string): (key: Option<string>)
    ensures key == Some("learn_more") <==> adObjective == BrandAwareness
    ensures key == Some("downloadable") <==> adObjective == DemandGen
    ensures key == Some("objective_link") <==> adObjective == DemandCapture
    ensures key.None? <==> adObjective !in {BrandAwareness, DemandGen, DemandCapture}
  {
    if adObjective == BrandAwareness then Some("learn_more")
    else if adObjective == DemandGen then Some("downloadable")
    else if adObjective == DemandCapture then Some("objective_link")
    else None
  }

  const LearnMoreSentence := "The ad should encourage users to learn more, potentially linking to: "
  const DownloadSentence := "The ad should encourage users to download material, linking to: "
  const MeetingSentence := "The ad should encourage users to book a demo/meeting, linking to: "

  /** The destination sentence of a social prompt (`destination_info`). */
  function DestinationInfo(adObjective: string, links: Links): (info: string)
    ensures info == "" <==> DestinationKey(adObjective).None?
    ensures DestinationKey(adObjective).Some? ==> EndsWith(info, LinkOr(links, DestinationKey(adObjective).value, "#"))
  {
    if adObjective == BrandAwareness then LearnMoreSentence + LinkOr(links, "learn_more", "#")
    else if adObjective == DemandGen then DownloadSentence + LinkOr(links, "downloadable", "#")
    else if adObjective == DemandCapture then MeetingSentence + LinkOr(links, "objective_link", "#")
    else ""
  }

  /** The key that carries the body text: LinkedIn's introductory text or any other platform's primary text. */
  function BodyKey(platform: string): string {
    if platform == "LinkedIn" then "introductory_text" else "primary_text"
  }

  /** `json_keys`: the output key set a social prompt requests. */
  function SocialKeys(platform: string): (keys: seq<string>)
    ensures |keys| == 4 || |keys| == 5
    ensures "link_description" in keys <==> platform == "FaceBook"
    ensures ("introductory_text" in keys) != ("primary_text" in keys)
  {
    ["ad_name", BodyKey(platform), "image_copy", "headline"]
      + (if platform == "FaceBook" then ["link_description"] else [])
  }

  /** The key sets for the two platforms the program uses. */
  lemma SocialKeySets()
    ensures SocialKeys("LinkedIn") == ["ad_name", "introductory_text", "image_copy", "headline"]
    ensures SocialKeys("FaceBook") == ["ad_name", "primary_text", "image_copy", "headline", "link_description"]
  {
  }

  /** `intro_char_limit` and `headline_char_limit`. */
  const LinkedInIntroLimit := "300-400 characters (hook in first 150)"
  const FaceBookIntroLimit := "300-400 characters (hook in first 125)"

  function IntroLimit(platform: string): string {
    if platform == "LinkedIn" then LinkedInIntroLimit else FaceBookIntroLimit
  }

  function HeadlineLimit(platform: string): string {
    if platform == "LinkedIn" then "~70 characters" else "~27 characters"
  }

  const AdNameExample := " Ad - ContextBased - "
  const ImageCopyExample := "Text for the ad's image/visual."
  const LinkDescriptionExample := "Short Link Desc. (~27 chars)"
  const BodyExample := "Hook... Engaging text with emojis \U{1F60A}. Max 300-400 characters."

  /** `example_json`: the worked example, as (key, value) pairs in insertion order. */
  function SocialExample(platform: string, adObjective: string, version: int): seq<(string, string)> {
    [ ("ad_name", platform + AdNameExample + adObjective + " - V" + IntToString(version)),
      (BodyKey(platform), BodyExample),
      ("image_copy", ImageCopyExample),
      ("headline", "Catchy Headline (" + HeadlineLimit(platform) + ")") ]
    + (if platform == "FaceBook" then [("link_description", LinkDescriptionExample)] else [])
  }

  /** The worked example carries exactly the requested output keys, in the same order. */
  lemma SocialExampleMatchesKeys(platform: string, adObjective: string, version: int)
    ensures |SocialExample(platform, adObjective, version)| == |SocialKeys(platform)|
    ensures forall k :: 0 <= k < |SocialKeys(platform)| ==> SocialExample(platform, adObjective, version)[k].0 == SocialKeys(platform)[k]
  {
  }

  /** Python's `str(list_of_strings)`, e.g. `['a', 'b']` (no quote escaping). */
  function PyListRepr(items: seq<string>): string {
    "[" + Join(seq(|items|, k requires 0 <= k < |items| => "'" + items[k] + "'"), ", ") + "]"
  }

  /** `json.dumps(pairs, indent=2)` for an object of string values (string escaping is not modelled). */
  function DumpObject(pairs: seq<(string, string)>): string {
    if |pairs| == 0 then "{}"
    else "{\n" + Join(seq(|pairs|, k requires 0 <= k < |pairs| => "  \"" + pairs[k].0 + "\": \"" + pairs[k].1 + "\""), ",\n") + "\n}"
  }

  datatype PyException = NameError(name: string)

  /**
    create_linkedin_facebook_prompt as written: the destination text, key
    list and example are computed, then `json.dumps` is evaluated in a
    module that never imports `json`, which raises NameError.
   */
  function SocialPromptAsWritten(platform: string, fullContext: string, leadObjective: string, links: Links, adObjective: string, version: int): (r: Result<string, PyException>)
    ensures r.Failure? && r.error.name == "json"
  {
    var info := DestinationInfo(adObjective, links);
    var keys := SocialKeys(platform);
    var example := SocialExample(platform, adObjective, version);
    Failure(NameError("json"))
  }

  const ObjectiveGuidance :=
    "- Brand Awareness: Focus on introducing the company/product and its value.\n"
    + "- Demand Gen: Focus on the value of the downloadable material and encourage downloads.\n"
    + "- Demand Capture: Focus on the benefits of a demo/meeting and encourage sign-ups.\n\n"

  const RequirementsHeading := "\n\nAd Copy Requirements for "
  const TailorOpening := "Tailor the messaging to the '"
  const AdNameRequirement := "1.  **Ad Name**: A unique identifier for this ad, up to 250 characters.\n"
  const ImageCopyRequirement :=
    ". Must include relevant emojis.\n3.  **Image Copy**: Text to be used on or inspire the ad's image/visual.\n4.  **Headline**: "
  const LinkDescriptionRequirement := "5.  **Link Description**: ~27 characters (for Facebook only)."

  /** The numbered copy requirements of a social prompt. */
  function SocialRequirements(platform: string, adObjective: string, version: int): string {
    RequirementsHeading + platform + " (Version #" + IntToString(version) + "):\n"
    + AdNameRequirement
    + "2.  **" + (if platform == "LinkedIn" then "Introductory Text" else "Primary Text") + "**: " + IntroLimit(platform)
    + ImageCopyRequirement + HeadlineLimit(platform) + ".\n"
    + (if platform == "FaceBook" then LinkDescriptionRequirement else "") + "\n\n"
    + TailorOpening + adObjective + "' objective.\n"
    + ObjectiveGuidance
  }

  const SocialTask := "\n---\n\nTask: Generate ad copy for one version of a "

  /** The layout of create_linkedin_facebook_prompt for any requirements block, key line and worked example. */
  function SocialLayout(platform: string, fullContext: string, leadObjective: string, adObjective: string, destination: string,
                        requirements: string, keysLine: string, example: string): (prompt: string)
    ensures Contains(prompt, fullContext)
    ensures Contains(prompt, "Specific Ad Objective for this version: " + adObjective + ".")
    ensures Contains(prompt, destination)
    ensures Contains(prompt, keysLine)
    ensures Contains(prompt, example)
  {
    var pieces := [
      ContextHeader,
      fullContext,
      SocialTask + platform + " ad.\nOverall Campaign Lead Objective: " + leadObjective + ".\n",
      "Specific Ad Objective for this version: " + adObjective + ".",
      "\n",
      destination,
      requirements,
      keysLine,
      "\nExample JSON:\n",
      example,
      "\n"
    ];
    ConcatContains(pieces, 1);
    ConcatContains(pieces, 3);
    ConcatContains(pieces, 5);
    ConcatContains(pieces, 7);
    ConcatContains(pieces, 9);
    Concat(pieces)
  }

  /** The output-keys line of a social prompt. */
  function SocialKeysLine(platform: string): string {
    "Output the response as a single JSON object with keys: " + PyListRepr(SocialKeys(platform)) + "."
  }

  /** create_linkedin_facebook_prompt with `json` imported, as evidently intended. */
  function SocialPrompt(platform: string, fullContext: string, leadObjective: string, links: Links, adObjective: string, version: int): (prompt: string)
    ensures Contains(prompt, fullContext)
    ensures Contains(prompt, "Specific Ad Objective for this version: " + adObjective + ".")
    ensures Contains(prompt, DestinationInfo(adObjective, links))
    ensures Contains(prompt, SocialKeysLine(platform))
    ensures Contains(prompt, DumpObject(SocialExample(platform, adObjective, version)))
  {
    SocialLayout(platform, fullContext, leadObjective, adObjective, DestinationInfo(adObjective, links),
      SocialRequirements(platform, adObjective, version), SocialKeysLine(platform),
      DumpObject(SocialExample(platform, adObjective, version)))
  }

  /** The output-keys line lists the requested keys. */
  lemma SocialKeysLineListsKeys(platform: string)
    ensures Contains(SocialKeysLine(platform), PyListRepr(SocialKeys(platform)))
  {
    ContainsInfix("Output the response as a single JSON object with keys: ", PyListRepr(SocialKeys(platform)), ".");
  }

  /** As written every call raises, while the intended prompt requests the platform's key set. */
  lemma SocialPromptDefect(platform: string, fullContext: string, leadObjective: string, links: Links, adObjective: string, version: int)
    ensures SocialPromptAsWritten(platform, fullContext, leadObjective, links, adObjective, version).Failure?
    ensures Contains(SocialPrompt(platform, fullContext, leadObjective, links, adObjective, version), PyListRepr(SocialKeys(platform)))
  {
    SocialKeysLineListsKeys(platform);
    ContainsTransitive(SocialPrompt(platform, fullContext, leadObjective, links, adObjective, version), SocialKeysLine(platform), PyListRepr(SocialKeys(platform)));
  }

  /** Containment is transitive. */
  lemma ContainsTransitive(s: string, mid: string, sub: string)
    requires Contains(s, mid) && Contains(mid, sub)
    ensures Contains(s, sub)
  {
    var i :| 0 <= i <= |s| - |mid| && OccursAt(s, mid, i);
    ContainsExtend(s[..i], mid, s[i + |mid|..], sub);
    assert s[..i] + mid + s[i + |mid|..] == s;
  }

  // ---------------------------------------------------------------------
  // Google Search and Display
  // ---------------------------------------------------------------------

  const SearchHeadlineCount := 15
  const SearchDescriptionCount := 4
  const DisplayHeadlineCount := 5
  const DisplayDescriptionCount := 5

  /** The links line shared by the Search and Display prompts (`links.get(key)` renders a missing key as None). */
  function LinksLine(links: Links): string {
    "Links available: Learn More (" + LinkOr(links, "learn_more", "None") + "), Downloadable ("
      + LinkOr(links, "downloadable", "None") + "), Objective (" + LinkOr(links, "objective_link", "None") + ")."
  }

  const SearchTask := "\n---\n\nTask: Generate Google Search Ad copy.\nOverall Campaign Lead Objective: "
  const SearchStyle :=
    " Each description should be ~90 characters.\n\n"
    + "The copy should be concise, compelling, and include strong calls to action where appropriate.\n"
    + "Focus on keywords and benefits relevant to the provided context and lead objective.\n\n"
    + "Output the response as a single JSON object with two keys: "
  const SearchExample :=
    ".\nExample JSON:\n{\n  \"headlines\": [\"Headline 1 (Max 30)\", \"Headline 2 (Max 30)\", ..., \"Headline 15 (Max 30)\"],\n"
    + "  \"descriptions\": [\"Description 1 (Max 90 chars). CTA.\", \"Description 2 (Max 90 chars). Benefit.\", ..., \"Description 4 (Max 90 chars).\"]\n}\n"
  const DisplayTask := "\n---\n\nTask: Generate Google Display Ad copy.\nOverall Campaign Lead Objective: "
  const DisplayStyle :=
    " Each should be ~90 characters.\n\n"
    + "The copy should be engaging and suitable for display ad formats.\nFocus on visual appeal and clear messaging.\n\n"
    + "Output the response as a single JSON object with two keys: "
  const DisplayExample :=
    ".\nExample JSON:\n{\n  \"headlines\": [\"Short Headline 1\", \"Short Headline 2\", ..., \"Short Headline 5\"],\n"
    + "  \"descriptions\": [\"Longer Description 1 (90 chars)\", \"Longer Description 2 (90 chars)\", ..., \"Longer Description 5 (90 chars)\"]\n}\n"
  const HeadlinesIntro := "\n\nRequirements:\n-   **Headlines**: "
  const HeadlineLength := " Each headline should be ~30 characters.\n-   **Descriptions**: "

  /** The two-key output line shared by the Search and Display prompts. */
  function ListKeysLine(headlines: nat, descriptions: nat): string {
    "\"headlines\" (a list of " + NatToString(headlines) + " strings) and \"descriptions\" (a list of "
      + NatToString(descriptions) + " strings)"
  }

  /** create_google_search_prompt. */
  function SearchPrompt(fullContext: string, leadObjective: string, links: Links): (prompt: string)
    ensures Contains(prompt, fullContext)
    ensures Contains(prompt, "Create exactly " + NatToString(SearchHeadlineCount) + " headlines.")
    ensures Contains(prompt, "Create exactly " + NatToString(SearchDescriptionCount) + " descriptions.")
    ensures Contains(prompt, ListKeysLine(SearchHeadlineCount, SearchDescriptionCount))
  {
    var pieces := [
      ContextHeader,
      fullContext,
      SearchTask + leadObjective + ".\n" + LinksLine(links) + HeadlinesIntro,
      "Create exactly " + NatToString(SearchHeadlineCount) + " headlines.",
      HeadlineLength,
      "Create exactly " + NatToString(SearchDescriptionCount) + " descriptions.",
      SearchStyle,
      ListKeysLine(SearchHeadlineCount, SearchDescriptionCount),
      SearchExample
    ];
    ConcatContains(pieces, 1);
    ConcatContains(pieces, 3);
    ConcatContains(pieces, 5);
    ConcatContains(pieces, 7);
    Concat(pieces)
  }

  /** create_google_display_prompt. */
  function DisplayPrompt(fullContext: string, leadObjective: string, links: Links): (prompt: string)
    ensures Contains(prompt, fullContext)
    ensures Contains(prompt, "Create exactly " + NatToString(DisplayHeadlineCount) + " short headlines.")
    ensures Contains(prompt, "Create exactly " + NatToString(DisplayDescriptionCount) + " long headlines/descriptions.")
    ensures Contains(prompt, ListKeysLine(DisplayHeadlineCount, DisplayDescriptionCount))
  {
    var pieces := [
      ContextHeader,
      fullContext,
      DisplayTask + leadObjective + ".\n" + LinksLine(links) + HeadlinesIntro,
      "Create exactly " + NatToString(DisplayHeadlineCount) + " short headlines.",
      HeadlineLength,
      "Create exactly " + NatToString(DisplayDescriptionCount) + " long headlines/descriptions.",
      DisplayStyle,
      ListKeysLine(DisplayHeadlineCount, DisplayDescriptionCount),
      DisplayExample
    ];
    ConcatContains(pieces, 1);
    ConcatContains(pieces, 3);
    ConcatContains(pieces, 5);
    ConcatContains(pieces, 7);
    Concat(pieces)
  }

  /** The fixed cardinalities render as the digits the prompts promise. */
  lemma CardinalityDigits()
    ensures NatToString(SearchHeadlineCount) == "15"
    ensures NatToString(SearchDescriptionCount) == "4"
    ensures NatToString(DisplayHeadlineCount) == "5"
    ensures NatToString(DisplayDescriptionCount) == "5"
  {
    assert NatToString(1) == "1";
    assert NatToString(15) == NatToString(1) + [DigitChar(5)];
  }

  // ---------------------------------------------------------------------
  // Reasoning
  // ---------------------------------------------------------------------

  /** The ad-count lines of the reasoning prompt: label and `generated_ad_counts` key. */
  const CountLines: seq<(string, string)> := [
    ("Emails", "email"),
    ("LinkedIn Ads (Brand Awareness)", "linkedin_awareness"),
    ("LinkedIn Ads (Demand Gen)", "linkedin_demand_gen"),
    ("LinkedIn Ads (Demand Capture)", "linkedin_demand_capture"),
    ("Facebook Ads (Brand Awareness)", "facebook_awareness"),
    ("Facebook Ads (Demand Gen)", "facebook_demand_gen"),
    ("Facebook Ads (Demand Capture)", "facebook_demand_capture")
  ]

  /** Python's `counts.get(key, 0)`. */
  function CountOr0(counts: map<string, int>, key: string): int {
    if key in counts then counts[key] else 0
  }

  function CountLine(counts: map<string, int>, k: nat): string
    requires k < |CountLines|
  {
    "- " + CountLines[k].0 + ": " + IntToString(CountOr0(counts, CountLines[k].1))
  }

  const ReasoningIntro := "\nYou were provided with the following summarized contexts:\n---\n"
  const ReasoningCountsIntro :=
    "\n---\n\nBased on these contexts and specific objectives, you (conceptually) generated the following quantities of ad copy:\n"
  const ReasoningTask :=
    "- Google Search Ads: 1 set (15 headlines, 4 descriptions)\n- Google Display Ads: 1 set (5 headlines, 5 descriptions)\n\n"
    + "Task: Provide a brief explanation of your thought process for generating this ad content.\n"
    + "Describe how you (would have) utilized the provided contexts to tailor the ad copy.\n"
    + "For example:\n"
    + "- What key themes, pain points, solutions, or calls to action did you identify from the context?\n"
    + "- How did you weave them into the different ad formats (Email, LinkedIn, Facebook, Google Search/Display)?\n"
    + "- How did you differentiate messaging for various objectives (Brand Awareness, Demand Gen, Demand Capture)?\n"
    + "- Be specific about how different parts of the context might have influenced different types of ads or messages.\n\n"
    + "This explanation is for transparency, to help the user understand the connection between their input materials and the generated ads.\n"
    + "Keep the explanation concise yet informative, around 3-5 paragraphs.\n"
  const PlainTextLine := "Do not output JSON. Output plain text."

  /** A piece that is a line of text followed by a newline puts that line in the prompt. */
  lemma ConcatContainsLine(pieces: seq<string>, k: nat, line: string)
    requires k < |pieces| && pieces[k] == line + "\n"
    ensures Contains(Concat(pieces), line)
  {
    ConcatContains(pieces, k);
    ContainsInfix("", line, "\n");
    assert "" + line + "\n" == line + "\n";
    ContainsTransitive(Concat(pieces), line + "\n", line);
  }

  /** The layout of create_reasoning_prompt for any combined context and list of count lines. */
  function ReasoningLayout(context: string, lines: seq<string>): (prompt: string)
    ensures Contains(prompt, context)
    ensures forall k :: 0 <= k < |lines| ==> Contains(prompt, lines[k])
    ensures Contains(prompt, PlainTextLine)
  {
    var head := [ReasoningIntro, context, ReasoningCountsIntro];
    var body := seq(|lines|, k requires 0 <= k < |lines| => lines[k] + "\n");
    var pieces := head + body + [ReasoningTask, PlainTextLine, "\n"];
    ConcatContains(pieces, 1);
    ConcatContains(pieces, |head| + |body| + 1);
    forall k | 0 <= k < |lines| ensures Contains(Concat(pieces), lines[k]) {
      ConcatContainsLine(pieces, |head| + k, lines[k]);
    }
    Concat(pieces)
  }

  /** create_reasoning_prompt. */
  function ReasoningPrompt(url: Option<string>, additional: Option<string>, downloadable: Option<string>, counts: map<string, int>): (prompt: string)
    ensures Contains(prompt, CombinedContext(url, additional, downloadable))
    ensures forall k :: 0 <= k < |CountLines| ==> Contains(prompt, CountLine(counts, k))
    ensures Contains(prompt, PlainTextLine)
  {
    var lines := seq(|CountLines|, k requires 0 <= k < |CountLines| => CountLine(counts, k));
    assert forall k :: 0 <= k < |CountLines| ==> lines[k] == CountLine(counts, k);
    ReasoningLayout(CombinedContext(url, additional, downloadable), lines)
  }

  /** A count key the caller left out is reported as 0. */
  lemma ReasoningPromptMissingCountIsZero(url: Option<string>, additional: Option<string>, downloadable: Option<string>, counts: map<string, int>, k: nat)
    requires k < |CountLines| && CountLines[k].1 !in counts
    ensures Contains(ReasoningPrompt(url, additional, downloadable, counts), "- " + CountLines[k].0 + ": 0")
  {
    assert CountLine(counts, k) == "- " + CountLines[k].0 + ": 0";
  }
}

=== FILE: strings.dfy ===
/**
  The part of Python's `str` behaviour that the modelled code relies on:
  substring tests, `find`/`rfind`, `split`, `join`, `strip`, `lower`,
  `title`, `replace` and `str(int)`. Case mapping and whitespace are
  modelled for ASCII only.
 */
module Strings {

  predicate StartsWith(s: string, prefix: string) {
    |prefix| <= |s| && s[..|prefix|] == prefix
  }

  predicate EndsWith(s: string, suffix: string) {
    |suffix| <= |s| && s[|s| - |suffix|..] == suffix
  }

  /** `sub` occurs in `s` starting at index `i`. */
  predicate OccursAt(s: string, sub: string, i: int) {
    0 <= i <= |s| - |sub| && s[i..i + |sub|] == sub
  }

  /** Python's `sub in s`. */
  predicate Contains(s: string, sub: string) {
    exists i | 0 <= i <= |s| - |sub| :: OccursAt(s, sub, i)
  }

  /** The program's failure convention: a text is treated as a failure when `"Error" in text`. */
  predicate ErrorTagged(s: string) {
    Contains(s, "Error")
  }

  lemma ContainsInfix(p: string, sub: string, q: string)
    ensures Contains(p + sub + q, sub)
  {
    var s := p + sub + q;
    assert OccursAt(s, sub, |p|);
  }

  lemma ContainsExtend(p: string, s: string, q: string, sub: string)
    requires Contains(s, sub)
    ensures Contains(p + s + q, sub)
  {
    var i :| 0 <= i <= |s| - |sub| && OccursAt(s, sub, i);
    var t := p + s + q;
    assert t[|p| + i..|p| + i + |sub|] == s[i..i + |sub|];
    assert OccursAt(t, sub, |p| + i);
  }

  lemma StartsWithContains(s: string, prefix: string)
    requires StartsWith(s, prefix)
    ensures Contains(s, prefix)
  {
    assert OccursAt(s, prefix, 0);
  }

  /** A text that begins with "Error" is error-tagged. */
  lemma ErrorPrefixTagged(rest: string)
    ensures StartsWith("Error" + rest, "Error")
    ensures ErrorTagged("Error" + rest)
  {
    assert ("Error" + rest)[..5] == "Error";
    StartsWithContains("Error" + rest, "Error");
  }

  /** A text that begins with an error-tagged prefix is itself error-tagged. */
  lemma ErrorPrefixExtends(s: string, prefix: string)
    requires StartsWith(prefix, "Error") && StartsWith(s, prefix)
    ensures StartsWith(s, "Error") && ErrorTagged(s)
  {
    assert s[..5] == prefix[..5];
    StartsWithContains(s, "Error");
  }

  /** A string that lacks one of the characters of `sub` cannot contain `sub`. */
  lemma MissingCharExcludes(s: string, sub: string, k: nat)
    requires k < |sub| && sub[k] !in s
    ensures !Contains(s, sub)
  {
  }

  /** Python's `s.find(c)`: the first index of `c`, or -1. */
  function Find(s: string, c: char): (r: int)
    ensures -1 <= r < |s|
    ensures r == -1 <==> c !in s
    ensures r >= 0 ==> s[r] == c && c !in s[..r]
  {
    if |s| == 0 then -1
    else if s[0] == c then 0
    else
      var k := Find(s[1..], c);
      if k == -1 then -1
      else
        assert s[..k + 1] == [s[0]] + s[1..][..k];
        k + 1
  }

  /** Python's `s.rfind(c)`: the last index of `c`, or -1. */
  function RFind(s: string, c: char): (r: int)
    ensures -1 <= r < |s|
    ensures r == -1 <==> c !in s
    ensures r >= 0 ==> s[r] == c && c !in s[r + 1..]
  {
    if |s| == 0 then -1
    else if s[|s| - 1] == c then |s| - 1
    else
      var k := RFind(s[..|s| - 1], c);
      assert s == s[..|s| - 1] + [s[|s| - 1]];
      assert k >= 0 ==> s[k + 1..] == s[..|s| - 1][k + 1..] + [s[|s| - 1]];
      k
  }

  /** Python's `sep.join(parts)`. */
  function Join(parts: seq<string>, sep: string): string {
    if |parts| == 0 then ""
    else if |parts| == 1 then parts[0]
    else parts[0] + sep + Join(parts[1..], sep)
  }

  /** Every part of a join appears in the joined text. */
  lemma {:induction false} JoinContainsParts(parts: seq<string>, sep: string, k: nat)
    requires k < |parts|
    ensures Contains(Join(parts, sep), parts[k])
  {
    if |parts| == 1 {
      ContainsInfix("", parts[0], "");
      assert "" + parts[0] + "" == parts[0];
    } else if k == 0 {
      ContainsInfix("", parts[0], sep + Join(parts[1..], sep));
      assert "" + parts[0] + (sep + Join(parts[1..], sep)) == Join(parts, sep);
    } else {
      JoinContainsParts(parts[1..], sep, k - 1);
      ContainsExtend(parts[0] + sep, Join(parts[1..], sep), "", parts[k]);
      assert parts[0] + sep + Join(parts[1..], sep) + "" == Join(parts, sep);
    }
  }

  /** Joining a part in front of a non-empty list puts the separator between them. */
  lemma JoinCons(first: string, rest: seq<string>, sep: string)
    requires |rest| > 0
    ensures Join([first] + rest, sep) == first + sep + Join(rest, sep)
  {
    assert ([first] + rest)[1..] == rest;
  }

  /** Python's `s.split(c)` for a one-character separator. */
  function Split(s: string, c: char): (r: seq<string>)
    ensures |r| >= 1
    ensures forall k :: 0 <= k < |r| ==> c !in r[k]
    decreases |s|
  {
    var i := Find(s, c);
    if i < 0 then [s]
    else
      [s[..i]] + Split(s[i + 1..], c)
  }

  /** `split` at the first separator. */
  lemma SplitUnfold(s: string, c: char, i: int)
    requires 0 <= i == Find(s, c)
    ensures Split(s, c) == [s[..i]] + Split(s[i + 1..], c)
  {
  }

  /** A text is the part before index `i`, the character at `i`, and the part after. */
  lemma SliceAround(s: string, i: int)
    requires 0 <= i < |s|
    ensures s[..i] + [s[i]] + s[i + 1..] == s
  {
  }

  /** One step of re-joining: the part before the first separator, the separator, then the re-joined rest. */
  lemma SplitJoinStep(s: string, c: char, i: int)
    requires 0 <= i == Find(s, c)
    requires Join(Split(s[i + 1..], c), [c]) == s[i + 1..]
    ensures Join(Split(s, c), [c]) == s
  {
    SplitUnfold(s, c, i);
    JoinCons(s[..i], Split(s[i + 1..], c), [c]);
    SliceAround(s, i);
  }

  /** Splitting and re-joining on the same separator gives back the original text. */
  lemma {:induction false} SplitJoin(s: string, c: char)
    ensures Join(Split(s, c), [c]) == s
    decreases |s|
  {
    var i := Find(s, c);
    if i < 0 {
      assert Split(s, c) == [s];
    } else {
      SplitJoin(s[i + 1..], c);
      SplitJoinStep(s, c, i);
    }
  }

  /** Joining parts free of the separator and splitting again gives back the parts. */
  lemma {:induction false} JoinSplit(parts: seq<string>, c: char)
    requires |parts| >= 1
    requires forall k :: 0 <= k < |parts| ==> c !in parts[k]
    ensures Split(Join(parts, [c]), c) == parts
    decreases |parts|
  {
    if |parts| == 1 {
      assert c !in parts[0];
      assert Find(parts[0], c) < 0;
    } else {
      JoinSplit(parts[1..], c);
      JoinCons(parts[0], parts[1..], [c]);
      SplitFirstPart(parts[0], c, Join(parts[1..], [c]));
      assert [parts[0]] + parts[1..] == parts;
    }
  }

  /** Splitting a text whose first part has no separator peels that part off. */
  lemma SplitFirstPart(a: string, c: char, b: string)
    requires c !in a
    ensures Split(a + [c] + b, c) == [a] + Split(b, c)
  {
    var s := a + [c] + b;
    assert s[|a|] == c;
    var i := Find(s, c);
    assert forall j :: 0 <= j < |a| ==> s[j] == a[j];
    assert s[..i] == a;
    assert s[i + 1..] == b;
  }

  /** Python's `s.split(c)[0]`: the text before the first `c`. */
  function BeforeFirst(s: string, c: char): (r: string)
    ensures c !in r
    ensures StartsWith(s, r)
    ensures c !in s ==> r == s
    ensures |r| == |s| || s[|r|] == c
  {
    var i := Find(s, c);
    if i >= 0 then SplitUnfold(s, c, i); Split(s, c)[0]
    else Split(s, c)[0]
  }

  /** The ASCII characters `str.isspace()` accepts, which `str.strip()` removes. */
  predicate IsSpace(c: char) {
    c == ' ' || c == '\t' || c == '\n' || c == '\r' || c == '\U{B}' || c == '\U{C}'
    || c == '\U{1C}' || c == '\U{1D}' || c == '\U{1E}' || c == '\U{1F}'
  }

  /** Python's `s.lstrip()`. */
  function TrimStart(s: string): (r: string)
    ensures |r| <= |s| && r == s[|s| - |r|..]
    ensures |r| > 0 ==> !IsSpace(r[0])
    ensures forall k :: 0 <= k < |s| - |r| ==> IsSpace(s[k])
  {
    if |s| > 0 && IsSpace(s[0]) then TrimStart(s[1..]) else s
  }

  /** Python's `s.rstrip()`. */
  function TrimEnd(s: string): (r: string)
    ensures |r| <= |s| && r == s[..|r|]
    ensures |r| > 0 ==> !IsSpace(r[|r| - 1])
    ensures forall k :: |r| <= k < |s| ==> IsSpace(s[k])
  {
    if |s| > 0 && IsSpace(s[|s| - 1]) then TrimEnd(s[..|s| - 1]) else s
  }

  /** Python's `s.strip()`: the longest inner slice with no surrounding whitespace. */
  function Strip(s: string): (r: string)
    ensures Contains(s, r)
    ensures |r| > 0 ==> !IsSpace(r[0]) && !IsSpace(r[|r| - 1])
  {
    var t := TrimStart(s);
    var r := TrimEnd(t);
    assert s[|s| - |t|..|s| - |t| + |r|] == r;
    assert OccursAt(s, r, |s| - |t|);
    r
  }

  /** Stripping twice changes nothing more than stripping once. */
  lemma StripIdempotent(s: string)
    ensures Strip(Strip(s)) == Strip(s)
  {
    var r := Strip(s);
    if |r| > 0 {
      assert TrimStart(r) == r;
      assert TrimEnd(r) == r;
    }
  }

  predicate IsUpper(c: char) { 'A' <= c <= 'Z' }
  predicate IsLower(c: char) { 'a' <= c <= 'z' }
  predicate IsLetter(c: char) { IsUpper(c) || IsLower(c) }

  function LowerChar(c: char): char {
    if IsUpper(c) then (c as int + 32) as char else c
  }

  function UpperChar(c: char): char {
    if IsLower(c) then (c as int - 32) as char else c
  }

  /** Python's `s.lower()`. */
  function Lower(s: string): (r: string)
    ensures |r| == |s|
    ensures forall k :: 0 <= k < |r| ==> !IsUpper(r[k])
    ensures forall k :: 0 <= k < |r| ==> (r[k] == s[k] || IsUpper(s[k]))
  {
    seq(|s|, k requires 0 <= k < |s| => LowerChar(s[k]))
  }

  /** Python's `s.title()`: a letter that follows a letter is lowered, any other letter is raised. */
  function Title(s: string): (r: string)
    ensures |r| == |s|
    ensures forall k :: 0 <= k < |s| && !IsLetter(s[k]) ==> r[k] == s[k]
  {
    seq(|s|, k requires 0 <= k < |s| =>
      if !IsLetter(s[k]) then s[k]
      else if k > 0 && IsLetter(s[k - 1]) then LowerChar(s[k])
      else UpperChar(s[k]))
  }

  /** Python's `s.replace(a, b)` for one-character `a` and `b`. */
  function ReplaceChar(s: string, a: char, b: char): (r: string)
    ensures |r| == |s|
    ensures a != b ==> a !in r
    ensures forall k :: 0 <= k < |s| && s[k] != a ==> r[k] == s[k]
  {
    seq(|s|, k requires 0 <= k < |s| => if s[k] == a then b else s[k])
  }

  /** Python's `s.replace(pat, "")`: occurrences removed left to right, without overlap. */
  function RemoveAll(s: string, pat: string): (r: string)
    requires |pat| > 0
    ensures |r| <= |s|
    ensures forall c :: c in r ==> c in s
    decreases |s|
  {
    if |s| == 0 then ""
    else if StartsWith(s, pat) then RemoveAll(s[|pat|..], pat)
    else [s[0]] + RemoveAll(s[1..], pat)
  }

  /** Text missing one of `pat`'s characters holds no occurrence of `pat`, so removal leaves it unchanged. */
  lemma {:induction false} RemoveAllAbsent(s: string, pat: string, i: nat)
    requires |pat| > 0 && i < |pat| && pat[i] !in s
    ensures RemoveAll(s, pat) == s
    decreases |s|
  {
    if |s| > 0 {
      assert !StartsWith(s, pat) by {
        if |pat| <= |s| { assert s[..|pat|][i] == s[i]; }
      }
      RemoveAllAbsent(s[1..], pat, i);
      assert s == [s[0]] + s[1..];
    }
  }

  predicate IsDigit(c: char) { '0' <= c <= '9' }

  function DigitChar(d: int): (c: char)
    requires 0 <= d < 10
    ensures IsDigit(c)
  {
    ('0' as int + d) as char
  }

  function DigitValue(c: char): int
    requires IsDigit(c)
  {
    c as int - '0' as int
  }

  /** Python's `str(n)` for a non-negative integer. */
  function NatToString(n: nat): (r: string)
    ensures |r| >= 1
    ensures forall k :: 0 <= k < |r| ==> IsDigit(r[k])
  {
    if n < 10 then [DigitChar(n)] else NatToString(n / 10) + [DigitChar(n % 10)]
  }

  /** Python's `str(n)` for any integer. */
  function IntToString(n: int): string {
    if n < 0 then "-" + NatToString(-n) else NatToString(n)
  }

  /** Python's `int(s)` on a string of decimal digits. */
  function ParseNat(s: string): nat
    requires forall k :: 0 <= k < |s| ==> IsDigit(s[k])
  {
    if |s| == 0 then 0 else ParseNat(s[..|s| - 1]) * 10 + DigitValue(s[|s| - 1])
  }

  /** `int(str(n)) == n` for every non-negative integer. */
  lemma {:induction false} NatToStringRoundTrip(n: nat)
    ensures ParseNat(NatToString(n)) == n
  {
    if n >= 10 {
      var s := NatToString(n);
      assert s[..|s| - 1] == NatToString(n / 10);
      NatToStringRoundTrip(n / 10);
    }
  }
}

=== FILE: text_extractor.dfy ===
/**
  Text extraction from the three kinds of source (utils/text_extractor.py).
  The HTTP fetch with HTML-to-text conversion, the PDF reader and the PPTX
  reader are oracles: each is given as the outcome it produces. Every
  failure becomes a string that begins with "Error", which is how the
  caller tells a failed extraction from extracted text.
 */
module TextExtractor {
  import opened Wrappers
  import opened Strings

  // ---------------------------------------------------------------------
  // URLs
  // ---------------------------------------------------------------------

  predicate HasScheme(url: string) {
    StartsWith(url, "http://") || StartsWith(url, "https://")
  }

  /** The scheme fix-up: a URL without "http://" or "https://" is sent over https. */
  function NormalizeUrl(url: string): (u: string)
    ensures HasScheme(u)
    ensures EndsWith(u, url)
    ensures HasScheme(url) <==> u == url
  {
    if HasScheme(url) then url
    else
      var u := "https://" + url;
      assert u[..8] == "https://";
      assert u[|u| - |url|..] == url;
      u
  }

  /** Fixing up an already fixed-up URL changes nothing. */
  lemma NormalizeUrlIdempotent(url: string)
    ensures NormalizeUrl(NormalizeUrl(url)) == NormalizeUrl(url)
  {
  }

  /** What fetching a page gives: a transport or HTTP-status failure, a failure while turning the page into text, or the page's visible text. */
  datatype FetchOutcome = RequestFailed(reason: string) | ContentFailed(reason: string) | PageText(text: string)

  const FetchErrorPrefix := "Error" + " fetching URL: "
  const ContentErrorPrefix := "Error" + " parsing URL content: "

  /** extract_text_from_url: fetch the fixed-up URL and return its text, or a tagged failure. */
  function ExtractFromUrl(url: string, fetch: string -> FetchOutcome): (text: string)
    ensures fetch(NormalizeUrl(url)).PageText? ==> text == fetch(NormalizeUrl(url)).text
    ensures fetch(NormalizeUrl(url)).RequestFailed? ==> StartsWith(text, FetchErrorPrefix)
    ensures fetch(NormalizeUrl(url)).ContentFailed? ==> StartsWith(text, ContentErrorPrefix)
  {
    match fetch(NormalizeUrl(url))
    case RequestFailed(reason) =>
      var t := FetchErrorPrefix + reason;
      assert t[..|FetchErrorPrefix|] == FetchErrorPrefix;
      t
    case ContentFailed(reason) =>
      var t := ContentErrorPrefix + reason;
      assert t[..|ContentErrorPrefix|] == ContentErrorPrefix;
      t
    case PageText(t) => t
  }

  /** Every failed URL extraction begins with "Error". */
  lemma UrlFailuresAreTagged(url: string, fetch: string -> FetchOutcome)
    requires !fetch(NormalizeUrl(url)).PageText?
    ensures StartsWith(ExtractFromUrl(url, fetch), "Error")
    ensures ErrorTagged(ExtractFromUrl(url, fetch))
  {
    ErrorPrefixTagged(" fetching URL: ");
    ErrorPrefixTagged(" parsing URL content: ");
    if fetch(NormalizeUrl(url)).RequestFailed? {
      ErrorPrefixExtends(ExtractFromUrl(url, fetch), FetchErrorPrefix);
    } else {
      ErrorPrefixExtends(ExtractFromUrl(url, fetch), ContentErrorPrefix);
    }
  }

  // ---------------------------------------------------------------------
  // PDF
  // ---------------------------------------------------------------------

  /** What the PDF reader gives: a failure, or the extracted text of each page in order. */
  datatype PdfDocument = PdfUnreadable(reason: string) | Pages(pages: seq<string>)

  const PdfErrorPrefix := "Error" + " reading PDF: "

  /** The page texts run together with no separator, first page first. */
  function ConcatAll(pages: seq<string>): (r: string)
    ensures |pages| > 0 ==> StartsWith(r, pages[0]) && EndsWith(r, pages[|pages| - 1])
  {
    if |pages| == 0 then ""
    else
      var r := ConcatAll(pages[..|pages| - 1]) + pages[|pages| - 1];
      assert |pages| > 1 ==> pages[..|pages| - 1][0] == pages[0];
      assert |pages| == 1 ==> r == pages[0];
      assert r[|r| - |pages[|pages| - 1]|..] == pages[|pages| - 1];
      r
  }

  /** The length of the PDF text is the total length of its pages. */
  function TotalLength(pages: seq<string>): nat {
    if |pages| == 0 then 0 else TotalLength(pages[..|pages| - 1]) + |pages[|pages| - 1]|
  }

  lemma {:induction false} ConcatAllLength(pages: seq<string>)
    ensures |ConcatAll(pages)| == TotalLength(pages)
  {
    if |pages| > 0 {
      ConcatAllLength(pages[..|pages| - 1]);
    }
  }

  /** Every page's text appears in the concatenation. */
  lemma {:induction false} ConcatAllContainsPages(pages: seq<string>, k: nat)
    requires k < |pages|
    ensures Contains(ConcatAll(pages), pages[k])
  {
    var n := |pages| - 1;
    if k == n {
      ContainsInfix(ConcatAll(pages[..n]), pages[k], "");
      assert ConcatAll(pages[..n]) + pages[k] + "" == ConcatAll(pages);
    } else {
      assert pages[..n][k] == pages[k];
      ConcatAllContainsPages(pages[..n], k);
      ContainsExtend("", ConcatAll(pages[..n]), pages[n], pages[k]);
      assert "" + ConcatAll(pages[..n]) + pages[n] == ConcatAll(pages);
    }
  }

  /** One more page adds its text at the end. */
  lemma ConcatAllSnoc(pages: seq<string>, x: string)
    ensures ConcatAll(pages + [x]) == ConcatAll(pages) + x
  {
    assert (pages + [x])[..|pages|] == pages;
  }

  /** Concatenation is associative. */
  lemma AppendAssoc<T>(p: seq<T>, q: seq<T>, r: seq<T>)
    ensures (p + q) + r == p + (q + r)
  {
  }

  /** A non-empty sequence is its front followed by its last element. */
  lemma SplitLast<T>(b: seq<T>)
    requires |b| > 0
    ensures b == b[..|b| - 1] + [b[|b| - 1]]
  {
  }

  /** If appending `rest` keeps the order, so does appending `rest` and one more page. */
  lemma ConcatAllAppendStep(a: seq<string>, rest: seq<string>, x: string)
    requires ConcatAll(a + rest) == ConcatAll(a) + ConcatAll(rest)
    ensures ConcatAll(a + (rest + [x])) == ConcatAll(a) + ConcatAll(rest + [x])
  {
    AppendAssoc(a, rest, [x]);
    ConcatAllSnoc(a + rest, x);
    ConcatAllSnoc(rest, x);
    AppendAssoc(ConcatAll(a), ConcatAll(rest), x);
  }

  /** Pages are appended in order: the text of two runs of pages is the first run's text followed by the second's. */
  lemma {:induction false} ConcatAllAppend(a: seq<string>, b: seq<string>)
    ensures ConcatAll(a + b) == ConcatAll(a) + ConcatAll(b)
    decreases |b|
  {
    if |b| == 0 {
      assert a + b == a;
    } else {
      var rest, x := b[..|b| - 1], b[|b| - 1];
      SplitLast(b);
      ConcatAllAppend(a, rest);
      ConcatAllAppendStep(a, rest, x);
    }
  }

  /** extract_text_from_pdf: the concatenated page texts, or a tagged failure. */
  function PdfText(doc: PdfDocument): (text: string)
    ensures doc.PdfUnreadable? ==> StartsWith(text, PdfErrorPrefix) && ErrorTagged(text)
    ensures doc.Pages? ==> |text| == TotalLength(doc.pages)
  {
    match doc
    case PdfUnreadable(reason) =>
      ErrorPrefixTagged(" reading PDF: " + reason);
      var t := PdfErrorPrefix + reason;
      assert t == "Error" + (" reading PDF: " + reason);
      assert t[..|PdfErrorPrefix|] == PdfErrorPrefix;
      t
    case Pages(pages) =>
      ConcatAllLength(pages);
      ConcatAll(pages)
  }

  /** The page loop of extract_text_from_pdf: `text += page.extract_text()` for each page in turn. */
  method ExtractPdf(doc: PdfDocument) returns (text: string)
    ensures text == PdfText(doc)
  {
    match doc {
      case PdfUnreadable(reason) =>
        text := PdfErrorPrefix + reason;
      case Pages(pages) =>
        text := "";
        var i := 0;
        while i < |pages|
          invariant 0 <= i <= |pages|
          invariant text == ConcatAll(pages[..i])
        {
          assert pages[..i + 1][..i] == pages[..i];
          text := text + pages[i];
          i := i + 1;
        }
        assert pages[..|pages|] == pages;
    }
  }

  // ---------------------------------------------------------------------
  // PPTX
  // ---------------------------------------------------------------------

  /** A shape on a slide; `text` is None for a shape without a text attribute (a picture, say). */
  datatype Shape = Shape(text: Option<string>)

  /** What the PPTX reader gives: a failure, or the shapes of each slide in order. */
  datatype PptxDocument = PptxUnreadable(reason: string) | Slides(slides: seq<seq<Shape>>)

  const PptxErrorPrefix := "Error" + " reading PPTX: "

  /** The texts of the shapes of one slide that have text, in shape order. */
  function SlideTexts(shapes: seq<Shape>): (r: seq<string>)
    ensures |r| <= |shapes|
    ensures forall k :: 0 <= k < |shapes| && shapes[k].text.Some? ==> shapes[k].text.value in r
    ensures forall t :: t in r ==> Shape(Some(t)) in shapes
  {
    if |shapes| == 0 then []
    else
      var n := |shapes| - 1;
      var before := SlideTexts(shapes[..n]);
      assert forall k :: 0 <= k < n ==> shapes[..n][k] == shapes[k];
      match shapes[n].text
      case None => before
      case Some(t) => before + [t]
  }

  /** The texts of all shapes that have text, in slide order and then shape order. */
  function ShapeTexts(slides: seq<seq<Shape>>): seq<string> {
    if |slides| == 0 then []
    else ShapeTexts(slides[..|slides| - 1]) + SlideTexts(slides[|slides| - 1])
  }

  /** The collected texts are exactly the texts of the shapes that have one, on any slide. */
  lemma {:induction false} ShapeTextsMembers(slides: seq<seq<Shape>>)
    ensures forall i, k :: 0 <= i < |slides| && 0 <= k < |slides[i]| && slides[i][k].text.Some? ==> slides[i][k].text.value in ShapeTexts(slides)
    ensures forall t :: t in ShapeTexts(slides) ==> exists i :: 0 <= i < |slides| && Shape(Some(t)) in slides[i]
  {
    if |slides| > 0 {
      var n := |slides| - 1;
      ShapeTextsMembers(slides[..n]);
      assert forall i :: 0 <= i < n ==> slides[..n][i] == slides[i];
    }
  }

  /** One more shape adds its text, if it has one, at the end. */
  lemma SlideTextsSnoc(shapes: seq<Shape>, x: Shape)
    ensures SlideTexts(shapes + [x]) == SlideTexts(shapes) + SlideTexts([x])
  {
    assert (shapes + [x])[..|shapes|] == shapes;
    assert [x][..0] == [];
  }

  /** Shapes are read in order: the texts of two runs of shapes are the texts of the first, then those of the second. */
  lemma {:induction false} SlideTextsAppend(a: seq<Shape>, b: seq<Shape>)
    ensures SlideTexts(a + b) == SlideTexts(a) + SlideTexts(b)
    decreases |b|
  {
    if |b| == 0 {
      assert a + b == a;
    } else {
      var rest, x := b[..|b| - 1], b[|b| - 1];
      SplitLast(b);
      AppendAssoc(a, rest, [x]);
      SlideTextsAppend(a, rest);
      SlideTextsSnoc(a + rest, x);
      SlideTextsSnoc(rest, x);
      AppendAssoc(SlideTexts(a), SlideTexts(rest), SlideTexts([x]));
    }
  }

  /** One more slide adds its texts at the end. */
  lemma ShapeTextsSnoc(slides: seq<seq<Shape>>, x: seq<Shape>)
    ensures ShapeTexts(slides + [x]) == ShapeTexts(slides) + SlideTexts(x)
  {
    assert (slides + [x])[..|slides|] == slides;
  }

  /** If appending `rest` keeps the order, so does appending `rest` and one more slide. */
  lemma ShapeTextsAppendStep(a: seq<seq<Shape>>, rest: seq<seq<Shape>>, x: seq<Shape>)
    requires ShapeTexts(a + rest) == ShapeTexts(a) + ShapeTexts(rest)
    ensures ShapeTexts(a + (rest + [x])) == ShapeTexts(a) + ShapeTexts(rest + [x])
  {
    AppendAssoc(a, rest, [x]);
    ShapeTextsSnoc(a + rest, x);
    ShapeTextsSnoc(rest, x);
    AppendAssoc(ShapeTexts(a), ShapeTexts(rest), SlideTexts(x));
  }

  /** Slides are read in order: the texts of two runs of slides are those of the first, then those of the second. */
  lemma {:induction false} ShapeTextsAppend(a: seq<seq<Shape>>, b: seq<seq<Shape>>)
    ensures ShapeTexts(a + b) == ShapeTexts(a) + ShapeTexts(b)
    decreases |b|
  {
    if |b| == 0 {
      assert a + b == a;
    } else {
      var rest, x := b[..|b| - 1], b[|b| - 1];
      SplitLast(b);
      ShapeTextsAppend(a, rest);
      ShapeTextsAppendStep(a, rest, x);
    }
  }

  /** extract_text_from_ppt: the shape texts joined by newlines, or a tagged failure. */
  function PptxText(doc: PptxDocument): (text: string)
    ensures doc.PptxUnreadable? ==> StartsWith(text, PptxErrorPrefix) && ErrorTagged(text)
  {
    match doc
    case PptxUnreadable(reason) =>
      ErrorPrefixTagged(" reading PPTX: " + reason);
      var t := PptxErrorPrefix + reason;
      assert t == "Error" + (" reading PPTX: " + reason);
      assert t[..|PptxErrorPrefix|] == PptxErrorPrefix;
      t
    case Slides(slides) => Join(ShapeTexts(slides), "\n")
  }

  /** Every shape text of a readable presentation appears in the extracted text. */
  lemma PptxContainsEveryShapeText(slides: seq<seq<Shape>>, i: nat, k: nat)
    requires i < |slides| && k < |slides[i]| && slides[i][k].text.Some?
    ensures Contains(PptxText(Slides(slides)), slides[i][k].text.value)
  {
    var texts := ShapeTexts(slides);
    var t := slides[i][k].text.value;
    ShapeTextsMembers(slides);
    assert t in texts;
    var j :| 0 <= j < |texts| && texts[j] == t;
    JoinContainsParts(texts, "\n", j);
  }

  /**
    When no shape text holds a newline, splitting the extracted text on
    newlines gives back the shape texts, in order and with repeats.
   */
  lemma PptxTextSplitsBack(slides: seq<seq<Shape>>)
    requires |ShapeTexts(slides)| > 0
    requires forall i, k :: 0 <= i < |slides| && 0 <= k < |slides[i]| && slides[i][k].text.Some? ==> '\n' !in slides[i][k].text.value
    ensures Split(PptxText(Slides(slides)), '\n') == ShapeTexts(slides)
  {
    var texts := ShapeTexts(slides);
    ShapeTextsMembers(slides);
    forall j | 0 <= j < |texts| ensures '\n' !in texts[j] {
      assert texts[j] in texts;
      var i :| 0 <= i < |slides| && Shape(Some(texts[j])) in slides[i];
      var k :| 0 <= k < |slides[i]| && slides[i][k] == Shape(Some(texts[j]));
    }
    JoinSplit(texts, '\n');
    assert "\n" == ['\n'];
  }

  /** The inner loop of extract_text_from_ppt: the texts of one slide's shapes that have text. */
  method ExtractSlide(shapes: seq<Shape>) returns (onSlide: seq<string>)
    ensures onSlide == SlideTexts(shapes)
  {
    var j := 0;
    onSlide := [];
    while j < |shapes|
      invariant 0 <= j <= |shapes|
      invariant onSlide == SlideTexts(shapes[..j])
    {
      assert shapes[..j + 1][..j] == shapes[..j];
      if shapes[j].text.Some? {
        onSlide := onSlide + [shapes[j].text.value];
      }
      j := j + 1;
    }
    assert shapes[..|shapes|] == shapes;
  }

  /** The shape loops of extract_text_from_ppt, collecting texts and joining them at the end. */
  method ExtractPptx(doc: PptxDocument) returns (text: string)
    ensures text == PptxText(doc)
  {
    match doc {
      case PptxUnreadable(reason) =>
        text := PptxErrorPrefix + reason;
      case Slides(slides) =>
        var texts: seq<string> := [];
        var i := 0;
        while i < |slides|
          invariant 0 <= i <= |slides|
          invariant texts == ShapeTexts(slides[..i])
        {
          var onSlide := ExtractSlide(slides[i]);
          assert slides[..i + 1][..i] == slides[..i];
          texts := texts + onSlide;
          i := i + 1;
        }
        assert slides[..|slides|] == slides;
        text := Join(texts, "\n");
    }
  }

  // ---------------------------------------------------------------------
  // Dispatch
  // ---------------------------------------------------------------------

  const PresentationMime := "vnd.openxmlformats-officedocument.presentationml.presentation"
  const UnsupportedMarker := "Unsupported file type for text extraction."

  datatype FileKind = PdfFile | PptxFile | UnsupportedFile

  /** The reader an upload is sent to, chosen from its MIME type and, for PPTX only, its name. */
  function SelectKind(mimeType: string, name: string): (kind: FileKind)
    ensures kind == PdfFile <==> Contains(mimeType, "pdf")
    ensures kind == PptxFile <==> !Contains(mimeType, "pdf") && (Contains(mimeType, PresentationMime) || EndsWith(name, ".pptx"))
  {
    if Contains(mimeType, "pdf") then PdfFile
    else if Contains(mimeType, PresentationMime) || EndsWith(name, ".pptx") then PptxFile
    else UnsupportedFile
  }

  /** An uploaded file, with what each reader would make of its bytes. */
  datatype Upload = Upload(mimeType: string, name: string, asPdf: PdfDocument, asPptx: PptxDocument)

  /** extract_text_from_file: None for no upload, otherwise the text of the selected reader or the unsupported marker. */
  function ExtractFromFile(upload: Option<Upload>): (r: Option<string>)
    ensures upload.None? <==> r.None?
    ensures upload.Some? && SelectKind(upload.value.mimeType, upload.value.name) == PdfFile ==> r == Some(PdfText(upload.value.asPdf))
    ensures upload.Some? && SelectKind(upload.value.mimeType, upload.value.name) == PptxFile ==> r == Some(PptxText(upload.value.asPptx))
    ensures upload.Some? && SelectKind(upload.value.mimeType, upload.value.name) == UnsupportedFile ==> r == Some(UnsupportedMarker)
  {
    match upload
    case None => None
    case Some(u) =>
      match SelectKind(u.mimeType, u.name)
      case PdfFile => Some(PdfText(u.asPdf))
      case PptxFile => Some(PptxText(u.asPptx))
      case UnsupportedFile => Some(UnsupportedMarker)
  }

  /** A PDF MIME type wins even when the name ends in ".pptx". */
  lemma PdfTakesPrecedence(u: Upload)
    requires Contains(u.mimeType, "pdf") && EndsWith(u.name, ".pptx")
    ensures ExtractFromFile(Some(u)) == Some(PdfText(u.asPdf))
  {
  }

  /** The unsupported marker does not contain "Error", so the caller's error check lets it through as if it were text. */
  lemma UnsupportedMarkerNotTagged()
    ensures !ErrorTagged(UnsupportedMarker)
  {
    assert 'E' !in UnsupportedMarker;
    MissingCharExcludes(UnsupportedMarker, "Error", 0);
  }

  /** Every reader failure of a supported upload is error-tagged. */
  lemma FileFailuresAreTagged(u: Upload)
    requires SelectKind(u.mimeType, u.name) == PdfFile ==> u.asPdf.PdfUnreadable?
    requires SelectKind(u.mimeType, u.name) == PptxFile ==> u.asPptx.PptxUnreadable?
    requires SelectKind(u.mimeType, u.name) != UnsupportedFile
    ensures ExtractFromFile(Some(u)).Some? && ErrorTagged(ExtractFromFile(Some(u)).value)
  {
  }
}

=== FILE: wrappers.dfy ===
/** Failure-compatible wrappers shared by every module of the model. */
module Wrappers {

  /** Python's `None` or a present value. */
  datatype Option<+T> = None | Some(value: T) {

    /** The value, or `default` when absent (Python's `x if x is not None else default`). */
    function GetOr(default: T): T {
      match this
      case Some(v) => v
      case None => default
    }
  }

  /** An outcome that is either a value or a raised exception. */
  datatype Result<+R, +E> = Success(value: R) | Failure(error: E) {

    predicate IsFailure() {
      Failure?
    }

    function PropagateFailure<U>(): Result<U, E>
      requires Failure?
    {
      Failure(error)
    }

    function Extract(): R
      requires Success?
    {
      value
    }
  }
}
